=== FILE: README.md ===
# virtual-fixture core in Dafny

A model of the game engine in `Core/` of the virtual-fixture roguelike (package
`byog.Core`). The game works on a W×H grid of tiles. A world is generated from a seed:

- rooms are placed by rejection sampling, then chained greedily and joined by L-shaped hallways;
- walls grow in place around every carved cell;
- traps and energy are scattered over room floors;
- the player and the player's buddy are placed in the first room.

The player walks with W/A/S/D. Traps cost a life. Energy, collected while in the digital
world, charges the buddy, and a full charge demolishes every trap. What the player sees
is computed by Bresenham sight lines:

- an analog "seen world" keeps a dimmed memory of cells seen before;
- a digital "virtual world" shows only what is visible now.

Switching worlds plays an animation ordered by a step field. The step field is the
relaxed distance of each cell to the nearest wall. A replay string `N<seed>S<commands>`
(or `L<commands>` for a saved world) drives all of this without a keyboard.

Each Java class becomes one module. Each file holds one module.

| file | module | Java |
|---|---|---|
| `java_int.dfy` | `JavaInt` | `Math.abs`, `Math.min`, `Math.max` and truncating `/ 2` on `int` |
| `points.dfy` | `Points` | `Point` |
| `rooms.dfy` | `Rooms` | `Room` |
| `hallways.dfy` | `Hallways` | `Hallway`, `HallwayCollection`, `World.generateHallways` |
| `room_collection.dfy` | `RoomCollection` | `RoomCollection` |
| `tiles.dfy` | `TileKinds` | the tile kinds of `Tileset` and `World` |
| `grids.dfy` | `Grids` | the `TETile[][]` arrays |
| `registry.dfy` | `Registry` | `Trap` and `Energy` |
| `random.dfy` | `Random` | the draws taken from `java.util.Random` |
| `actors.dfy` | `Actors` | `Player` and `Buddy` |
| `outcomes.dfy` | `Outcomes` | the runtime exceptions the code can throw |
| `builder.dfy` | `Builder` | `Builder` |
| `generation.dfy` | `Generation` | the `World` constructor, `generateRooms`, `generatePlayer` |
| `worlds.dfy` | `Worlds` | `World`'s state changes and `movePlayer` |
| `bresenham.dfy` | `Bresenham` | `BresenhamLine` |
| `environment.dfy` | `Environments` | `Environment` |
| `animation.dfy` | `Animations` | `Animation` without rendering |
| `replay.dfy` | `Replay` | `Game.playWithInputString` and `Game.parseInputAndMove` |

Modelling choices:

- **Randomness.** The `java.util.Random` generator is an oracle: `Rng(draws, pos)`
  supplies the n-th draw as a natural number.
  - `nextInt(k)` is that draw modulo `k`.
  - `nextDouble()` is that draw modulo 2^53, counted in units of 2^-53.
  - A test `nextDouble() < p` compares against the exact number of units below `p`.
  - Every method that draws states how far it moved the oracle, so draws are consumed in
    the source's order.
- **Hallway shape.** Every `Hallway` seeds a fresh `Random(1086)`, so all hallways take the
  same branch of `makeHallway`. The constant `Hallways.VerticalFirst` fixes that branch.
  The hallway functions stay parametric in it.
- **Grids** are `seq<seq<Tile>>`, indexed x first.
- **Crashes.** Runtime exceptions are `Outcomes.Outcome`: an index out of bounds, or
  `removeFirst` on an empty list.
- **Visibility** is computed once per frame into a ghost grid `Environments.Sight`. The
  methods read visibility from it one cell at a time.

## Model

| member | source | states |
|---|---|---|
| JavaInt.Half | Core/Buddy.java:102 | `dx / 2` truncates toward zero: the remainder has the sign of the dividend and magnitude at most 1 |
| Random.NextInt | Core/World.java:199-202 | `nextInt(bound)` gives the oracle's draw at the current position reduced below the bound, and advances the position by exactly one |
| Points.Dist2 | Core/Point.java:26-28 | the distance between two points is zero exactly when they are the same point (squared distance in integers) |
| Points.DistSymmetric | Core/Point.java:26-28 | `a.distance(b)` equals `b.distance(a)` |
| Points.Neighbours8 | Core/Builder.java:86-93 | the eight `checkPoints` are exactly the cells at Chebyshev distance 1 |
| Rooms.Center | Core/Room.java:23 | the centre is the corners' midpoint truncated, i.e. rounded down for non-negative sums, and lies inside a room with non-negative corners in order |
| Rooms.NewRoom | Core/Room.java:18-33 | the tiles are exactly the cells of the half-open rectangle, width·height of them, strictly x-major ordered (so no duplicates); for a room with non-negative origin and positive size the truncated centre is one of its tiles |
| Rooms.BlockShape | Core/Room.java:28-32 | the nested tile loops produce (xEnd−x)·(y2−y1) cells, exactly those of the rectangle, in strictly increasing x-major order |
| Rooms.IntersectsSymmetric | Core/Room.java:41-43 | `a.intersects(b)` iff `b.intersects(a)` |
| Rooms.IntersectsReflexive | Core/Room.java:41-43 | a room with non-negative size intersects itself |
| Rooms.TouchingIntersects | Core/Room.java:41-43 | rooms that only share the boundary line x2 == other.x1 count as intersecting (closed intervals) |
| Rooms.ApartRoomsSeparated | Core/Room.java:28-43 | tiles of two non-intersecting rooms are at least two apart in x or in y, so a full column or row lies between them |
| Hallways.Vertical | Core/Hallway.java:45-51 | the vertical run has abs(Δy)+1 cells, exactly the column x between the two y's, ascending |
| Hallways.Horizontal | Core/Hallway.java:59-65 | the horizontal run has abs(Δx)+1 cells, exactly the row y between the two x's, ascending |
| Hallways.HallwayShape | Core/Hallway.java:29-37 | a hallway holds both centres, has abs(Δx)+abs(Δy)+2 cells, stays in their bounding box, and lists the corner twice and every other cell once |
| Hallways.MakeHallway | Core/Hallway.java:29-37 | both centres lie on the hallway, which has abs(Δx)+abs(Δy)+2 cells because the corner is listed by both runs; the coin's outcome is a parameter |
| Hallways.VerticalFirstRuns | Core/Hallway.java:15-37 | in the fixed branch the first run is the column at A.x, the second the row at B.y, and both contain the corner (A.x, B.y) |
| Hallways.GenerateHallways | Core/World.java:233-242 | there are one fewer than the rooms hallways, the i-th holds the centres of rooms i and i+1 and stays in their bounding box |
| Hallways.HallAt | Core/World.java:236-240 | hallway k of the loop from room i is the hallway between the centres of rooms i+k and i+k+1 |
| Hallways.HallsFromJoined | Core/World.java:236-240 | every hallway of the loop holds the centres of its two rooms and stays in their bounding box |
| RoomCollection.FloorTiles | Core/RoomCollection.java:19-26 | a cell is a floor tile iff it is a tile of some room of the collection |
| RoomCollection.FloorTilesAppend | Core/RoomCollection.java:19-35 | after `add(r)` the floor tiles are the old ones followed by r's tiles |
| RoomCollection.FindNearest | Core/RoomCollection.java:60-74 | the index returned is in range; no later room beats it by the source's test; it is 0 exactly when no room beats room 0; any index other than 0 beat some earlier incumbent |
| RoomCollection.NearestFromSpec | Core/RoomCollection.java:64-72 | the scan from index i keeps its incumbent iff no remaining room beats it; a new incumbent is beaten by no later room and beat an earlier one |
| RoomCollection.FindNearestPrefix | Core/RoomCollection.java:60-74 | the result on one room is 0, and on the first n + 1 rooms it is n if room n beats the result on the first n rooms, else that result: the loop's recurrence, which fixes the index |
| RoomCollection.FindNearestIsNotNearest | Core/RoomCollection.java:68-69 | the replacement test compares room i with `current` and with the incumbent, so a room nearer to `current` can lose |
| RoomCollection.Chain | Core/RoomCollection.java:127-136 | the loop's output is a permutation of the rooms still to be traversed |
| RoomCollection.PendingAll | Core/RoomCollection.java:129 | after `removeFirst` every remaining position from 1 on is still to be traversed, in order |
| RoomCollection.PendingRemove | Core/RoomCollection.java:133-134 | removing the picked room from the untraversed ones leaves the others in their original order |
| RoomCollection.ChainGreedy | Core/RoomCollection.java:127-136 | each pass of the loop takes, at the position `findNearest` picks from the last traversed room, a room not yet traversed, the untraversed rooms kept in their original order |
| RoomCollection.SortByDistance | Core/RoomCollection.java:123-137 | a non-empty collection is permuted, keeping its size and its first room |
| RoomCollection.SortByDistanceGreedy | Core/RoomCollection.java:123-137 | after the first room, each room of the result is the one `findNearest`, measured from the room placed before it, picks among the rooms of the collection not yet placed, in their original order; every other room is placed exactly once |
| Registry.NewRegistry | Core/Trap.java:14-17 | a new registry is empty and remembers its tile (same for `Energy`, Core/Energy.java:15-18) |
| Registry.Add | Core/Trap.java:31-33 | `addTrap` appends at the end, grows the list by one and leaves earlier entries and the tile unchanged |
| Registry.AddKeepsDuplicates | Core/Trap.java:31-33 | a position added twice is listed twice |
| Registry.AddAll | Core/Builder.java:115-121 | registering a batch of picked cells appends them in order |
| Registry.RemoveAll | Core/Trap.java:45-49 | `removeAllTraps` leaves the list empty and the tile unchanged (same for `removeAllEnergys`, Core/Energy.java:46-50) |
| Actors.NewPlayer | Core/Player.java:20-29 | a new player stands at the given cell remembering its tile, with 5 lives, in the analog world |
| Actors.BuddyStart | Core/Player.java:26 | the buddy starts one cell to the right of the player, at Chebyshev distance 1 |
| Actors.NewBuddy | Core/Buddy.java:19-26 | a new buddy stands at the given cell remembering its tile, with no charges |
| Actors.Move | Core/Player.java:66-69 | `move` sets the position and the remembered tile and keeps lives and world |
| Actors.SwitchWorlds | Core/Player.java:132-134 | `switchWorlds` toggles `digital` and changes nothing else |
| Actors.SwitchWorldsTwice | Core/Player.java:132-134 | switching twice is the identity |
| Actors.Step | Core/Game.java:256-286 | each command moves by exactly one cell in a cardinal direction: up is y + 1, down y − 1, right x + 1, left x − 1 |
| Actors.Follow | Core/Buddy.java:90-113 | the buddy stays put when the player is within one cell on both axes; on a straight chase along one axis it closes half the gap, truncated toward zero |
| Actors.FollowStill | Core/Buddy.java:90-113 | the buddy stays put iff the player is within one cell on both axes, and it never lands on the player's cell |
| Actors.FollowKeepsClose | Core/Buddy.java:90-113 | a buddy within one cell of the player stays within one cell after a cardinal step, inside the box of its old cell and the player's new cell |
| Actors.FollowOvershoots | Core/Buddy.java:94-111 | both adjustment blocks use the deltas taken before either runs, so a diagonal chase passes the player: (0,0) toward (4,4) lands on (6,6) |
| Grids.Uniform | Core/World.java:77-81 | the constructor's fill gives a W×H grid holding one tile everywhere |
| Grids.Set | Core/World.java:335-337 | `changeTile` writes one cell and leaves every other cell and the shape unchanged |
| Grids.SetGet | Core/World.java:335-347 | `getTile` after `changeTile` reads back the written tile at that cell and the old tile elsewhere |
| Grids.Paint | Core/Builder.java:43-47 | `makeStructure` makes exactly the listed cells hold the tile and keeps every other cell |
| Builder.PaintAll | Core/Builder.java:43-72 | painting several structures sets exactly the cells of some structure |
| Builder.BuildRooms | Core/Builder.java:54-58 | `buildRooms` turns exactly the room tiles to floor and keeps every other cell |
| Builder.BuildHallways | Core/Builder.java:65-72 | `buildHallways` turns exactly the hallway cells to floor and keeps every other cell |
| Builder.WallIfEmpty | Core/Builder.java:96-103 | an empty neighbour becomes the decorative wall of the next draw and is appended once; a non-empty one is left alone; non-empty cells stay non-empty |
| Builder.WallAround | Core/Builder.java:86-103 | after visiting a cell all eight neighbours are non-empty, only empty cells changed, and every appended wall is a neighbour of that cell |
| Builder.BuildWalls | Core/Builder.java:80-107 | only cells empty when reached change, each to the decorative wall of its own draw, each listed once; non-empty cells keep their tile; every interior cell non-empty beforehand ends enclosed; every wall was placed around an interior non-empty source cell next to it; and the growth cascades: an interior wall placed before the scan reached its own cell ends enclosed too |
| Builder.Scatter | Core/Builder.java:115-136 | one draw per listed tile in order; a tile is picked iff its draw is below the chance; exactly the picked cells hold the new tile, without looking at what was there |
| Builder.PickedStep | Core/Builder.java:131-134 | the tiles picked from a list are the first one when its draw hits, then those picked from the rest with the following draws |
| Builder.PlaceTraps | Core/Builder.java:115-121 | traps go exactly on picked room floor tiles, one draw each, and are appended to the trap registry; a position is appended iff it is a floor tile whose own draw hits the chance (0.25 in the constructor); no other cell changes |
| Builder.PlaceEnergy | Core/Builder.java:130-136 | the same rule for energy (a position is appended iff its floor tile's draw hits), overwriting whatever is there (a trap among them) while the trap registry keeps that position |
| Builder.DemolishAll | Core/Builder.java:143-158 | every listed cell becomes floor and no other cell changes |
| Generation.SizeRange | Core/World.java:186-197 | the size class: below 0.2 gives 4..6, below 0.4 gives 6..8, else 7..12 |
| Generation.Candidate | Core/World.java:186-202 | one attempt takes five draws and yields a room of 4..12 per side inside [1, W−1)×[1, H−1), of the drawn size class |
| Generation.Admit | Core/World.java:205-223 | a candidate is added iff it intersects no room and differs from every centre in both x and y; the first room is kept first |
| Generation.AdmitKeeps | Core/World.java:205-223 | admitting keeps the rooms pairwise apart, well placed, and never uncovers a cell |
| Generation.GenerateRooms | Core/World.java:174-228 | a non-empty collection whose first room is the first candidate, pairwise apart and well placed; exactly the room tiles become floor; the rooms are the fold of the admission rule over the 2500 candidates drawn five draws apart |
| Generation.Attempts | Core/World.java:185-227 | n attempts advance the oracle by 5n draws and admit exactly the fold of the admission rule over their n candidates, keeping rooms well placed and apart and the floor equal to the rooms |
| Generation.CandidatesAt | Core/World.java:185-204 | candidate k is the one drawn from the oracle 5k draws on |
| Generation.Attempt | Core/World.java:185-227 | one attempt advances the oracle by five draws and its collection is the old one with the candidate admitted or not by the rule; the first room stays first, or is the candidate when there was none; rooms stay well placed and pairwise apart; the grid shows floor exactly on the rooms' cells and is unchanged elsewhere |
| Generation.CarvedInterior | Core/World.java:186-242 | every room or hallway cell lies in [1, W−2]×[1, H−2] |
| Generation.Carve | Core/World.java:83-84 | on the empty grid exactly the room and hallway cells are floor; the rooms are the admission fold over the 2500 candidates of the draws, the first candidate first |
| Generation.AdmitEachFirst | Core/World.java:205-223 | admitting further candidates never displaces the first room |
| Generation.SeedRoomsFirst | Core/World.java:185-227 | the first candidate drawn is always admitted and stays the first room |
| Generation.WalledLayout | Core/Builder.java:80-107 | after wall building carved cells are floor and enclosed, other cells are empty or decorative walls, and the wall list holds only non-carved decorative walls |
| Generation.Enclose | Core/World.java:244-246 | `generateWalls` keeps carved cells floor and encloses each; wall i stands off the carved cells and shows the decorative wall of draw i; every other cell stays empty; each wall was grown around a non-empty neighbouring source, and a wall placed before the scan reached it ends enclosed too |
| Generation.GrownDrawn | Core/Builder.java:80-107 | walls grown on the carved grid are off the carved cells with their drawn tiles, every other uncarved cell is empty and carved cells stay floor |
| Generation.Furnish | Core/World.java:86-87 | the traps are exactly the room floor tiles whose draw, taken right after the walls' draws, hits 0.25; the energies those whose draw one pass later hits 0.01; each carved cell ends energy, else trap, else floor; the walls keep their drawn tiles |
| Generation.FurnishCells | Core/Builder.java:115-136 | energies written over traps over the floor leave walls as drawn and make each carved cell show energy, else trap, else floor |
| Generation.Dress | Core/World.java:85-87 | `generateWalls`, `placeTraps(0.25)` and `placeEnergy(0.01)` consume one draw per wall and two per floor tile, and leave the grid the walls, traps and energies of those draws describe |
| Generation.LayoutWallFree | Core/World.java:54-55 | a generated grid never holds the plain wall kind, only the decorative ones |
| Generation.PlacePlayer | Core/World.java:251-256 | the player stands at the first room's centre, the buddy to its right, both remembering the tiles underneath, with 5 lives and no charges; exactly those two cells of the grid change |
| Generation.ActorsFurnished | Core/World.java:251-256 | the two actors written on room cells keep walls and registries as drawn; each remembers the energy, trap or floor its carved cell showed |
| Generation.NewWorld | Core/World.java:68-89 | the constructed world is well formed, the buddy is next to the player, no cell is the plain wall, the draws are consumed in the constructor's order, and the world is the one its draws describe (`FromSeed`): the rooms are the fold over the candidates, each wall shows its own draw, the registries are the floor tiles whose draws hit, every other carved cell shows energy, trap or floor accordingly, and the actors start at the first room's centre remembering those tiles |
| Generation.Settle | Core/World.java:85-89 | after the hallways: walls, traps, energies and actors placed from the given draws, as `NewWorld` states them |
| Generation.SeedFixesWorld | Core/World.java:68-89 | two worlds built from the same draws on one grid size with the same wall list have the same rooms, hallways, actors and grid, and registries with the same members |
| Generation.RegistriesSame | Core/Builder.java:115-136 | two grids furnished from the same draws over the same rooms and walls have registries with the same members |
| Generation.FurnishedSame | Core/World.java:83-89 | two grids furnished from the same draws, with registries of the same members and the same actor tiles, are equal |
| Generation.Populate | Core/World.java:251-256 | on a generated terrain the player stands on the first room's centre and the buddy just right of it, both shown on the grid and remembering the tiles they cover, with the terrain otherwise kept; the world is well formed, tethered, free of the plain wall, and keeps its generated shape |
| Worlds.ChangeTile | Core/World.java:335-337 | only the one cell changes |
| Worlds.DemolishTraps | Core/World.java:316-319 | every registered trap cell becomes floor, nothing else changes, and the trap registry is emptied |
| Worlds.DemolishEnergys | Core/World.java:324-327 | every registered energy cell becomes floor, nothing else changes, and the energy registry is emptied |
| Worlds.DecrementLives | Core/Player.java:114-120 | lives drop by exactly one; below 1 all energy is demolished, otherwise nothing else changes |
| Worlds.AddCharge | Core/Buddy.java:70-76 | charges rise by exactly one; at 5 or more with lives left all traps are demolished, on every later charge too |
| Worlds.Collect | Core/World.java:268-275 | a trap costs a life and becomes floor; energy charges the buddy and becomes floor only in the digital world; otherwise the cell is untouched |
| Worlds.MovePlayer | Core/World.java:263-291 | the player ends on the new cell with lives and charges adjusted, remembering floor after a trap or collected energy and the old tile otherwise; the buddy follows onto its new cell |
| Worlds.PlayerSteps | Core/World.java:268-280 | after collection the player stands on the new cell, which shows it; the buddy is untouched and lives and charges change only by a trap or a collected energy |
| Worlds.BuddyFollows | Core/World.java:283-290 | the buddy stands on its new cell, which shows it, and remembers that cell's old tile (or keeps its memory if it stays); a cell it leaves shows what it remembered; the player and registries are untouched and every cell other than the buddy's old and new ones is kept |
| Worlds.BuddyRemembers | Core/World.java:263-291 | after a move the buddy's memory is unchanged if it stays; the cell it leaves shows its old memory; it remembers the player's old memory if it takes the player's old cell, otherwise the tile that was there (floor if collecting demolished it) |
| Worlds.FollowKeepsPlayer | Core/World.java:280-290 | unless the buddy ends on the player's new cell, that cell still shows the player after the buddy moves |
| Worlds.FollowKeepsCell | Core/World.java:286-290 | the buddy's move leaves alone every cell it neither leaves nor enters |
| Worlds.StepKeepsCell | Core/World.java:277-280 | the player's move leaves every cell other than its old and new ones as collection left it |
| Worlds.CollectFrame | Core/World.java:268-275 | collection changes a cell other than the target only by turning a registered trap or energy into floor |
| Worlds.CanMove | Core/Player.java:74-101 | a move is allowed iff the target cell is not the plain wall kind; a target off the grid throws |
| Worlds.WallsNeverBlock | Core/Player.java:74-77 | in a generated world every in-grid move is allowed, because walls are decorative |
| Worlds.MoveKeepsTethered | Core/World.java:278-290 | after a one-cell move the buddy is still within one cell of the player and inside the grid |
| Worlds.CollectKeepsWallFree | Core/World.java:268-275 | collecting never writes the plain wall kind |
| Worlds.DecrementKeepsWallFree | Core/Player.java:114-120 | losing a life, and the demolition it may trigger, never writes the plain wall kind |
| Worlds.AddChargeKeepsWallFree | Core/Buddy.java:70-76 | adding a charge, and the demolition it may trigger, never writes the plain wall kind |
| Worlds.StepKeepsWallFree | Core/World.java:268-280 | the player's half of a move keeps a world free of the plain wall, on the grid and under both actors |
| Worlds.FollowKeepsWallFree | Core/World.java:283-290 | the buddy's half of a move keeps a world free of the plain wall, on the grid and under both actors |
| Worlds.MoveKeepsWallFree | Core/World.java:263-291 | moving never puts the plain wall kind on the grid or under an actor |
| Worlds.ChangeKeepsWallFree | Core/World.java:335-337 | writing a tile other than the plain wall keeps the grid free of it |
| Worlds.LeavingRestores | Core/World.java:278-279 | the player's old cell gets back the tile remembered underneath, unless the buddy arrives there |
| Worlds.MoveFrame | Core/World.java:263-291 | a cell that is not the old or new position of an actor keeps its tile, or is a registered trap or energy cell turned to floor |
| Worlds.MoveDemolishes | Core/World.java:269-275 | a trap that takes the last life demolishes all energy; energy that completes the charge demolishes all traps; otherwise both registries are unchanged |
| Bresenham.Walk | Core/BresenhamLine.java:80-89 | the loop emits one cell per major coordinate from m to mEnd in increasing order, the first at (m, n) |
| Bresenham.PlotLineLow | Core/BresenhamLine.java:67-90 | the loop emits dx+1 cells, the i-th at x1+i and at the y offset nearest the ideal line (rounding half down) |
| Bresenham.PlotLineHigh | Core/BresenhamLine.java:101-124 | the same with the axes swapped |
| Bresenham.WalkFollowsNearest | Core/BresenhamLine.java:72-89 | the error accumulator tracks the nearest offset: every emitted cell lies at the rounded ideal offset |
| Bresenham.PlotLine | Core/BresenhamLine.java:40-55 | the length is abs(dx)+1 when abs(dy) < abs(dx), else abs(dy)+1; the line starts at one endpoint, contains both, stays in their box, moves one cell per step, and repeats no cell |
| Bresenham.PlotLineSymmetric | Core/BresenhamLine.java:40-55 | swapping the endpoints gives the identical list |
| Environments.ClearFrom | Core/Environment.java:262-270 | the scan finds no plain wall from the given index to the last cell, excluding the last cell |
| Environments.IsVisible | Core/Environment.java:254-272 | a cell is visible iff no cell of the line from the player's cell, other than its ends, is the plain wall; cells within one step of the player are always visible |
| Environments.Sees | Core/Environment.java:254-272 | a cell is visible iff no cell of the sight line other than its ends is the plain wall |
| Environments.SeesSymmetric | Core/Environment.java:254-272 | the player sees a cell iff the cell would see the player |
| Environments.NearIsSeen | Core/Environment.java:254-272 | the player's cell and its eight neighbours are always visible |
| Environments.WallFreeSeesAll | Core/Environment.java:266 | with no plain wall on the grid every cell is visible |
| Environments.Dimmed | Core/Environment.java:165-180 | a remembered floor, trap or energy shows dark floor; decorative wall i shows dark wall i; anything else keeps its display cell |
| Environments.SeenCell | Core/Environment.java:136-188 | an empty tile stays empty with brightness unchanged; otherwise brightness is 2 iff visible and a visible tile is shown (energy as floor); out of sight, a bright or remembered cell drops to 1 and shows its dimmed form, and a never-seen one stays empty; brightness stays in {0,1,2} |
| Environments.CalcSeenWorld | Core/Environment.java:136-188 | every cell of the new display and brightness arrays follows the per-cell rule |
| Environments.SeenWorldInvariants | Core/Environment.java:136-188 | brightness stays in {0,1,2}, a remembered cell stays remembered, and energy never appears in the seen world |
| Environments.CalcVirtualWorld | Core/Environment.java:195-233 | a cell out of sight or empty is empty; visible floor becomes the static tile of the next draw in scan order; the player, buddy, trap and energy become PLAYERV, BUDDYV, FLOORV and ENERGY; anything else WALLV; the oracle advances by one draw per visible floor cell |
| Environments.VirtualCell | Core/Environment.java:199-230 | one cell: empty or unseen gives empty, a visible floor takes the next draw as its static level, any other visible tile is digitised; the oracle advances by one draw exactly for a visible floor |
| Environments.VirtualShowsOnlySight | Core/Environment.java:195-233 | a virtual cell is non-empty iff the tile is non-empty and visible, and static iff it is visible floor |
| Environments.NewEnv | Core/Environment.java:45-64 | both projections start empty with brightness 0, showing the analog world |
| Environments.SwitchWorld | Core/Environment.java:111-121 | the player's world flag toggles, the shown world flips, the alternate is always the virtual array, nothing else changes |
| Environments.SwitchTracksDigital | Core/Environment.java:111-121 | the shown world is the virtual one iff the player is digital, before and after a switch |
| Environments.SwitchTwice | Core/Environment.java:111-121 | switching twice restores the environment and player; in the virtual state current and alternate are the same array |
| Environments.CalcEnvironments | Core/Environment.java:126-129 | both projections are recomputed from one visibility, and a non-empty cell is shown in the virtual world iff it is bright in the seen world |
| Animations.Seeded | Core/Animation.java:102-113 | every cell starts at 10000 and each listed wall at 0 |
| Animations.NeighbourMin | Core/Animation.java:128-142 | the minimum of 1000 and the four cardinal neighbours |
| Animations.Visit | Core/Animation.java:145-149 | an update lowers one interior cell strictly (so the total drops) to exactly one above its neighbour minimum, sets `maxStep` to the written value and `changeMade`; no update changes nothing |
| Animations.NeighbourMinMonotone | Core/Animation.java:128-142 | lowering the four neighbours never raises the neighbour minimum |
| Animations.VisitGrounded | Core/Animation.java:126-151 | a visit keeps every non-zero interior cell above its neighbour minimum |
| Animations.SeededGrounded | Core/Animation.java:102-113 | in the seeded field every non-zero interior cell (10000) is above its neighbour minimum (at most 1000) |
| Animations.SettledExact | Core/Animation.java:100-153 | at the fixpoint every non-zero interior cell is exactly one above its neighbour minimum |
| Animations.Scan | Core/Animation.java:126-151 | a pass only lowers interior non-zero cells; if nothing changed every interior cell is calm |
| Animations.CalcSteps | Core/Animation.java:100-153 | the relaxation terminates with walls at 0, borders untouched, values only lowered and non-negative, and every non-zero interior cell exactly its neighbour minimum plus one (zero cells at most that); `maxStep` is the old value or the value some interior cell holds at the end (each update sets it to the value written, as `Visit` states) |
| Animations.StepsBounded | Core/Animation.java:100-153 | on exit an interior cell is at most 1001, a cell is 0 iff it is a listed wall, and border cells keep their seed |
| Animations.GetStepTiles | Core/Animation.java:161-172 | exactly the cells with the given step, each once, x outer and y inner |
| Animations.StepTilesDisjoint | Core/Animation.java:161-172 | the tiles of two different steps are disjoint |
| Animations.NewAnim | Core/Animation.java:24-33 | a new animation starts analog with `maxStep` 0 and the environment's current and alternate arrays |
| Animations.ShowGlyphs | Core/Animation.java:49-67 | the batch's cells show a transition tile (random analog or the digital one), other cells are unchanged |
| Animations.CopyCells | Core/Animation.java:78-80 | the batch's cells take the other world's content, other cells are unchanged |
| Animations.Batch | Core/Animation.java:44-86 | after batch i every cell with step ≤ i holds the other world's content |
| Animations.TransitionWorld | Core/Animation.java:38-93 | the worlds are swapped and `digital` toggled; the old current array ends with the other world's content exactly at the cells with step in [0, maxStep] |
| Animations.CopiedThrough | Core/Animation.java:44-86 | once every batch up to maxStep is copied, exactly the cells whose step lies in [0, maxStep] show the other world |
| Replay.Upper | Core/Game.java:183 | upper-casing maps a..z to A..Z and leaves other characters |
| Replay.UpperIdempotent | Core/Game.java:254 | upper-casing twice is upper-casing once |
| Replay.Wrap64 | Core/Game.java:184-196 | `long` arithmetic: the result lies in [−2^63, 2^63) and equals the exact value when that fits |
| Replay.ReadSeed | Core/Game.java:195-200 | the seed loop stops on a non-digit at or after index 1, or throws when the input runs out |
| Replay.ReadSeedFolds | Core/Game.java:195-198 | it throws iff every remaining character is a digit; otherwise the seed is the left fold s·10 + code over the digit run |
| Replay.SeedUsesCharacterCodes | Core/Game.java:196 | the character code, not the digit value, is added: "n123s" gives seed 5451 and resumes at index 4 |
| Replay.Command | Core/Game.java:256-286 | W, A, S and D are exactly the four move commands, up, left, down and right |
| Replay.Walk | Core/Game.java:256-286 | a move throws iff the target is off the grid, or is not the plain wall and the buddy's target is off the grid; a wall leaves the world unchanged; otherwise player and buddy move |
| Replay.WalkInside | Core/Game.java:256-286 | in a generated world a move inside the grid always happens and keeps the buddy close |
| Replay.Commands | Core/Game.java:241-297 | replaying keeps the world well formed and its size |
| Replay.ReplayFollowsRoute | Core/Game.java:241-297 | in a generated world a replay throws iff its route leaves the grid, and otherwise ends at the route's end with the buddy close and no plain wall |
| Replay.QuitKeepsWorld | Core/Game.java:288-294 | appending ":q" and anything after it gives the same world and asks for a save |
| Replay.NoQuitNoSave | Core/Game.java:291-296 | without a Q the replay never asks for a save |
| Replay.SavedIffArmedQuit | Core/Game.java:241-297 | a replay that does not throw asks for a save iff it meets a Q while armed, where ':' arms, W/A/S/D disarm and any other character keeps the state |
| Replay.CaseInsensitive | Core/Game.java:254 | upper-casing the commands does not change the outcome |
| Replay.ArmedThroughOthers | Core/Game.java:288-294 | characters other than W/A/S/D do not clear an armed ':': ":xq" saves |
| Replay.StartWorld | Core/Game.java:203 | the world built from the seed is well formed, 80×50, starts from the seed's first candidate, has no plain wall, and is the world those draws describe (`Generation.FromSeed`) |
| Replay.NewGame | Core/Game.java:192-212 | a seed without a terminating non-digit throws; otherwise the commands after the terminator are replayed on the 80×50 world that the draws of `random(seed)` describe (`Generation.FromSeed`) |
| Replay.PlayWithInputString | Core/Game.java:181-230 | empty input throws; a menu letter other than N or L gives no world; L replays the saved world from index 1, or gives no world; N as in `NewGame`, on the world the seed's draws describe |

## Left out

- `Point` setters, getters and `toString`: points are immutable values.
- `Math.sqrt` in `Point.distance`: floating point. The model uses the squared distance, which orders points the same way.
- The LCG inside `java.util.Random` and the arithmetic of `nextDouble`: draws come from the oracle `Random.Rng`.
- The thresholds 0.2, 0.4, 0.25 and 0.01 are kept as exact counts of 2^-53 units.
- `Generation.Candidate`: requires W, H ≥ 14. Smaller grids give `nextInt` a non-positive bound, which throws.
- `HallwayCollection` and `RoomCollection`'s `add`, `size` and `get` are sequence append, length and indexing. `RoomCollection.remove` and `indexOf` are `RemoveAt` and an index, because `findNearest` returns the index.
- `World.addTrap` and `World.addEnergy` are `Registry.Add` on the world's registries.
- `World.getTile` is `Grids.Get`.
- Rendering, `StdDraw` pauses, `HUD`, `GUI`, `StartMenu`, `playWithKeyboard` and the keyboard loop: I/O.
- `serializeWorld` and `deserializeWorld` are file I/O.
  - The replay reports whether it would save.
  - `L` takes the saved world as a parameter.
  - `Replay.PlayWithInputString` returns the final world, not the tile array drawn from it.
- Array aliasing between `Environment`, `Animation` and `Player`: the model passes explicit values. `Environments.SwitchWorld` keeps the source's choice that the alternate is always the virtual array.
- `Builder.BuildWalls`: states that each new wall's source cell is interior, next to it and non-empty at the end of the scan. It does not state that the source was already non-empty when the scan visited it.
- `Animations.CalcSteps`: states that `maxStep` is the old value or a value held by some interior cell at the end. It does not state that this is the value of the last update of the last changing pass, rather than the maximum; the per-update fact is stated by `Animations.Visit` only.
- `Generation.NewWorld`: `FromSeed` fixes the world only up to its wall list, so `Generation.SeedFixesWorld` takes equal wall lists as given. The list is described where it is built (`Generation.Enclose`, `Builder.BuildWalls`) but not as one unique sequence. The registries are fixed as sets of positions, not in their list order.
- `Replay.NewGame`: the same limits as `Generation.NewWorld` apply to the world it starts from, which is why a replayed game is described through `Generation.FromSeed` and not by a closed formula.
- `Animations.ShowGlyphs`: only states that the analog transition tile has a variant below 6. The glyphs chosen by `getRandomAnalog` are rendering.
- 32-bit `int` overflow is not modelled: all grid values stay far below 2^31. The 64-bit wrap of the seed accumulator is modelled by `Replay.Wrap64`.
- `Replay.Upper`: ASCII only. Java's `Character.toUpperCase` also maps some other characters onto A..Z (U+017F long s to 'S', U+0131 dotless i to 'I'); the model treats those characters as ignored commands.
- `Replay.ReadSeed`: ASCII digits only. Java's `Character.isDigit` also accepts non-ASCII digits; the model treats those characters as seed terminators.
- `Bresenham.PlotLine`: each call returns a fresh list. Calling `plotLine` twice on one object would append the points again, but the source builds a new object for every sight line.
- `Animations.Visit`: states that an update lowers a cell by at least 1, not at least 2.
  - Since `stepArray[x][y] − minValue > 1`, the new value `minValue + 1` is in fact at least one below the old one.
  - The termination argument only needs a strict decrease of the non-negative total.
- `Animations.TransitionWorld`: cells whose step exceeds the final `maxStep` keep the current world's content. This includes border cells, which keep 10000.
- Walls never block: `canMove*` and `isVisible` test the plain wall kind, but generation only writes decorative walls.
  - The player can walk through walls and off the grid, which throws (`Replay.Walk`, `Replay.ReplayFollowsRoute`).
  - Every cell is visible (`Environments.WallFreeSeesAll`).
- `Environments.CalcVirtualWorld`: the choice among the five static floor tiles is an oracle draw.

=== FILE: actors.dfy ===
/** `Player` and `Buddy`: position, the remembered tile underneath, lives,
    charges, and the buddy's follow rule. The parts that reach into the world
    (`decrementLives`, `addCharge`) are in module `Worlds`. */
module Actors {
  import opened JavaInt
  import opened Points
  import opened TileKinds

  const StartLives: int := 5
  const ChargesNeeded: int := 5

  datatype Player = Player(pos: Point, above: Tile, lives: int, digital: bool)
  datatype Buddy = Buddy(pos: Point, above: Tile, charges: int)

  /** The buddy starts one cell to the right of the player. */
  function BuddyStart(p: Point): (b: Point)
    ensures b.y == p.y && b.x == p.x + 1 && Chebyshev(p, b) == 1
  {
    Point(p.x + 1, p.y)
  }

  /** The `Player` constructor, given the tile at the start cell. */
  function NewPlayer(pos: Point, tileThere: Tile): (p: Player)
    ensures p.pos == pos && p.above == tileThere
    ensures p.lives == StartLives && !p.digital
  {
    Player.Player(pos, tileThere, StartLives, false)
  }

  /** The `Buddy` constructor, given the tile at its start cell. */
  function NewBuddy(pos: Point, tileThere: Tile): (b: Buddy)
    ensures b.pos == pos && b.above == tileThere && b.charges == 0
  {
    Buddy.Buddy(pos, tileThere, 0)
  }

  /** `Player.move`: the new position, and the tile found there becomes the
      remembered one; lives and world are untouched. */
  function Move(p: Player, to: Point, tileThere: Tile): (p': Player)
    ensures p'.pos == to && p'.above == tileThere
    ensures p'.lives == p.lives && p'.digital == p.digital
  {
    p.(pos := to, above := tileThere)
  }

  /** `Player.switchWorlds`: toggles `digital` only. */
  function SwitchWorlds(p: Player): (p': Player)
    ensures p'.digital == !p.digital
    ensures p'.pos == p.pos && p'.above == p.above && p'.lives == p.lives
  {
    p.(digital := !p.digital)
  }

  lemma SwitchWorldsTwice(p: Player)
    ensures SwitchWorlds(SwitchWorlds(p)) == p
  {
  }

  /** The four single-cell moves of the replay commands. */
  datatype Direction = Up | Left | Down | Right

  /** Up raises y and Down lowers it; Right raises x and Left lowers it. */
  function Step(p: Point, d: Direction): (q: Point)
    ensures Abs(q.x - p.x) + Abs(q.y - p.y) == 1
    ensures (q.y > p.y <==> d == Up) && (q.y < p.y <==> d == Down)
    ensures (q.x > p.x <==> d == Right) && (q.x < p.x <==> d == Left)
  {
    match d
    case Up => Point(p.x, p.y + 1)
    case Left => Point(p.x - 1, p.y)
    case Down => Point(p.x, p.y - 1)
    case Right => Point(p.x + 1, p.y)
  }

  /** `Buddy.follow` from `b` toward the player at `p`. Both blocks use the
      deltas computed before either runs; `/ 2` truncates toward zero. */
  function Follow(b: Point, p: Point): (r: Point)
    ensures Abs(p.x - b.x) <= 1 && Abs(p.y - b.y) <= 1 ==> r == b
    ensures p.y == b.y ==> r == Point(b.x + (if Abs(p.x - b.x) > 1 then Half(p.x - b.x) else 0), b.y)
    ensures p.x == b.x ==> r == Point(b.x, b.y + (if Abs(p.y - b.y) > 1 then Half(p.y - b.y) else 0))
  {
    var dx, dy := p.x - b.x, p.y - b.y;
    var x1 := if Abs(dx) > 1 then b.x + Half(dx) else b.x;
    var y1 := if Abs(dx) > 1 && Abs(dy) > 0 then b.y + dy else b.y;
    var x2 := if Abs(dy) > 1 && Abs(dx) > 0 then x1 + dx else x1;
    var y2 := if Abs(dy) > 1 then y1 + Half(dy) else y1;
    Point(x2, y2)
  }

  /** Within one cell in both axes the buddy stays put; otherwise it moves
      and never onto the player's cell. */
  lemma FollowStill(b: Point, p: Point)
    ensures Follow(b, p) == b <==> Abs(p.x - b.x) <= 1 && Abs(p.y - b.y) <= 1
    ensures Follow(b, p) != p || Follow(b, p) == b
  {
  }

  /** The follow invariant: a buddy within one cell of the player stays
      within one cell after the player takes one step in a cardinal
      direction, and it lands inside the box spanned by its old cell and the
      player's new one. */
  lemma FollowKeepsClose(b: Point, p: Point, d: Direction)
    requires Chebyshev(b, p) <= 1
    ensures var q := Step(p, d);
            var r := Follow(b, q);
            && Chebyshev(r, q) <= 1
            && Min(b.x, q.x) <= r.x <= Max(b.x, q.x)
            && Min(b.y, q.y) <= r.y <= Max(b.y, q.y)
  {
  }

  /** When the player is more than one cell away in both axes, the two
      blocks add up and the buddy passes the player: from (0, 0) toward
      (4, 4) it lands on (6, 6). */
  lemma FollowOvershoots()
    ensures Follow(Point(0, 0), Point(4, 4)) == Point(6, 6)
  {
  }
}

=== FILE: animation.dfy ===
/** `Animation`: the step field that orders the cells of a world switch by
    their distance from the walls, and the data part of the switch itself
    (which cells end up holding the other world's content). */
module Animations {
  import opened Points
  import opened Grids
  import opened TileKinds
  import opened Random
  import opened Rooms

  /** The value every cell starts from. */
  const Unreached: int := 10000
  /** The value the neighbour minimum starts from: lower than `Unreached`,
      so a cell with no reached neighbour still drops to 1001. */
  const MinSeed: int := 1000

  // ------------------------------------------------------------- sums

  ghost function Sum(s: seq<int>): int
    decreases |s|
  {
    if |s| == 0 then 0 else s[0] + Sum(s[1..])
  }

  ghost function Total(g: Grid<int>): int
    decreases |g|
  {
    if |g| == 0 then 0 else Sum(g[0]) + Total(g[1..])
  }

  lemma {:induction false} SumUpdate(s: seq<int>, i: nat, v: int)
    requires i < |s|
    ensures Sum(s[i := v]) == Sum(s) - s[i] + v
    decreases |s|
  {
    if i == 0 {
      assert s[i := v][1..] == s[1..];
    } else {
      assert s[i := v][1..] == s[1..][i - 1 := v];
      SumUpdate(s[1..], i - 1, v);
    }
  }

  lemma {:induction false} TotalUpdate(g: Grid<int>, i: nat, c: seq<int>)
    requires i < |g|
    ensures Total(g[i := c]) == Total(g) - Sum(g[i]) + Sum(c)
    decreases |g|
  {
    if i == 0 {
      assert g[i := c][1..] == g[1..];
    } else {
      assert g[i := c][1..] == g[1..][i - 1 := c];
      TotalUpdate(g[1..], i - 1, c);
    }
  }

  ghost predicate NonNegative(g: Grid<int>) {
    forall x, y :: 0 <= x < |g| && 0 <= y < |g[x]| ==> g[x][y] >= 0
  }

  lemma {:induction false} SumNonNegative(s: seq<int>)
    requires forall i :: 0 <= i < |s| ==> s[i] >= 0
    ensures Sum(s) >= 0
    decreases |s|
  {
    if |s| > 0 {
      SumNonNegative(s[1..]);
    }
  }

  lemma {:induction false} TotalNonNegative(g: Grid<int>)
    requires NonNegative(g)
    ensures Total(g) >= 0
    decreases |g|
  {
    if |g| > 0 {
      SumNonNegative(g[0]);
      assert NonNegative(g[1..]) by {
        forall x, y | 0 <= x < |g[1..]| && 0 <= y < |g[1..][x]|
          ensures g[1..][x][y] >= 0
        {
          assert g[1..][x] == g[x + 1];
        }
      }
      TotalNonNegative(g[1..]);
    }
  }

  /** Lowering one cell lowers the total by the same amount. */
  lemma SetTotal(g: Grid<int>, x: nat, y: nat, v: int)
    requires x < |g| && y < |g[x]|
    ensures Total(Set(g, Point(x, y), v)) == Total(g) - g[x][y] + v
  {
    SumUpdate(g[x], y, v);
    TotalUpdate(g, x, g[x][y := v]);
  }

  // ------------------------------------------------------- the step field

  /** The field before relaxation: `Unreached` everywhere, 0 on the listed
      wall cells. */
  function Seeded(w: nat, h: nat, walls: seq<Point>): (g: Grid<int>)
    requires AllIn(walls, w, h)
    ensures IsGrid(g, w, h)
    ensures forall x, y :: 0 <= x < w && 0 <= y < h ==>
              g[x][y] == if Point(x, y) in walls then 0 else Unreached
  {
    Paint(Uniform(w, h, Unreached), w, h, walls, 0)
  }

  /** The scan's neighbour minimum at an interior cell: the least of
      `MinSeed` and the four cardinal neighbours, taken in the order
      right, left, up, down. */
  function NeighbourMin(g: Grid<int>, w: nat, h: nat, x: int, y: int): (m: int)
    requires IsGrid(g, w, h) && 1 <= x < w - 1 && 1 <= y < h - 1
    ensures m <= MinSeed && m <= g[x + 1][y] && m <= g[x - 1][y] && m <= g[x][y + 1] && m <= g[x][y - 1]
    ensures m == MinSeed || m == g[x + 1][y] || m == g[x - 1][y] || m == g[x][y + 1] || m == g[x][y - 1]
  {
    var m0 := MinSeed;
    var m1 := if g[x + 1][y] < m0 then g[x + 1][y] else m0;
    var m2 := if g[x - 1][y] < m1 then g[x - 1][y] else m1;
    var m3 := if g[x][y + 1] < m2 then g[x][y + 1] else m2;
    if g[x][y - 1] < m3 then g[x][y - 1] else m3
  }

  /** An interior cell at rest: no more than one above its neighbour
      minimum. */
  ghost predicate Calm(g: Grid<int>, w: nat, h: nat, x: int, y: int)
    requires IsGrid(g, w, h) && 1 <= x < w - 1 && 1 <= y < h - 1
  {
    g[x][y] - NeighbourMin(g, w, h, x, y) <= 1
  }

  /** The relaxation's fixpoint: every interior cell at rest. */
  ghost predicate Settled(g: Grid<int>, w: nat, h: nat)
    requires IsGrid(g, w, h)
  {
    forall x, y :: 1 <= x < w - 1 && 1 <= y < h - 1 ==> Calm(g, w, h, x, y)
  }

  /** `g` is reachable from `g0` by updates: no cell rose or went negative,
      the zero cells are the same, and the border is untouched. */
  ghost predicate Relaxed(g0: Grid<int>, g: Grid<int>, w: nat, h: nat) {
    && IsGrid(g0, w, h) && IsGrid(g, w, h)
    && (forall x, y :: 0 <= x < w && 0 <= y < h ==> 0 <= g[x][y] <= g0[x][y] && (g[x][y] == 0 <==> g0[x][y] == 0))
    && (forall x, y :: 0 <= x < w && 0 <= y < h && !Interior(Point(x, y), w, h) ==> g[x][y] == g0[x][y])
  }

  lemma RelaxedTrans(g0: Grid<int>, g1: Grid<int>, g2: Grid<int>, w: nat, h: nat)
    requires Relaxed(g0, g1, w, h) && Relaxed(g1, g2, w, h)
    ensures Relaxed(g0, g2, w, h)
  {
  }

  /** The state the scan carries: the field, `maxStep` and `changeMade`. */
  datatype Field = Field(steps: Grid<int>, maxStep: int, changed: bool)

  /** The cells before (x, y) in scan order over the interior. */
  ghost predicate ScannedBefore(p: Point, x: int, y: int) {
    p.x < x || (p.x == x && p.y < y)
  }

  /** One visit of `calcSteps`' scan at interior cell (x, y). */
  function Visit(f: Field, w: nat, h: nat, x: int, y: int): (f': Field)
    requires IsGrid(f.steps, w, h) && NonNegative(f.steps) && 1 <= x < w - 1 && 1 <= y < h - 1
    ensures Relaxed(f.steps, f'.steps, w, h)
    ensures Calm(f'.steps, w, h, x, y)
    ensures f'.changed == (f.changed || f'.steps != f.steps)
    ensures f'.steps == f.steps ==> f'.maxStep == f.maxStep
    ensures f'.steps != f.steps ==>
              && f'.maxStep == f'.steps[x][y]
              && f'.steps[x][y] == NeighbourMin(f'.steps, w, h, x, y) + 1
              && Total(f'.steps) < Total(f.steps)
              && (forall i, j :: 0 <= i < w && 0 <= j < h && (i != x || j != y) ==> f'.steps[i][j] == f.steps[i][j])
  {
    var g := f.steps;
    var m := NeighbourMin(g, w, h, x, y);
    if g[x][y] - m > 1 then
      var g' := Set(g, Point(x, y), m + 1);
      SetTotal(g, x, y, m + 1);
      assert NeighbourMin(g', w, h, x, y) == m;
      assert g'[x][y] != g[x][y];
      Field(g', m + 1, true)
    else
      f
  }

  /** Every non-zero interior cell stands above its neighbour minimum: the
      seed puts `Unreached` above `MinSeed`, and an update only ever lowers
      a cell to one above its minimum. */
  ghost predicate Grounded(g: Grid<int>, w: nat, h: nat)
    requires IsGrid(g, w, h)
  {
    forall x, y :: 1 <= x < w - 1 && 1 <= y < h - 1 && g[x][y] != 0 ==> g[x][y] > NeighbourMin(g, w, h, x, y)
  }

  /** Lowering neighbours lowers the neighbour minimum. */
  lemma NeighbourMinMonotone(g: Grid<int>, g': Grid<int>, w: nat, h: nat, x: int, y: int)
    requires IsGrid(g, w, h) && IsGrid(g', w, h) && 1 <= x < w - 1 && 1 <= y < h - 1
    requires g'[x + 1][y] <= g[x + 1][y] && g'[x - 1][y] <= g[x - 1][y]
    requires g'[x][y + 1] <= g[x][y + 1] && g'[x][y - 1] <= g[x][y - 1]
    ensures NeighbourMin(g', w, h, x, y) <= NeighbourMin(g, w, h, x, y)
  {
  }

  /** The seeded field is grounded. */
  lemma SeededGrounded(w: nat, h: nat, walls: seq<Point>)
    requires AllIn(walls, w, h)
    ensures Grounded(Seeded(w, h, walls), w, h)
  {
  }

  /** A grounded field at rest holds every non-zero interior cell at exactly
      one above its neighbour minimum. */
  lemma SettledExact(g: Grid<int>, w: nat, h: nat)
    requires IsGrid(g, w, h) && Settled(g, w, h) && Grounded(g, w, h)
    ensures forall x, y :: 1 <= x < w - 1 && 1 <= y < h - 1 && g[x][y] != 0 ==>
              g[x][y] == NeighbourMin(g, w, h, x, y) + 1
  {
    forall x, y | 1 <= x < w - 1 && 1 <= y < h - 1 && g[x][y] != 0
      ensures g[x][y] == NeighbourMin(g, w, h, x, y) + 1
    {
      assert Calm(g, w, h, x, y);
    }
  }

  /** A visit keeps the field grounded. */
  lemma VisitGrounded(f: Field, w: nat, h: nat, x: int, y: int)
    requires IsGrid(f.steps, w, h) && NonNegative(f.steps) && 1 <= x < w - 1 && 1 <= y < h - 1
    requires Grounded(f.steps, w, h)
    ensures Grounded(Visit(f, w, h, x, y).steps, w, h)
  {
    var g, g' := f.steps, Visit(f, w, h, x, y).steps;
    forall i, j | 1 <= i < w - 1 && 1 <= j < h - 1 && g'[i][j] != 0
      ensures g'[i][j] > NeighbourMin(g', w, h, i, j)
    {
      NeighbourMinMonotone(g, g', w, h, i, j);
    }
  }

  /** `maxStep` against the last update: after an update it is the value
      the last updated interior cell `last` still holds; before any update it
      is the value it came in with. */
  ghost predicate Tracked(f: Field, w: nat, h: nat, init: int, last: Point, wrote: bool)
    requires IsGrid(f.steps, w, h)
  {
    if wrote then Interior(last, w, h) && f.steps[last.x][last.y] == f.maxStep
    else f.maxStep == init
  }

  /** Every interior cell scanned before (x, y) is at rest in `g`. */
  ghost predicate CalmBefore(g: Grid<int>, w: nat, h: nat, x: int, y: int)
    requires IsGrid(g, w, h)
  {
    forall i, j :: 1 <= i < w - 1 && 1 <= j < h - 1 && ScannedBefore(Point(i, j), x, y) ==> Calm(g, w, h, i, j)
  }

  /** What one scan keeps, from its start `g0`, `m0` up to cell (x, y):
      updates only lower cells and the total, and while nothing has changed
      every cell scanned so far was found at rest. */
  ghost predicate ScanInv(g0: Grid<int>, m0: int, f: Field, w: nat, h: nat, x: int, y: int) {
    && IsGrid(f.steps, w, h) && NonNegative(f.steps) && Relaxed(g0, f.steps, w, h)
    && (f.changed ==> Total(f.steps) < Total(g0))
    && (Grounded(g0, w, h) ==> Grounded(f.steps, w, h))
    && (!f.changed ==> f.steps == g0 && f.maxStep == m0 && CalmBefore(g0, w, h, x, y))
  }

  /** A visit keeps the scan's invariant and moves it one cell on. */
  lemma VisitKeeps(g0: Grid<int>, m0: int, f: Field, w: nat, h: nat, x: int, y: int,
                   init: int, last: Point, wrote: bool)
    requires 1 <= x < w - 1 && 1 <= y < h - 1
    requires ScanInv(g0, m0, f, w, h, x, y) && Tracked(f, w, h, init, last, wrote)
    ensures var f' := Visit(f, w, h, x, y);
            var moved := f'.steps != f.steps;
            && ScanInv(g0, m0, f', w, h, x, y + 1)
            && Tracked(f', w, h, init, if moved then Point(x, y) else last, wrote || moved)
  {
    var f' := Visit(f, w, h, x, y);
    RelaxedTrans(g0, f.steps, f'.steps, w, h);
    if Grounded(g0, w, h) {
      VisitGrounded(f, w, h, x, y);
    }
    if !f'.changed {
      forall i, j | 1 <= i < w - 1 && 1 <= j < h - 1 && ScannedBefore(Point(i, j), x, y + 1)
        ensures Calm(g0, w, h, i, j)
      {
        if !ScannedBefore(Point(i, j), x, y) {
          assert i == x && j == y;
        }
      }
    }
  }

  /** Finishing a column's rows is starting the next column. */
  lemma NextColumn(g0: Grid<int>, m0: int, f: Field, w: nat, h: nat, x: int, y: int)
    requires 1 <= x < w - 1 && 1 <= y && y >= h - 1
    requires ScanInv(g0, m0, f, w, h, x, y)
    ensures ScanInv(g0, m0, f, w, h, x + 1, 1)
  {
    if !f.changed {
      forall i, j | 1 <= i < w - 1 && 1 <= j < h - 1 && ScannedBefore(Point(i, j), x + 1, 1)
        ensures Calm(g0, w, h, i, j)
      {
        assert ScannedBefore(Point(i, j), x, y);
      }
    }
  }

  /** The inner loop of one scan: column x, rows 1 to h - 2. */
  method ScanColumn(f: Field, w: nat, h: nat, x: nat, ghost g0: Grid<int>, ghost m0: int,
                    ghost init: int, ghost last: Point, ghost wrote: bool)
    returns (f': Field, ghost last': Point, ghost wrote': bool)
    requires 1 <= x < w - 1
    requires ScanInv(g0, m0, f, w, h, x, 1) && Tracked(f, w, h, init, last, wrote)
    ensures ScanInv(g0, m0, f', w, h, x + 1, 1) && Tracked(f', w, h, init, last', wrote')
  {
    f', last', wrote' := f, last, wrote;
    var y := 1;
    while y < h - 1
      invariant 1 <= y && (h >= 2 ==> y <= h - 1)
      invariant ScanInv(g0, m0, f', w, h, x, y) && Tracked(f', w, h, init, last', wrote')
    {
      VisitKeeps(g0, m0, f', w, h, x, y, init, last', wrote');
      var f1 := Visit(f', w, h, x, y);
      if f1.steps != f'.steps {
        last', wrote' := Point(x, y), true;
      }
      f' := f1;
      y := y + 1;
    }
    NextColumn(g0, m0, f', w, h, x, y);
  }

  /** One pass of the `while (changeMade)` loop over the interior, x outer
      and y inner, updating in place so that later cells see earlier
      updates. */
  method Scan(f: Field, w: nat, h: nat, ghost init: int, ghost last: Point, ghost wrote: bool)
    returns (f': Field, ghost last': Point, ghost wrote': bool)
    requires IsGrid(f.steps, w, h) && NonNegative(f.steps) && !f.changed
    requires Tracked(f, w, h, init, last, wrote)
    ensures Relaxed(f.steps, f'.steps, w, h) && NonNegative(f'.steps)
    ensures f'.changed ==> Total(f'.steps) < Total(f.steps)
    ensures !f'.changed ==> f'.steps == f.steps && f'.maxStep == f.maxStep && Settled(f.steps, w, h)
    ensures Grounded(f.steps, w, h) ==> Grounded(f'.steps, w, h)
    ensures Tracked(f', w, h, init, last', wrote')
  {
    f', last', wrote' := f, last, wrote;
    var x := 1;
    while x < w - 1
      invariant 1 <= x && (w >= 2 ==> x <= w - 1)
      invariant ScanInv(f.steps, f.maxStep, f', w, h, x, 1) && Tracked(f', w, h, init, last', wrote')
    {
      f', last', wrote' := ScanColumn(f', w, h, x, f.steps, f.maxStep, init, last', wrote');
      x := x + 1;
    }
  }

  /** `calcSteps`: seed the field, then scan until a pass changes nothing.
      `maxStep` comes from the previous call (0 at construction) and is only
      overwritten by updates. */
  method CalcSteps(w: nat, h: nat, walls: seq<Point>, maxStep: int) returns (steps: Grid<int>, maxStep': int)
    requires AllIn(walls, w, h)
    ensures Relaxed(Seeded(w, h, walls), steps, w, h)
    ensures Settled(steps, w, h)
    ensures forall x, y :: 1 <= x < w - 1 && 1 <= y < h - 1 && steps[x][y] != 0 ==>
              steps[x][y] == NeighbourMin(steps, w, h, x, y) + 1
    ensures maxStep' == maxStep || exists x, y :: Interior(Point(x, y), w, h) && steps[x][y] == maxStep'
  {
    var f := Field(Seeded(w, h, walls), maxStep, true);
    ghost var last, wrote := Point(0, 0), false;
    SeededGrounded(w, h, walls);
    while f.changed
      invariant Relaxed(Seeded(w, h, walls), f.steps, w, h) && NonNegative(f.steps)
      invariant Tracked(f, w, h, maxStep, last, wrote)
      invariant !f.changed ==> Settled(f.steps, w, h)
      invariant Grounded(f.steps, w, h)
      decreases Total(f.steps) + (if f.changed then 1 else 0)
    {
      TotalNonNegative(f.steps);
      var f0 := f;
      f, last, wrote := Scan(f.(changed := false), w, h, maxStep, last, wrote);
      RelaxedTrans(Seeded(w, h, walls), f0.steps, f.steps, w, h);
      TotalNonNegative(f.steps);
    }
    steps, maxStep' := f.steps, f.maxStep;
    SettledExact(steps, w, h);
    if wrote {
      assert Interior(Point(last.x, last.y), w, h) && steps[last.x][last.y] == maxStep';
    }
  }

  /** At the fixpoint no interior cell keeps a sentinel: each is at most one
      above `MinSeed`; and the zero cells are exactly the wall cells. */
  lemma StepsBounded(w: nat, h: nat, walls: seq<Point>, steps: Grid<int>, x: int, y: int)
    requires AllIn(walls, w, h)
    requires Relaxed(Seeded(w, h, walls), steps, w, h) && Settled(steps, w, h)
    requires 0 <= x < w && 0 <= y < h
    ensures Interior(Point(x, y), w, h) ==> steps[x][y] <= MinSeed + 1
    ensures steps[x][y] == 0 <==> Point(x, y) in walls
    ensures !Interior(Point(x, y), w, h) ==> steps[x][y] == if Point(x, y) in walls then 0 else Unreached
  {
    if Interior(Point(x, y), w, h) {
      assert Calm(steps, w, h, x, y);
    }
  }

  // ------------------------------------------------------- step batches

  /** The cells (x, j), j from `y` up, whose step is `s`, by row. */
  function ColumnSteps(g: Grid<int>, w: nat, h: nat, s: int, x: int, y: int): (r: seq<Point>)
    requires IsGrid(g, w, h) && 0 <= x < w && 0 <= y <= h
    ensures forall p :: p in r <==> p.x == x && y <= p.y < h && g[x][p.y] == s
    ensures StrictlyOrdered(r)
    decreases h - y
  {
    if y == h then []
    else
      var head := if g[x][y] == s then [Point(x, y)] else [];
      var rest := ColumnSteps(g, w, h, s, x, y + 1);
      OrderedConcat(head, rest);
      head + rest
  }

  /** The cells of the columns from `x` on whose step is `s`, x outer and
      y inner. */
  function StepTilesFrom(g: Grid<int>, w: nat, h: nat, s: int, x: int): (r: seq<Point>)
    requires IsGrid(g, w, h) && 0 <= x <= w
    ensures forall p :: p in r <==> x <= p.x < w && 0 <= p.y < h && g[p.x][p.y] == s
    ensures StrictlyOrdered(r)
    decreases w - x
  {
    if x == w then []
    else
      var col := ColumnSteps(g, w, h, s, x, 0);
      var rest := StepTilesFrom(g, w, h, s, x + 1);
      OrderedConcat(col, rest);
      col + rest
  }

  /** `getStepTiles(s)`: exactly the cells whose step is `s`, each once, in
      scan order. */
  function GetStepTiles(g: Grid<int>, w: nat, h: nat, s: int): (r: seq<Point>)
    requires IsGrid(g, w, h)
    ensures forall p :: p in r <==> InBounds(p, w, h) && g[p.x][p.y] == s
    ensures StrictlyOrdered(r)
    ensures forall i, j :: 0 <= i < j < |r| ==> r[i] != r[j]
  {
    var r := StepTilesFrom(g, w, h, s, 0);
    assert forall i, j :: 0 <= i < j < |r| ==> Before(r[i], r[j]);
    r
  }

  /** Batches for different steps never share a cell. */
  lemma StepTilesDisjoint(g: Grid<int>, w: nat, h: nat, s: int, t: int, p: Point)
    requires IsGrid(g, w, h) && s != t
    ensures !(p in GetStepTiles(g, w, h, s) && p in GetStepTiles(g, w, h, t))
  {
  }

  // ----------------------------------------------------------- transition

  /** The animation's state: the array being shown, the array switched to,
      the step field, `maxStep`, and whether the shown world is digital. */
  datatype Anim = Anim(current: Grid<Tile>, other: Grid<Tile>, steps: Grid<int>, maxStep: int, digital: bool)

  /** The `Animation` constructor, given the environment's current and
      alternate projections. */
  function NewAnim(current: Grid<Tile>, other: Grid<Tile>, w: nat, h: nat): (a: Anim)
    ensures a.current == current && a.other == other
    ensures IsGrid(a.steps, w, h) && a.maxStep == 0 && !a.digital
  {
    Anim(current, other, Uniform(w, h, 0), 0, false)
  }

  /** The transition glyphs of one batch: a random analog glyph per cell
      (one `nextInt(6)` each) when leaving the digital world, the digital
      glyph otherwise. Only the batch's cells change. */
  method ShowGlyphs(cur: Grid<Tile>, w: nat, h: nat, tiles: seq<Point>, digital: bool, rng: Rng)
    returns (cur': Grid<Tile>, rng': Rng)
    requires IsGrid(cur, w, h) && AllIn(tiles, w, h)
    ensures IsGrid(cur', w, h)
    ensures forall x, y :: 0 <= x < w && 0 <= y < h ==>
              if Point(x, y) in tiles then
                (if digital then cur'[x][y].ToAnalog? && cur'[x][y].variant < 6 else cur'[x][y] == ToDigital)
              else cur'[x][y] == cur[x][y]
    ensures Advanced(rng, rng', if digital then |tiles| else 0)
  {
    cur', rng' := cur, rng;
    var k := 0;
    while k < |tiles|
      invariant 0 <= k <= |tiles| && IsGrid(cur', w, h)
      invariant forall x, y :: 0 <= x < w && 0 <= y < h ==>
                  if Point(x, y) in tiles[..k] then
                    (if digital then cur'[x][y].ToAnalog? && cur'[x][y].variant < 6 else cur'[x][y] == ToDigital)
                  else cur'[x][y] == cur[x][y]
      invariant Advanced(rng, rng', if digital then k else 0)
    {
      var glyph;
      if digital {
        var drawn := NextInt(rng', 6);
        glyph, rng' := ToAnalog(drawn.0), drawn.1;
      } else {
        glyph := ToDigital;
      }
      assert tiles[..k + 1] == tiles[..k] + [tiles[k]];
      cur' := Set(cur', tiles[k], glyph);
      k := k + 1;
    }
    assert tiles[..k] == tiles;
  }

  /** The copy of one batch: each of its cells takes the other world's
      content; every other cell keeps its value. */
  method CopyCells(cur: Grid<Tile>, other: Grid<Tile>, w: nat, h: nat, tiles: seq<Point>) returns (cur': Grid<Tile>)
    requires IsGrid(cur, w, h) && IsGrid(other, w, h) && AllIn(tiles, w, h)
    ensures IsGrid(cur', w, h)
    ensures forall x, y :: 0 <= x < w && 0 <= y < h ==>
              cur'[x][y] == if Point(x, y) in tiles then other[x][y] else cur[x][y]
  {
    cur' := cur;
    var k := 0;
    while k < |tiles|
      invariant 0 <= k <= |tiles| && IsGrid(cur', w, h)
      invariant forall x, y :: 0 <= x < w && 0 <= y < h ==>
                  cur'[x][y] == if Point(x, y) in tiles[..k] then other[x][y] else cur[x][y]
    {
      assert tiles[..k + 1] == tiles[..k] + [tiles[k]];
      cur' := Set(cur', tiles[k], other[tiles[k].x][tiles[k].y]);
      k := k + 1;
    }
    assert tiles[..k] == tiles;
  }

  /** The cells with step in [0, i) hold the other world's content; the rest
      are as they were. */
  ghost predicate CopiedBelow(cur: Grid<Tile>, cur0: Grid<Tile>, other: Grid<Tile>, steps: Grid<int>, w: nat, h: nat, i: int)
    requires IsGrid(cur0, w, h) && IsGrid(other, w, h) && IsGrid(steps, w, h)
  {
    && IsGrid(cur, w, h)
    && forall x, y :: 0 <= x < w && 0 <= y < h ==>
         cur[x][y] == if 0 <= steps[x][y] < i then other[x][y] else cur0[x][y]
  }

  /** The number of cells with step in [0, n): the analog glyph draws of a
      transition over n batches. */
  ghost function BatchCells(steps: Grid<int>, w: nat, h: nat, n: nat): nat
    requires IsGrid(steps, w, h)
  {
    if n == 0 then 0 else BatchCells(steps, w, h, n - 1) + |GetStepTiles(steps, w, h, n - 1)|
  }

  /** One batch of `transitionWorld`: glyphs, then the copy. */
  method Batch(cur: Grid<Tile>, other: Grid<Tile>, steps: Grid<int>, w: nat, h: nat, i: nat, digital: bool, rng: Rng,
               ghost cur0: Grid<Tile>)
    returns (cur': Grid<Tile>, rng': Rng)
    requires IsGrid(cur0, w, h) && IsGrid(other, w, h) && IsGrid(steps, w, h)
    requires CopiedBelow(cur, cur0, other, steps, w, h, i)
    ensures CopiedBelow(cur', cur0, other, steps, w, h, i + 1)
    ensures Advanced(rng, rng', if digital then |GetStepTiles(steps, w, h, i)| else 0)
  {
    var tiles := GetStepTiles(steps, w, h, i);
    var shown;
    shown, rng' := ShowGlyphs(cur, w, h, tiles, digital, rng);
    cur' := CopyCells(shown, other, w, h, tiles);
  }

  /** `transitionWorld` without the rendering: recompute the step field,
      then for each step from 0 to `maxStep` show that batch's glyphs and
      copy the other world into it; finally swap the two arrays and flip
      `digital`. The array now switched away from ends as the other world
      on the cells whose step is in [0, maxStep] and as before elsewhere. */
  method TransitionWorld(a: Anim, w: nat, h: nat, walls: seq<Point>, rng: Rng) returns (a': Anim, rng': Rng)
    requires IsGrid(a.current, w, h) && IsGrid(a.other, w, h) && AllIn(walls, w, h)
    ensures a'.current == a.other && a'.digital == !a.digital
    ensures Relaxed(Seeded(w, h, walls), a'.steps, w, h) && Settled(a'.steps, w, h)
    ensures a'.maxStep == a.maxStep || exists x, y :: Interior(Point(x, y), w, h) && a'.steps[x][y] == a'.maxStep
    ensures IsGrid(a'.other, w, h)
    ensures forall x, y :: 0 <= x < w && 0 <= y < h ==>
              a'.other[x][y] == if 0 <= a'.steps[x][y] <= a'.maxStep then a.other[x][y] else a.current[x][y]
    ensures Advanced(rng, rng', if a.digital && a'.maxStep >= 0 then BatchCells(a'.steps, w, h, a'.maxStep + 1) else 0)
  {
    var steps, maxStep := CalcSteps(w, h, walls, a.maxStep);
    var cur := a.current;
    rng' := rng;
    var i := 0;
    while i <= maxStep
      invariant 0 <= i <= (if maxStep >= 0 then maxStep + 1 else 0)
      invariant CopiedBelow(cur, a.current, a.other, steps, w, h, i)
      invariant Advanced(rng, rng', if a.digital then BatchCells(steps, w, h, i) else 0)
    {
      cur, rng' := Batch(cur, a.other, steps, w, h, i, a.digital, rng', a.current);
      i := i + 1;
    }
    CopiedThrough(cur, a.current, a.other, steps, w, h, maxStep);
    a' := Anim(a.other, cur, steps, maxStep, !a.digital);
  }

  /** Once every batch up to `maxStep` is copied, exactly the cells whose
      step lies in [0, maxStep] show the other world. */
  lemma CopiedThrough(cur: Grid<Tile>, cur0: Grid<Tile>, other: Grid<Tile>, steps: Grid<int>, w: nat, h: nat,
                      maxStep: int)
    requires IsGrid(cur0, w, h) && IsGrid(other, w, h) && IsGrid(steps, w, h)
    requires CopiedBelow(cur, cur0, other, steps, w, h, if maxStep >= 0 then maxStep + 1 else 0)
    ensures IsGrid(cur, w, h)
    ensures forall x, y :: 0 <= x < w && 0 <= y < h ==>
              cur[x][y] == if 0 <= steps[x][y] <= maxStep then other[x][y] else cur0[x][y]
  {
  }
}

=== FILE: bresenham.dfy ===
/** `BresenhamLine`: integer rasterisation of the segment between two cells,
    used by the visibility test. The two private loops `plotLineLow` (x is the
    major axis) and `plotLineHigh` (y is the major axis) share one error
    accumulator, modelled once by `Walk`. */
module Bresenham {
  import opened JavaInt
  import opened Points

  /** The cell with major coordinate `m` and minor coordinate `n`. */
  function Pt(steep: bool, m: int, n: int): Point {
    if steep then Point(n, m) else Point(m, n)
  }

  /** The `for` loop of `plotLineLow` / `plotLineHigh` from major coordinate
      `m` up to `mEnd`: emit the cell, step the minor coordinate by `slope`
      when the error is positive, then accumulate the error. */
  function Walk(m: int, n: int, mEnd: int, err: int, dMaj: int, dMin: int, slope: int, steep: bool): (line: seq<Point>)
    ensures |line| == if m > mEnd then 0 else mEnd - m + 1
    ensures forall i :: 0 <= i < |line| ==> (if steep then line[i].y else line[i].x) == m + i
    ensures |line| > 0 ==> line[0] == Pt(steep, m, n)
    decreases mEnd - m + 1
  {
    if m > mEnd then []
    else
      var n' := if err > 0 then n + slope else n;
      var err' := (if err > 0 then err - 2 * dMaj else err) + 2 * dMin;
      [Pt(steep, m, n)] + Walk(m + 1, n', mEnd, err', dMaj, dMin, slope, steep)
  }

  /** Reference definition: the minor offset of the ideal segment at major
      offset `k`, i.e. the integer nearest to k * dMin / dMaj, with an exact
      half rounded down. */
  function Nearest(k: int, dMaj: int, dMin: int): int {
    if dMaj <= 0 then 0 else (2 * k * dMin + dMaj - 1) / (2 * dMaj)
  }

  /** Twice the (scaled) distance between the ideal segment and offset `j`. */
  function Gap(k: int, j: int, dMaj: int, dMin: int): int {
    2 * (k * dMin - j * dMaj)
  }

  lemma NearestBounds(k: int, dMaj: int, dMin: int)
    requires dMaj > 0
    ensures -dMaj < Gap(k, Nearest(k, dMaj, dMin), dMaj, dMin) <= dMaj
  {
    var num := 2 * k * dMin + dMaj - 1;
    var den := 2 * dMaj;
    var q := num / den;
    var r := num % den;
    assert num == den * q + r && 0 <= r < den;
    assert Gap(k, q, dMaj, dMin) == 2 * k * dMin - den * q;
  }

  lemma ScaledBelowOne(a: int, t: int)
    requires a > 0 && -a < a * t < a
    ensures t == 0
  {
  }

  /** The reference offset is the only one within half a step of the ideal
      segment. */
  lemma NearestUnique(k: int, j: int, dMaj: int, dMin: int)
    requires dMaj > 0
    requires -dMaj < Gap(k, j, dMaj, dMin) <= dMaj
    ensures j == Nearest(k, dMaj, dMin)
  {
    var q := Nearest(k, dMaj, dMin);
    NearestBounds(k, dMaj, dMin);
    assert Gap(k, j, dMaj, dMin) - Gap(k, q, dMaj, dMin) == (2 * dMaj) * (q - j);
    ScaledBelowOne(2 * dMaj, q - j);
  }

  /** One iteration of the loop: a positive error is exactly the case where
      the ideal segment has moved on to the next minor offset. */
  lemma NearestNext(k: int, dMaj: int, dMin: int)
    requires 0 <= dMin <= dMaj && dMaj > 0
    ensures var j := Nearest(k, dMaj, dMin);
            var err := 2 * dMin * (k + 1) - dMaj * (2 * j + 1);
            Nearest(k + 1, dMaj, dMin) == if err > 0 then j + 1 else j
  {
    var j := Nearest(k, dMaj, dMin);
    NearestBounds(k, dMaj, dMin);
    var err := 2 * dMin * (k + 1) - dMaj * (2 * j + 1);
    assert err == Gap(k, j, dMaj, dMin) + 2 * dMin - dMaj;
    assert Gap(k + 1, j, dMaj, dMin) == Gap(k, j, dMaj, dMin) + 2 * dMin;
    assert Gap(k + 1, j + 1, dMaj, dMin) == Gap(k, j, dMaj, dMin) + 2 * dMin - 2 * dMaj;
    if err > 0 {
      NearestUnique(k + 1, j + 1, dMaj, dMin);
    } else {
      NearestUnique(k + 1, j, dMaj, dMin);
    }
  }

  /** The loop state after emitting major offset k: the minor coordinate is
      at the reference offset j and the error is 2·dMin·(k+1) − dMaj·(2j+1). */
  ghost predicate LoopState(m: int, n: int, err: int, dMaj: int, dMin: int, slope: int, m0: int, n0: int) {
    && n == n0 + slope * Nearest(m - m0, dMaj, dMin)
    && err == 2 * dMin * (m - m0 + 1) - dMaj * (2 * Nearest(m - m0, dMaj, dMin) + 1)
  }

  /** One iteration of the loop keeps `LoopState`. */
  lemma LoopStep(m: int, n: int, err: int, dMaj: int, dMin: int, slope: int, m0: int, n0: int)
    requires 0 <= dMin <= dMaj && (slope == 1 || slope == -1)
    requires m0 <= m <= m0 + dMaj
    requires LoopState(m, n, err, dMaj, dMin, slope, m0, n0)
    ensures LoopState(m + 1, if err > 0 then n + slope else n,
                      (if err > 0 then err - 2 * dMaj else err) + 2 * dMin, dMaj, dMin, slope, m0, n0)
  {
    var k := m - m0;
    var j := Nearest(k, dMaj, dMin);
    if dMaj > 0 {
      NearestNext(k, dMaj, dMin);
    }
    var j' := Nearest(k + 1, dMaj, dMin);
    StepArith(k, j, j', n, n0, err, dMaj, dMin, slope);
  }

  /** The arithmetic of one iteration, with the offsets as plain numbers. */
  lemma StepArith(k: int, j: int, j': int, n: int, n0: int, err: int, dMaj: int, dMin: int, slope: int)
    requires n == n0 + slope * j && err == 2 * dMin * (k + 1) - dMaj * (2 * j + 1)
    requires j' == if err > 0 then j + 1 else j
    ensures (if err > 0 then n + slope else n) == n0 + slope * j'
    ensures (if err > 0 then err - 2 * dMaj else err) + 2 * dMin == 2 * dMin * (k + 2) - dMaj * (2 * j' + 1)
  {
    assert 2 * dMin * (k + 2) == 2 * dMin * (k + 1) + 2 * dMin;
    if err > 0 {
      assert slope * j' == slope * j + slope;
      assert dMaj * (2 * j' + 1) == dMaj * (2 * j + 1) + 2 * dMaj;
    }
  }

  /** The state before the first iteration: offset 0, error 2·dMin − dMaj. */
  lemma LoopStart(m0: int, n0: int, dMaj: int, dMin: int, slope: int)
    requires 0 <= dMin <= dMaj
    ensures LoopState(m0, n0, 2 * dMin - dMaj, dMaj, dMin, slope, m0, n0)
  {
    if dMaj > 0 {
      NearestUnique(0, 0, dMaj, dMin);
    }
  }

  /** The loop emits exactly the reference offsets. */
  lemma {:induction false} WalkFollowsNearest(m: int, n: int, mEnd: int, err: int, dMaj: int, dMin: int,
                                              slope: int, steep: bool, m0: int, n0: int)
    requires 0 <= dMin <= dMaj && (slope == 1 || slope == -1)
    requires m0 <= m <= mEnd + 1 && mEnd == m0 + dMaj
    requires LoopState(m, n, err, dMaj, dMin, slope, m0, n0)
    ensures var w := Walk(m, n, mEnd, err, dMaj, dMin, slope, steep);
            && |w| == mEnd - m + 1
            && forall i :: 0 <= i < |w| ==> w[i] == Pt(steep, m + i, n0 + slope * Nearest(m - m0 + i, dMaj, dMin))
    decreases mEnd - m + 1
  {
    if m <= mEnd {
      var n' := if err > 0 then n + slope else n;
      var err' := (if err > 0 then err - 2 * dMaj else err) + 2 * dMin;
      LoopStep(m, n, err, dMaj, dMin, slope, m0, n0);
      WalkFollowsNearest(m + 1, n', mEnd, err', dMaj, dMin, slope, steep, m0, n0);
      var rest := Walk(m + 1, n', mEnd, err', dMaj, dMin, slope, steep);
      var w := Walk(m, n, mEnd, err, dMaj, dMin, slope, steep);
      assert w == [Pt(steep, m, n)] + rest;
      forall i | 0 <= i < |w|
        ensures w[i] == Pt(steep, m + i, n0 + slope * Nearest(m - m0 + i, dMaj, dMin))
      {
        if i > 0 {
          assert w[i] == rest[i - 1];
          assert m + 1 - m0 + (i - 1) == m - m0 + i;
        }
      }
    }
  }

  /** The reference offsets start at 0, end at dMin and advance by 0 or 1. */
  lemma NearestShape(dMaj: int, dMin: int)
    requires 0 <= dMin <= dMaj
    ensures Nearest(0, dMaj, dMin) == 0
    ensures Nearest(dMaj, dMaj, dMin) == dMin
    ensures forall k :: 0 <= k < dMaj ==>
              Nearest(k + 1, dMaj, dMin) == Nearest(k, dMaj, dMin) || Nearest(k + 1, dMaj, dMin) == Nearest(k, dMaj, dMin) + 1
    ensures forall k :: 0 <= k <= dMaj ==> 0 <= Nearest(k, dMaj, dMin) <= dMin
  {
    if dMaj > 0 {
      NearestUnique(0, 0, dMaj, dMin);
      assert Gap(dMaj, dMin, dMaj, dMin) == 0;
      NearestUnique(dMaj, dMin, dMaj, dMin);
      forall k | 0 <= k < dMaj
        ensures Nearest(k + 1, dMaj, dMin) == Nearest(k, dMaj, dMin) || Nearest(k + 1, dMaj, dMin) == Nearest(k, dMaj, dMin) + 1
      {
        NearestNext(k, dMaj, dMin);
      }
      forall k | 0 <= k <= dMaj
        ensures 0 <= Nearest(k, dMaj, dMin) <= dMin
      {
        NearestMonotone(0, k, dMaj, dMin);
        NearestMonotone(k, dMaj, dMaj, dMin);
      }
    }
  }

  lemma {:induction false} NearestMonotone(k1: int, k2: int, dMaj: int, dMin: int)
    requires 0 <= dMin <= dMaj && dMaj > 0 && k1 <= k2
    ensures Nearest(k1, dMaj, dMin) <= Nearest(k2, dMaj, dMin)
    decreases k2 - k1
  {
    if k1 < k2 {
      NearestNext(k1, dMaj, dMin);
      NearestMonotone(k1 + 1, k2, dMaj, dMin);
    }
  }

  function Sign(d: int): int {
    if d < 0 then -1 else 1
  }

  /** `plotLineLow`, called with x1 <= x2 and |y2 − y1| <= x2 − x1. */
  function PlotLineLow(x1: int, y1: int, x2: int, y2: int): (line: seq<Point>)
    requires x1 <= x2 && Abs(y2 - y1) <= x2 - x1
    ensures |line| == x2 - x1 + 1
    ensures forall i :: 0 <= i < |line| ==>
              line[i] == Point(x1 + i, y1 + Sign(y2 - y1) * Nearest(i, x2 - x1, Abs(y2 - y1)))
  {
    var dx := x2 - x1;
    var dy := Abs(y2 - y1);
    LoopStart(x1, y1, dx, dy, Sign(y2 - y1));
    WalkFollowsNearest(x1, y1, x2, 2 * dy - dx, dx, dy, Sign(y2 - y1), false, x1, y1);
    Walk(x1, y1, x2, 2 * dy - dx, dx, dy, Sign(y2 - y1), false)
  }

  /** `plotLineHigh`, called with y1 <= y2 and |x2 − x1| <= y2 − y1. */
  function PlotLineHigh(x1: int, y1: int, x2: int, y2: int): (line: seq<Point>)
    requires y1 <= y2 && Abs(x2 - x1) <= y2 - y1
    ensures |line| == y2 - y1 + 1
    ensures forall i :: 0 <= i < |line| ==>
              line[i] == Point(x1 + Sign(x2 - x1) * Nearest(i, y2 - y1, Abs(x2 - x1)), y1 + i)
  {
    var dy := y2 - y1;
    var dx := Abs(x2 - x1);
    LoopStart(y1, x1, dy, dx, Sign(x2 - x1));
    WalkFollowsNearest(y1, x1, y2, 2 * dx - dy, dy, dx, Sign(x2 - x1), true, y1, x1);
    Walk(y1, x1, y2, 2 * dx - dy, dy, dx, Sign(x2 - x1), true)
  }

  /** `plotLine` on a freshly constructed `BresenhamLine(a, b)`. */
  function PlotLine(a: Point, b: Point): (line: seq<Point>)
    ensures |line| == if Abs(b.y - a.y) < Abs(b.x - a.x) then Abs(b.x - a.x) + 1 else Abs(b.y - a.y) + 1
    ensures line[0] == a || line[0] == b
    ensures a in line && b in line
    ensures forall i :: 0 <= i < |line| ==>
              Min(a.x, b.x) <= line[i].x <= Max(a.x, b.x) && Min(a.y, b.y) <= line[i].y <= Max(a.y, b.y)
    ensures forall i :: 0 <= i < |line| - 1 ==> Chebyshev(line[i], line[i + 1]) == 1
    ensures forall i, j :: 0 <= i < j < |line| ==> line[i] != line[j]
  {
    if Abs(b.y - a.y) < Abs(b.x - a.x) then
      if a.x > b.x then LowJoins(b, a); PlotLineLow(b.x, b.y, a.x, a.y)
      else LowJoins(a, b); PlotLineLow(a.x, a.y, b.x, b.y)
    else
      if a.y > b.y then HighJoins(b, a); PlotLineHigh(b.x, b.y, a.x, a.y)
      else HighJoins(a, b); PlotLineHigh(a.x, a.y, b.x, b.y)
  }

  /** What `plotLine` promises of a line between `a` and `b`: it starts at
      one end, passes both, stays in their bounding box, moves one cell at a
      time and never revisits a cell. */
  ghost predicate Joins(a: Point, b: Point, line: seq<Point>) {
    && |line| > 0 && (line[0] == a || line[0] == b)
    && a in line && b in line
    && (forall i :: 0 <= i < |line| ==>
          Min(a.x, b.x) <= line[i].x <= Max(a.x, b.x) && Min(a.y, b.y) <= line[i].y <= Max(a.y, b.y))
    && (forall i :: 0 <= i < |line| - 1 ==> Chebyshev(line[i], line[i + 1]) == 1)
    && (forall i, j :: 0 <= i < j < |line| ==> line[i] != line[j])
  }

  lemma LowJoins(p: Point, q: Point)
    requires p.x <= q.x && Abs(q.y - p.y) <= q.x - p.x
    ensures Joins(p, q, PlotLineLow(p.x, p.y, q.x, q.y)) && Joins(q, p, PlotLineLow(p.x, p.y, q.x, q.y))
  {
    LowShape(p, q);
    var line := PlotLineLow(p.x, p.y, q.x, q.y);
    assert line[|line| - 1] in line;
    assert forall i :: 0 <= i < |line| ==> line[i].x == p.x + i;
  }

  lemma HighJoins(p: Point, q: Point)
    requires p.y <= q.y && Abs(q.x - p.x) <= q.y - p.y
    ensures Joins(p, q, PlotLineHigh(p.x, p.y, q.x, q.y)) && Joins(q, p, PlotLineHigh(p.x, p.y, q.x, q.y))
  {
    HighShape(p, q);
    var line := PlotLineHigh(p.x, p.y, q.x, q.y);
    assert line[|line| - 1] in line;
    assert forall i :: 0 <= i < |line| ==> line[i].y == p.y + i;
  }

  lemma LowShape(p: Point, q: Point)
    requires p.x <= q.x && Abs(q.y - p.y) <= q.x - p.x
    ensures var line := PlotLineLow(p.x, p.y, q.x, q.y);
            && line[0] == p && line[|line| - 1] == q
            && (forall i :: 0 <= i < |line| ==> Min(p.y, q.y) <= line[i].y <= Max(p.y, q.y))
            && (forall i :: 0 <= i < |line| - 1 ==> Chebyshev(line[i], line[i + 1]) == 1)
  {
    var line := PlotLineLow(p.x, p.y, q.x, q.y);
    NearestShape(q.x - p.x, Abs(q.y - p.y));
    assert line[|line| - 1].x == q.x;
    forall i | 0 <= i < |line| - 1
      ensures Chebyshev(line[i], line[i + 1]) == 1
    {
      assert line[i + 1].x == line[i].x + 1;
    }
  }

  lemma HighShape(p: Point, q: Point)
    requires p.y <= q.y && Abs(q.x - p.x) <= q.y - p.y
    ensures var line := PlotLineHigh(p.x, p.y, q.x, q.y);
            && line[0] == p && line[|line| - 1] == q
            && (forall i :: 0 <= i < |line| ==> Min(p.x, q.x) <= line[i].x <= Max(p.x, q.x))
            && (forall i :: 0 <= i < |line| - 1 ==> Chebyshev(line[i], line[i + 1]) == 1)
  {
    var line := PlotLineHigh(p.x, p.y, q.x, q.y);
    NearestShape(q.y - p.y, Abs(q.x - p.x));
    assert line[|line| - 1].y == q.y;
    forall i | 0 <= i < |line| - 1
      ensures Chebyshev(line[i], line[i + 1]) == 1
    {
      assert line[i + 1].y == line[i].y + 1;
    }
  }

  /** Both branches first order the endpoints along the major axis, so the
      argument order does not matter. */
  lemma PlotLineSymmetric(a: Point, b: Point)
    ensures PlotLine(a, b) == PlotLine(b, a)
  {
  }
}

=== FILE: builder.dfy ===
/** `Builder`: carves rooms and hallways, grows the decorative walls, and
    scatters traps and energies over the world grid. */
module Builder {
  import opened Points
  import opened Grids
  import opened TileKinds
  import opened Random
  import opened Rooms
  import opened RoomCollection
  import opened Registry

  /** Every point of every structure is a cell of the grid. */
  ghost predicate AllStructuresIn(structures: seq<seq<Point>>, w: nat, h: nat) {
    forall i :: 0 <= i < |structures| ==> AllIn(structures[i], w, h)
  }

  /** Structures painted one after another with `v` (the loops of
      `buildRooms` and `buildHallways` around `makeStructure`). */
  function PaintAll(g: Grid<Tile>, w: nat, h: nat, structures: seq<seq<Point>>, v: Tile): (g': Grid<Tile>)
    requires IsGrid(g, w, h) && AllStructuresIn(structures, w, h)
    ensures IsGrid(g', w, h)
    ensures forall x, y :: 0 <= x < w && 0 <= y < h ==>
              g'[x][y] == if exists i :: 0 <= i < |structures| && Point(x, y) in structures[i] then v else g[x][y]
    decreases |structures|
  {
    if |structures| == 0 then g
    else
      var rest := PaintAll(Paint(g, w, h, structures[0], v), w, h, structures[1..], v);
      assert forall i :: 1 <= i < |structures| ==> structures[i] == structures[1..][i - 1];
      rest
  }

  function RoomTiles(rooms: seq<Room>): (tiles: seq<seq<Point>>)
    ensures |tiles| == |rooms| && forall i :: 0 <= i < |rooms| ==> tiles[i] == Tiles(rooms[i])
  {
    seq(|rooms|, i requires 0 <= i < |rooms| => Tiles(rooms[i]))
  }

  /** `buildRooms`: every tile of every room becomes floor, and nothing else
      changes. */
  function BuildRooms(g: Grid<Tile>, w: nat, h: nat, rooms: seq<Room>): (g': Grid<Tile>)
    requires IsGrid(g, w, h) && AllStructuresIn(RoomTiles(rooms), w, h)
    ensures IsGrid(g', w, h)
    ensures forall x, y :: 0 <= x < w && 0 <= y < h ==>
              g'[x][y] == if exists i :: 0 <= i < |rooms| && Point(x, y) in Tiles(rooms[i]) then Floor else g[x][y]
  {
    var g' := PaintAll(g, w, h, RoomTiles(rooms), Floor);
    assert forall x, y :: 0 <= x < w && 0 <= y < h ==>
             ((exists i :: 0 <= i < |rooms| && Point(x, y) in Tiles(rooms[i])) <==>
              (exists i :: 0 <= i < |rooms| && Point(x, y) in RoomTiles(rooms)[i]));
    g'
  }

  /** `buildHallways`: every hallway cell becomes floor, and nothing else
      changes. */
  function BuildHallways(g: Grid<Tile>, w: nat, h: nat, halls: seq<seq<Point>>): (g': Grid<Tile>)
    requires IsGrid(g, w, h) && AllStructuresIn(halls, w, h)
    ensures IsGrid(g', w, h)
    ensures forall x, y :: 0 <= x < w && 0 <= y < h ==>
              g'[x][y] == if exists i :: 0 <= i < |halls| && Point(x, y) in halls[i] then Floor else g[x][y]
  {
    PaintAll(g, w, h, halls, Floor)
  }

  /** How the grid `g` during `buildWalls` relates to the grid `g0` it
      started from: `added` is the wall list so far, without repetitions;
      its i-th entry was empty in `g0` and now holds the decorative wall
      chosen by the i-th draw after `rng0`; and every changed cell is listed. */
  ghost predicate Grown(g0: Grid<Tile>, g: Grid<Tile>, w: nat, h: nat, added: seq<Point>, rng0: Rng) {
    && IsGrid(g0, w, h) && IsGrid(g, w, h)
    && (forall i :: 0 <= i < |added| ==>
          && InBounds(added[i], w, h)
          && g0[added[i].x][added[i].y] == Nothing
          && g[added[i].x][added[i].y] == DecoWall(DrawAt(rng0, i) % 5))
    && (forall x, y :: 0 <= x < w && 0 <= y < h && g[x][y] != g0[x][y] ==> Point(x, y) in added)
    && (forall i, j :: 0 <= i < j < |added| ==> added[i] != added[j])
  }

  /** All eight neighbours of `q` are non-empty. */
  ghost predicate Enclosed(g: Grid<Tile>, q: Point) {
    forall n :: n in Neighbours8(q) ==> Filled(g, n)
  }

  /** One `checkPoints` step: an empty cell `n` becomes the decorative wall
      of the next draw and is appended to the wall list; a non-empty one is
      left alone. */
  method WallIfEmpty(g: Grid<Tile>, w: nat, h: nat, n: Point, added: seq<Point>, rng: Rng,
                     ghost g0: Grid<Tile>, ghost rng0: Rng, ghost start: Grid<Tile>)
    returns (g': Grid<Tile>, added': seq<Point>, rng': Rng)
    requires InBounds(n, w, h) && IsGrid(start, w, h)
    requires Grown(g0, g, w, h, added, rng0) && Advanced(rng0, rng, |added|) && Keeps(start, g, w, h)
    ensures Grown(g0, g', w, h, added', rng0) && Advanced(rng0, rng', |added'|) && Keeps(start, g', w, h)
    ensures added' == added || added' == added + [n]
    ensures Filled(g', n) && forall q :: Filled(g, q) ==> Filled(g', q)
  {
    g', added', rng' := g, added, rng;
    if g[n.x][n.y] == Nothing {
      var draw := NextInt(rng, 5);
      NextIntAfter(rng0, rng, |added|, 5);
      GrownExtend(g0, g, w, h, added, rng0, n, DecoWall(draw.0));
      KeepsSet(start, g, w, h, n, DecoWall(draw.0));
      FilledSet(g, n, DecoWall(draw.0));
      g' := Set(g, n, DecoWall(draw.0));
      added' := added + [n];
      rng' := draw.1;
    }
  }

  /** The inner `for` over the eight `checkPoints` of one non-empty cell `p`:
      each neighbour that is empty at the moment it is checked becomes the
      decorative wall picked by `nextInt(5)` and is appended to the list. */
  method WallAround(g: Grid<Tile>, w: nat, h: nat, p: Point, added: seq<Point>, rng: Rng,
                    ghost g0: Grid<Tile>, ghost rng0: Rng)
    returns (g': Grid<Tile>, added': seq<Point>, rng': Rng)
    requires Interior(p, w, h)
    requires Grown(g0, g, w, h, added, rng0) && Advanced(rng0, rng, |added|)
    ensures Grown(g0, g', w, h, added', rng0) && Advanced(rng0, rng', |added'|)
    ensures |added| <= |added'| && added'[..|added|] == added
    ensures forall i :: |added| <= i < |added'| ==> Chebyshev(added'[i], p) == 1
    ensures Enclosed(g', p)
    ensures Keeps(g, g', w, h)
  {
    g', added', rng' := g, added, rng;
    var ns := Neighbours8(p);
    NeighboursIn(p, w, h);
    var k := 0;
    while k < 8
      invariant 0 <= k <= 8
      invariant Grown(g0, g', w, h, added', rng0) && Advanced(rng0, rng', |added'|)
      invariant |added| <= |added'| && added'[..|added|] == added
      invariant forall i :: |added| <= i < |added'| ==> added'[i] in ns
      invariant forall j :: 0 <= j < k ==> Filled(g', ns[j])
      invariant Keeps(g, g', w, h)
    {
      var n := ns[k];
      ghost var before := added';
      g', added', rng' := WallIfEmpty(g', w, h, n, added', rng', g0, rng0, g);
      assert added'[..|added|] == before[..|added|];
      k := k + 1;
    }
    forall n | n in ns
      ensures Filled(g', n)
    {
      var j :| 0 <= j < 8 && ns[j] == n;
    }
  }

  /** The cell `q` exists and is not empty. */
  ghost predicate Filled(g: Grid<Tile>, q: Point) {
    0 <= q.x < |g| && 0 <= q.y < |g[q.x]| && g[q.x][q.y] != Nothing
  }

  /** Writing a non-empty tile leaves every non-empty cell non-empty and
      fills the written one. */
  lemma FilledSet(g: Grid<Tile>, p: Point, v: Tile)
    requires 0 <= p.x < |g| && 0 <= p.y < |g[p.x]| && v != Nothing
    ensures Filled(Set(g, p, v), p)
    ensures forall q :: Filled(g, q) ==> Filled(Set(g, p, v), q)
  {
  }

  /** The next draw of a stream that is `n` draws past `rng0` is the n-th
      draw after `rng0`. */
  lemma NextIntAfter(rng0: Rng, rng: Rng, n: nat, bound: nat)
    requires Advanced(rng0, rng, n) && bound > 0
    ensures NextInt(rng, bound).0 == DrawAt(rng0, n) % bound
    ensures Advanced(rng0, NextInt(rng, bound).1, n + 1)
  {
  }

  /** The eight neighbours of an interior cell are cells of the grid. */
  lemma NeighboursIn(p: Point, w: nat, h: nat)
    requires Interior(p, w, h)
    ensures forall k :: 0 <= k < 8 ==> InBounds(Neighbours8(p)[k], w, h)
  {
  }

  /** Every non-empty cell of `g` holds the same tile in `g'`. */
  ghost predicate Keeps(g: Grid<Tile>, g': Grid<Tile>, w: nat, h: nat)
    requires IsGrid(g, w, h) && IsGrid(g', w, h)
  {
    forall x, y :: 0 <= x < w && 0 <= y < h && g[x][y] != Nothing ==> g'[x][y] == g[x][y]
  }

  /** Writing to a cell that is empty in the current grid keeps what `g`
      kept. */
  lemma KeepsSet(g: Grid<Tile>, g': Grid<Tile>, w: nat, h: nat, n: Point, v: Tile)
    requires IsGrid(g, w, h) && IsGrid(g', w, h) && Keeps(g, g', w, h)
    requires InBounds(n, w, h) && g'[n.x][n.y] == Nothing
    ensures IsGrid(Set(g', n, v), w, h) && Keeps(g, Set(g', n, v), w, h)
  {
  }

  /** Turning one more empty cell into the wall of the next draw extends the
      relation. */
  lemma GrownExtend(g0: Grid<Tile>, g: Grid<Tile>, w: nat, h: nat, added: seq<Point>, rng0: Rng, n: Point, v: Tile)
    requires Grown(g0, g, w, h, added, rng0) && InBounds(n, w, h) && g[n.x][n.y] == Nothing
    requires v == DecoWall(DrawAt(rng0, |added|) % 5)
    ensures Grown(g0, Set(g, n, v), w, h, added + [n], rng0)
  {
    var g' := Set(g, n, v);
    var added' := added + [n];
    assert n !in added;
    assert g0[n.x][n.y] == Nothing;
    forall i | 0 <= i < |added'|
      ensures InBounds(added'[i], w, h) && g0[added'[i].x][added'[i].y] == Nothing
              && g'[added'[i].x][added'[i].y] == DecoWall(DrawAt(rng0, i) % 5)
    {
      if i < |added| {
        assert added'[i] == added[i] != n;
      }
    }
  }

  /** Scan order of `buildWalls`: row (x) outer, column (y) inner. */
  predicate ScannedBefore(q: Point, x: int, y: int) {
    q.x < x || (q.x == x && q.y < y)
  }

  /** `buildWalls`, scanning in place. Only cells empty at the moment of the
      check change, each to a decorative wall given by its own draw, and each
      is listed once; non-empty cells, floor among them, keep their tile;
      every cell of the interior that was non-empty beforehand ends with all
      eight neighbours non-empty; and every new wall was placed around an
      interior cell `sources[i]` that is non-empty at the end. Walls placed
      earlier in the same scan count as non-empty when reached, so the growth
      cascades: an interior wall placed before the scan reached its own cell
      ends enclosed as well. */
  method BuildWalls(g: Grid<Tile>, w: nat, h: nat, rng: Rng)
    returns (g': Grid<Tile>, walls: seq<Point>, rng': Rng, ghost sources: seq<Point>)
    requires IsGrid(g, w, h)
    ensures Grown(g, g', w, h, walls, rng) && Advanced(rng, rng', |walls|)
    ensures Keeps(g, g', w, h)
    ensures forall q :: Interior(q, w, h) && g[q.x][q.y] != Nothing ==> Enclosed(g', q)
    ensures Sourced(walls, sources, g', w, h)
    ensures forall i :: 0 <= i < |walls| ==> Supported(g', w, h, walls[i])
    ensures forall i :: 0 <= i < |walls| && Interior(walls[i], w, h) && ScannedBefore(sources[i], walls[i].x, walls[i].y) ==>
              Enclosed(g', walls[i])
  {
    g', walls, rng' := g, [], rng;
    sources := [];
    var x := 1;
    while x < w - 1
      invariant 1 <= x
      invariant Grown(g, g', w, h, walls, rng) && Advanced(rng, rng', |walls|)
      invariant Keeps(g, g', w, h)
      invariant EnclosedUpTo(g, g', w, h, x, 1)
      invariant Sourced(walls, sources, g', w, h)
      invariant CascadeUpTo(walls, sources, g', w, h, x, 1)
    {
      var y := 1;
      while y < h - 1
        invariant 1 <= y
        invariant Grown(g, g', w, h, walls, rng) && Advanced(rng, rng', |walls|)
        invariant Keeps(g, g', w, h)
        invariant EnclosedUpTo(g, g', w, h, x, y)
        invariant Sourced(walls, sources, g', w, h)
        invariant CascadeUpTo(walls, sources, g', w, h, x, y)
      {
        var p := Point(x, y);
        ghost var before, walls0, sources0 := g', walls, sources;
        if g'[x][y] != Nothing {
          g', walls, rng' := WallAround(g', w, h, p, walls, rng', g, rng);
          sources := sources + seq(|walls| - |walls0|, _ => p);
          ScanCellKeeps(g, before, g', w, h, x, y, walls0, walls, sources0, sources);
          ScanCellCascade(before, g', w, h, x, y, walls0, walls, sources0, sources);
        } else {
          EmptyStaysUnenclosed(g, g', w, h, p);
          EmptyNotWall(g, g', w, h, walls, rng, sources, x, y);
        }
        y := y + 1;
      }
      NextRow(g, g', w, h, x, y);
      NextRowCascade(walls, sources, g', w, h, x, y);
      x := x + 1;
    }
    AllScanned(g, g', w, h, x);
    AllScannedCascade(walls, sources, g', w, h, x);
    forall i | 0 <= i < |walls|
      ensures Supported(g', w, h, walls[i])
    {
      var q := sources[i];
      assert Interior(q, w, h) && Chebyshev(walls[i], q) == 1 && Filled(g', q);
    }
  }

  /** The cell `p` touches an interior cell that is not empty. */
  ghost predicate Supported(g: Grid<Tile>, w: nat, h: nat, p: Point) {
    exists q :: Interior(q, w, h) && Chebyshev(p, q) == 1 && Filled(g, q)
  }

  /** Every cell of the interior scanned before (x, y) that was non-empty in
      `g0` is enclosed in `g`. */
  ghost predicate EnclosedUpTo(g0: Grid<Tile>, g: Grid<Tile>, w: nat, h: nat, x: int, y: int)
    requires IsGrid(g0, w, h)
  {
    forall q :: Interior(q, w, h) && ScannedBefore(q, x, y) && g0[q.x][q.y] != Nothing ==> Enclosed(g, q)
  }

  /** Each listed wall has a recorded interior neighbour that is non-empty. */
  ghost predicate Sourced(walls: seq<Point>, sources: seq<Point>, g: Grid<Tile>, w: nat, h: nat) {
    |sources| == |walls|
    && forall i :: 0 <= i < |walls| ==>
         Interior(sources[i], w, h) && Chebyshev(walls[i], sources[i]) == 1 && Filled(g, sources[i])
  }

  /** Every interior wall scanned before (x, y) whose source was scanned
      before the wall itself is enclosed in `g`. */
  ghost predicate CascadeUpTo(walls: seq<Point>, sources: seq<Point>, g: Grid<Tile>, w: nat, h: nat, x: int, y: int) {
    |sources| == |walls|
    && forall i :: (0 <= i < |walls| && Interior(walls[i], w, h) && ScannedBefore(sources[i], walls[i].x, walls[i].y)
                    && ScannedBefore(walls[i], x, y)) ==> Enclosed(g, walls[i])
  }

  /** The scan step at a non-empty cell p = (x, y) encloses p, keeps the
      earlier enclosures, and adds walls only after p in scan order. */
  lemma ScanCellCascade(before: Grid<Tile>, after: Grid<Tile>, w: nat, h: nat, x: int, y: int,
                        walls0: seq<Point>, walls1: seq<Point>, sources0: seq<Point>, sources1: seq<Point>)
    requires IsGrid(before, w, h) && IsGrid(after, w, h) && Keeps(before, after, w, h)
    requires Enclosed(after, Point(x, y)) && CascadeUpTo(walls0, sources0, before, w, h, x, y)
    requires |walls0| <= |walls1| && walls1[..|walls0|] == walls0
    requires forall i :: |walls0| <= i < |walls1| ==> Chebyshev(walls1[i], Point(x, y)) == 1
    requires sources1 == sources0 + seq(|walls1| - |walls0|, _ => Point(x, y))
    ensures CascadeUpTo(walls1, sources1, after, w, h, x, y + 1)
  {
    EnclosedKept(before, after, w, h);
    forall i | 0 <= i < |walls1| && Interior(walls1[i], w, h) && ScannedBefore(sources1[i], walls1[i].x, walls1[i].y)
               && ScannedBefore(walls1[i], x, y + 1)
      ensures Enclosed(after, walls1[i])
    {
      if i < |walls0| {
        assert walls1[i] == walls0[i] && sources1[i] == sources0[i];
        if !ScannedBefore(walls1[i], x, y) {
          assert walls1[i] == Point(x, y);
        }
      } else {
        // a new wall lies after its source (x, y) and before (x, y + 1): none does
        assert false;
      }
    }
  }

  /** An empty cell is no wall, so scanning it adds no cascade duty. */
  lemma EmptyNotWall(g0: Grid<Tile>, g: Grid<Tile>, w: nat, h: nat, walls: seq<Point>, rng0: Rng,
                     sources: seq<Point>, x: int, y: int)
    requires Grown(g0, g, w, h, walls, rng0) && 0 <= x < w && 0 <= y < h && g[x][y] == Nothing
    requires CascadeUpTo(walls, sources, g, w, h, x, y)
    ensures CascadeUpTo(walls, sources, g, w, h, x, y + 1)
  {
    forall i | 0 <= i < |walls| && ScannedBefore(walls[i], x, y + 1)
      ensures ScannedBefore(walls[i], x, y)
    {
      assert g[walls[i].x][walls[i].y] != Nothing;
    }
  }

  lemma NextRowCascade(walls: seq<Point>, sources: seq<Point>, g: Grid<Tile>, w: nat, h: nat, x: int, y: int)
    requires y >= h - 1 && CascadeUpTo(walls, sources, g, w, h, x, y)
    ensures CascadeUpTo(walls, sources, g, w, h, x + 1, 1)
  {
  }

  lemma AllScannedCascade(walls: seq<Point>, sources: seq<Point>, g: Grid<Tile>, w: nat, h: nat, x: int)
    requires x >= w - 1 && CascadeUpTo(walls, sources, g, w, h, x, 1)
    ensures forall i :: 0 <= i < |walls| && Interior(walls[i], w, h) && ScannedBefore(sources[i], walls[i].x, walls[i].y) ==>
              Enclosed(g, walls[i])
  {
  }

  /** The scan step at a non-empty cell (x, y). */
  lemma ScanCellKeeps(g0: Grid<Tile>, before: Grid<Tile>, after: Grid<Tile>, w: nat, h: nat, x: int, y: int,
                      walls0: seq<Point>, walls1: seq<Point>, sources0: seq<Point>, sources1: seq<Point>)
    requires IsGrid(g0, w, h) && IsGrid(before, w, h) && IsGrid(after, w, h)
    requires Interior(Point(x, y), w, h) && before[x][y] != Nothing
    requires Keeps(g0, before, w, h) && Keeps(before, after, w, h)
    requires EnclosedUpTo(g0, before, w, h, x, y) && Enclosed(after, Point(x, y))
    requires Sourced(walls0, sources0, before, w, h)
    requires |walls0| <= |walls1| && walls1[..|walls0|] == walls0
    requires forall i :: |walls0| <= i < |walls1| ==> Chebyshev(walls1[i], Point(x, y)) == 1
    requires sources1 == sources0 + seq(|walls1| - |walls0|, _ => Point(x, y))
    ensures Keeps(g0, after, w, h)
    ensures EnclosedUpTo(g0, after, w, h, x, y + 1)
    ensures Sourced(walls1, sources1, after, w, h)
  {
    EnclosedKept(before, after, w, h);
    forall i | 0 <= i < |walls1|
      ensures Interior(sources1[i], w, h) && Chebyshev(walls1[i], sources1[i]) == 1 && Filled(after, sources1[i])
    {
      if i < |walls0| {
        assert walls1[i] == walls0[i];
      }
    }
  }

  /** A cell left empty by the scan so far was empty to begin with, so the
      scan owes it no enclosure. */
  lemma EmptyStaysUnenclosed(g0: Grid<Tile>, g: Grid<Tile>, w: nat, h: nat, p: Point)
    requires IsGrid(g0, w, h) && IsGrid(g, w, h) && Keeps(g0, g, w, h)
    requires Interior(p, w, h) && g[p.x][p.y] == Nothing
    requires EnclosedUpTo(g0, g, w, h, p.x, p.y)
    ensures EnclosedUpTo(g0, g, w, h, p.x, p.y + 1)
  {
  }

  lemma NextRow(g0: Grid<Tile>, g: Grid<Tile>, w: nat, h: nat, x: int, y: int)
    requires IsGrid(g0, w, h) && y >= h - 1
    requires EnclosedUpTo(g0, g, w, h, x, y)
    ensures EnclosedUpTo(g0, g, w, h, x + 1, 1)
  {
  }

  lemma AllScanned(g0: Grid<Tile>, g: Grid<Tile>, w: nat, h: nat, x: int)
    requires IsGrid(g0, w, h) && x >= w - 1
    requires EnclosedUpTo(g0, g, w, h, x, 1)
    ensures forall q :: Interior(q, w, h) && g0[q.x][q.y] != Nothing ==> Enclosed(g, q)
  {
  }

  /** A grid step that keeps every non-empty cell keeps every enclosure. */
  lemma EnclosedKept(a: Grid<Tile>, b: Grid<Tile>, w: nat, h: nat)
    requires IsGrid(a, w, h) && IsGrid(b, w, h) && Keeps(a, b, w, h)
    ensures forall q :: Enclosed(a, q) ==> Enclosed(b, q)
  {
    forall q | Enclosed(a, q)
      ensures Enclosed(b, q)
    {
      forall n | n in Neighbours8(q)
        ensures Filled(b, n)
      {
        assert Filled(a, n);
      }
    }
  }

  /** The i-th of `tiles` is picked when the i-th draw from `rng`, read as
      `nextDouble()`, is below `chance`. */
  predicate Hit(rng: Rng, i: nat, chance: Chance) {
    rng.draws(rng.pos + i) % DoubleUnits < chance
  }

  /** The tiles picked from `tiles` are the first one when its draw hits,
      then those picked from the rest with the following draws. */
  lemma PickedStep(tiles: seq<Point>, rng: Rng, chance: Chance, rest: seq<Point>)
    requires |tiles| > 0
    requires forall q :: q in rest <==>
               exists i :: 0 <= i < |tiles[1..]| && tiles[1..][i] == q && Hit(Rng(rng.draws, rng.pos + 1), i, chance)
    ensures forall q :: (q in rest || (Hit(rng, 0, chance) && q == tiles[0])) <==>
              exists i :: 0 <= i < |tiles| && tiles[i] == q && Hit(rng, i, chance)
  {
    var rng1 := Rng(rng.draws, rng.pos + 1);
    forall q | q in rest || (Hit(rng, 0, chance) && q == tiles[0])
      ensures exists i :: 0 <= i < |tiles| && tiles[i] == q && Hit(rng, i, chance)
    {
      if !(Hit(rng, 0, chance) && q == tiles[0]) {
        var j :| 0 <= j < |tiles[1..]| && tiles[1..][j] == q && Hit(rng1, j, chance);
        assert tiles[j + 1] == q && Hit(rng, j + 1, chance);
      }
    }
    forall q, i | 0 <= i < |tiles| && tiles[i] == q && Hit(rng, i, chance)
      ensures q in rest || (Hit(rng, 0, chance) && q == tiles[0])
    {
      if i > 0 {
        assert tiles[1..][i - 1] == q && Hit(rng1, i - 1, chance);
      }
    }
  }

  /** The loop of `placeTraps` and `placeEnergy`: one draw per listed tile, in
      order; a picked tile is set to `t` without looking at what it holds and
      is returned for registration. */
  function Scatter(g: Grid<Tile>, w: nat, h: nat, tiles: seq<Point>, rng: Rng, chance: Chance, t: Tile)
    : (r: (Grid<Tile>, seq<Point>, Rng))
    requires IsGrid(g, w, h) && AllIn(tiles, w, h)
    ensures IsGrid(r.0, w, h) && Advanced(rng, r.2, |tiles|)
    ensures forall q :: q in r.1 <==> exists i :: 0 <= i < |tiles| && tiles[i] == q && Hit(rng, i, chance)
    ensures forall x, y :: 0 <= x < w && 0 <= y < h ==> r.0[x][y] == if Point(x, y) in r.1 then t else g[x][y]
    decreases |tiles|
  {
    if |tiles| == 0 then (g, [], rng)
    else
      var (hit, rng1) := NextBelow(rng, chance);
      var g1 := if hit then Set(g, tiles[0], t) else g;
      var rest := Scatter(g1, w, h, tiles[1..], rng1, chance, t);
      var picked := (if hit then [tiles[0]] else []) + rest.1;
      assert hit == Hit(rng, 0, chance) && rng1 == Rng(rng.draws, rng.pos + 1);
      PickedStep(tiles, rng, chance, rest.1);
      (rest.0, picked, rest.2)
  }

  /** `placeTraps(0.25)` followed by `addTrap` per picked tile: one draw per
      room floor tile in `getFloorTiles` order; picked tiles become traps and
      are appended to the registry; only room cells are picked, so a
      hallway-only cell is never touched. */
  function PlaceTraps(g: Grid<Tile>, w: nat, h: nat, rooms: seq<Room>, traps: Registry, rng: Rng)
    : (r: (Grid<Tile>, Registry, Rng))
    requires IsGrid(g, w, h) && AllIn(FloorTiles(rooms), w, h)
    ensures IsGrid(r.0, w, h) && Advanced(rng, r.2, |FloorTiles(rooms)|)
    ensures r.1.tile == traps.tile && |r.1.positions| >= |traps.positions|
    ensures r.1.positions[..|traps.positions|] == traps.positions
    ensures forall x, y :: 0 <= x < w && 0 <= y < h ==>
              r.0[x][y] == if Point(x, y) in r.1.positions[|traps.positions|..] then Trap else g[x][y]
    ensures forall q :: q in r.1.positions[|traps.positions|..] <==>
              exists i :: 0 <= i < |FloorTiles(rooms)| && FloorTiles(rooms)[i] == q && Hit(rng, i, TrapChance)
  {
    var s := Scatter(g, w, h, FloorTiles(rooms), rng, TrapChance, Trap);
    var reg := AddAll(traps, s.1);
    assert forall q :: q in s.1 ==> q in FloorTiles(rooms);
    assert reg.positions[|traps.positions|..] == s.1;
    (s.0, reg, s.2)
  }

  /** `placeEnergy(0.01)` followed by `addEnergy` per picked tile: the same
      rule; the cell is overwritten whatever it holds, so an energy may cover
      a trap whose position stays registered as a trap. */
  function PlaceEnergy(g: Grid<Tile>, w: nat, h: nat, rooms: seq<Room>, energys: Registry, rng: Rng)
    : (r: (Grid<Tile>, Registry, Rng))
    requires IsGrid(g, w, h) && AllIn(FloorTiles(rooms), w, h)
    ensures IsGrid(r.0, w, h) && Advanced(rng, r.2, |FloorTiles(rooms)|)
    ensures r.1.tile == energys.tile && |r.1.positions| >= |energys.positions|
    ensures r.1.positions[..|energys.positions|] == energys.positions
    ensures forall x, y :: 0 <= x < w && 0 <= y < h ==>
              r.0[x][y] == if Point(x, y) in r.1.positions[|energys.positions|..] then Energy else g[x][y]
    ensures forall q :: q in r.1.positions[|energys.positions|..] <==>
              exists i :: 0 <= i < |FloorTiles(rooms)| && FloorTiles(rooms)[i] == q && Hit(rng, i, EnergyChance)
  {
    var s := Scatter(g, w, h, FloorTiles(rooms), rng, EnergyChance, Energy);
    var reg := AddAll(energys, s.1);
    assert forall q :: q in s.1 ==> q in FloorTiles(rooms);
    assert reg.positions[|energys.positions|..] == s.1;
    (s.0, reg, s.2)
  }

  /** `demolishAllTraps` / `demolishAllEnergys`: each listed point becomes
      floor and nothing else changes. */
  function DemolishAll(g: Grid<Tile>, w: nat, h: nat, ps: seq<Point>): (g': Grid<Tile>)
    requires IsGrid(g, w, h) && AllIn(ps, w, h)
    ensures IsGrid(g', w, h)
    ensures forall x, y :: 0 <= x < w && 0 <= y < h ==> g'[x][y] == if Point(x, y) in ps then Floor else g[x][y]
  {
    Paint(g, w, h, ps, Floor)
  }
}

=== FILE: environment.dfy ===
/** `Environment`: what the player sees. The display projection shows the
    world through line of sight with a fading memory of cells seen before
    (a brightness of 2 for in sight, 1 for remembered, 0 for never seen); the
    virtual projection shows the cells in sight as their digital kinds. */
module Environments {
  import opened Points
  import opened Grids
  import opened TileKinds
  import opened Random
  import opened Bresenham
  import opened Actors
  import opened Worlds

  // ---------------------------------------------------------------- sight

  /** The `isVisible` loop from index `i` on: no cell of `line` from `i` up
      to, but not including, the last one is the plain wall. */
  function ClearFrom(g: Grid<Tile>, w: nat, h: nat, line: seq<Point>, i: nat): (r: bool)
    requires IsGrid(g, w, h) && AllIn(line, w, h)
    ensures r <==> forall k :: i <= k < |line| - 1 ==> g[line[k].x][line[k].y] != Wall
    decreases |line| - i
  {
    if i + 1 >= |line| then true
    else if g[line[i].x][line[i].y] == Wall then false
    else ClearFrom(g, w, h, line, i + 1)
  }

  /** A line between two cells of the grid stays on the grid. */
  lemma SightLineIn(a: Point, c: Point, w: nat, h: nat)
    requires InBounds(a, w, h) && InBounds(c, w, h)
    ensures AllIn(PlotLine(a, c), w, h)
  {
  }

  /** Whether `c` can be seen from `a`: the Bresenham line from `a` to `c`
      is walked from its second point to its last but one, and a plain wall
      there blocks the view. */
  function Sees(g: Grid<Tile>, w: nat, h: nat, a: Point, c: Point): (r: bool)
    requires IsGrid(g, w, h) && InBounds(a, w, h) && InBounds(c, w, h)
    ensures r <==> forall k :: 1 <= k < |PlotLine(a, c)| - 1 ==>
                     g[PlotLine(a, c)[k].x][PlotLine(a, c)[k].y] != Wall
  {
    SightLineIn(a, c, w, h);
    ClearFrom(g, w, h, PlotLine(a, c), 1)
  }

  /** `isVisible`: seen from the player's cell. */
  function IsVisible(wd: World, c: Point): (v: bool)
    requires Valid(wd) && InBounds(c, wd.w, wd.h)
    ensures v <==> forall k :: 1 <= k < |PlotLine(wd.player.pos, c)| - 1 ==>
                     wd.grid[PlotLine(wd.player.pos, c)[k].x][PlotLine(wd.player.pos, c)[k].y] != Wall
    ensures Chebyshev(wd.player.pos, c) <= 1 ==> v
  {
    var seen := Sees(wd.grid, wd.w, wd.h, wd.player.pos, c);
    if Chebyshev(wd.player.pos, c) <= 1 then NearIsSeen(wd.grid, wd.w, wd.h, wd.player.pos, c); seen else seen
  }

  /** Sight is symmetric: the line does not depend on the order of its ends. */
  lemma SeesSymmetric(g: Grid<Tile>, w: nat, h: nat, a: Point, c: Point)
    requires IsGrid(g, w, h) && InBounds(a, w, h) && InBounds(c, w, h)
    ensures Sees(g, w, h, a, c) == Sees(g, w, h, c, a)
  {
    PlotLineSymmetric(a, c);
  }

  /** A cell at most one step away in each axis has no cell strictly between
      it and the viewer, so it is always seen; this covers the viewer's own
      cell. */
  lemma NearIsSeen(g: Grid<Tile>, w: nat, h: nat, a: Point, c: Point)
    requires IsGrid(g, w, h) && InBounds(a, w, h) && InBounds(c, w, h)
    requires Chebyshev(a, c) <= 1
    ensures Sees(g, w, h, a, c)
  {
  }

  /** On a grid without a plain wall every cell is seen from everywhere:
      the generated worlds use only decorative walls, so nothing ever blocks
      the view. */
  lemma WallFreeSeesAll(wd: World, c: Point)
    requires Valid(wd) && WallFree(wd) && InBounds(c, wd.w, wd.h)
    ensures IsVisible(wd, c)
  {
    var line := PlotLine(wd.player.pos, c);
    SightLineIn(wd.player.pos, c, wd.w, wd.h);
    forall k | 1 <= k < |line| - 1
      ensures wd.grid[line[k].x][line[k].y] != Wall
    {
      assert InBounds(line[k], wd.w, wd.h);
    }
  }

  /** `sight` is the visibility map of the world: the grid of `isVisible`
      answers, one per cell. */
  ghost predicate SightOf(wd: World, sight: Grid<bool>)
    requires Valid(wd)
  {
    && IsGrid(sight, wd.w, wd.h)
    && forall x, y {:trigger IsVisible(wd, Point(x, y))} :: 0 <= x < wd.w && 0 <= y < wd.h ==>
         sight[x][y] == IsVisible(wd, Point(x, y))
  }

  /** The visibility map, built cell by cell. */
  ghost function Sight(wd: World): (sight: Grid<bool>)
    requires Valid(wd)
    ensures SightOf(wd, sight)
  {
    seq(wd.w, x requires 0 <= x < wd.w => seq(wd.h, y requires 0 <= y < wd.h => IsVisible(wd, Point(x, y))))
  }

  /** One `isVisible` call of the scans, read against the visibility map. */
  method VisibleAt(wd: World, ghost sight: Grid<bool>, x: nat, y: nat) returns (b: bool)
    requires Valid(wd) && SightOf(wd, sight) && x < wd.w && y < wd.h
    ensures b == sight[x][y]
  {
    b := IsVisible(wd, Point(x, y));
  }

  // ------------------------------------------------------- display memory

  /** The dimmed form of a remembered cell: floor, trap and energy become
      the dark floor, decorative wall i its dark variant i, and any other
      kind leaves the display cell as it was. */
  function Dimmed(t: Tile, shown: Tile): (d: Tile)
    ensures DimsToFloor(t) ==> d == FloorDark
    ensures t.DecoWall? ==> d == DecoWallDark(t.shade)
    ensures !DimsToFloor(t) && !t.DecoWall? ==> d == shown
  {
    if DimsToFloor(t) then FloorDark
    else if t.DecoWall? then DecoWallDark(t.shade)
    else shown
  }

  /** One cell of `calcSeenWorld`: the new display cell and brightness from
      the world tile, whether it is in sight, and the old brightness and
      display cell. */
  function SeenCell(t: Tile, visible: bool, bright: int, shown: Tile): (r: (Tile, int))
    ensures t == Nothing ==> r == (Nothing, bright)
    ensures t != Nothing ==> (r.1 == 2 <==> visible)
    ensures t != Nothing && visible ==> r.0 == (if t == Energy then Floor else t)
    ensures 0 <= bright <= 2 ==> 0 <= r.1 <= 2
    ensures t != Nothing && 1 <= bright <= 2 ==> 1 <= r.1
    ensures t != Nothing && !visible && bright != 1 && bright != 2 ==> r == (Nothing, bright)
    ensures t != Nothing && !visible && 1 <= bright <= 2 ==> r == (Dimmed(t, shown), 1)
    ensures shown != Energy ==> r.0 != Energy
  {
    if t == Nothing then (Nothing, bright)
    else if visible then (if t == Energy then Floor else t, 2)
    else
      var b := if bright == 2 then 1 else bright;
      if b == 1 then (Dimmed(t, shown), 1) else (Nothing, b)
  }

  /** The display cell `d` and brightness `b` at column `x`, row `y` are
      the `SeenCell` of the old grids `d0`, `b0` there. */
  ghost predicate SeenOk(wd: World, sight: Grid<bool>, d0: Grid<Tile>, b0: Grid<int>, d: Tile, b: int, x: int, y: int)
    requires Valid(wd) && IsGrid(sight, wd.w, wd.h) && IsGrid(d0, wd.w, wd.h) && IsGrid(b0, wd.w, wd.h)
    requires 0 <= x < wd.w && 0 <= y < wd.h
  {
    (d, b) == SeenCell(wd.grid[x][y], sight[x][y], b0[x][y], d0[x][y])
  }

  /** Every column before `x` of `display`/`bright` holds the `SeenCell` of
      the old grids; every column from `x` on is untouched. */
  ghost predicate SeenUpTo(wd: World, sight: Grid<bool>, d0: Grid<Tile>, b0: Grid<int>, d: Grid<Tile>, b: Grid<int>, x: int)
    requires Valid(wd) && IsGrid(sight, wd.w, wd.h) && IsGrid(d0, wd.w, wd.h) && IsGrid(b0, wd.w, wd.h)
    requires IsGrid(d, wd.w, wd.h) && IsGrid(b, wd.w, wd.h)
  {
    && (forall i, j :: 0 <= i < x && i < wd.w && 0 <= j < wd.h ==> SeenOk(wd, sight, d0, b0, d[i][j], b[i][j], i, j))
    && (forall i :: x <= i < wd.w && 0 <= i ==> d[i] == d0[i] && b[i] == b0[i])
  }

  /** One column of `calcSeenWorld`: the inner loop over y. */
  method SeenColumn(wd: World, ghost sight: Grid<bool>, display: Grid<Tile>, bright: Grid<int>, x: nat) returns (dc: seq<Tile>, bc: seq<int>)
    requires Valid(wd) && SightOf(wd, sight) && IsGrid(display, wd.w, wd.h) && IsGrid(bright, wd.w, wd.h) && x < wd.w
    ensures |dc| == wd.h && |bc| == wd.h
    ensures forall y :: 0 <= y < wd.h ==> SeenOk(wd, sight, display, bright, dc[y], bc[y], x, y)
  {
    dc, bc := display[x], bright[x];
    var y := 0;
    while y < wd.h
      invariant 0 <= y <= wd.h && |dc| == wd.h && |bc| == wd.h
      invariant forall j :: 0 <= j < y ==> SeenOk(wd, sight, display, bright, dc[j], bc[j], x, j)
      invariant forall j :: y <= j < wd.h ==> dc[j] == display[x][j] && bc[j] == bright[x][j]
    {
      var visible := VisibleAt(wd, sight, x, y);
      var r := SeenCell(wd.grid[x][y], visible, bc[y], dc[y]);
      assert SeenOk(wd, sight, display, bright, r.0, r.1, x, y);
      dc, bc := dc[y := r.0], bc[y := r.1];
      y := y + 1;
    }
  }

  /** `calcSeenWorld`, scanning x outer and y inner and rewriting the display
      and brightness arrays in place: each cell ends as the `SeenCell` of its
      own old values, whatever the scan order. */
  method CalcSeenWorld(wd: World, ghost sight: Grid<bool>, display: Grid<Tile>, bright: Grid<int>) returns (display': Grid<Tile>, bright': Grid<int>)
    requires Valid(wd) && SightOf(wd, sight) && IsGrid(display, wd.w, wd.h) && IsGrid(bright, wd.w, wd.h)
    ensures IsGrid(display', wd.w, wd.h) && IsGrid(bright', wd.w, wd.h)
    ensures forall x, y :: 0 <= x < wd.w && 0 <= y < wd.h ==> SeenOk(wd, sight, display, bright, display'[x][y], bright'[x][y], x, y)
  {
    display', bright' := display, bright;
    var x := 0;
    while x < wd.w
      invariant 0 <= x <= wd.w
      invariant IsGrid(display', wd.w, wd.h) && IsGrid(bright', wd.w, wd.h)
      invariant SeenUpTo(wd, sight, display, bright, display', bright', x)
    {
      var dc, bc := SeenColumn(wd, sight, display, bright, x);
      display', bright' := display'[x := dc], bright'[x := bc];
      x := x + 1;
    }
  }

  /** The scan keeps every brightness in {0, 1, 2}, never forgets a
      non-empty cell once seen, and never shows energy on the display. */
  lemma SeenWorldInvariants(wd: World, sight: Grid<bool>, display: Grid<Tile>, bright: Grid<int>, display': Grid<Tile>, bright': Grid<int>)
    requires Valid(wd) && IsGrid(sight, wd.w, wd.h) && IsGrid(display, wd.w, wd.h) && IsGrid(bright, wd.w, wd.h)
    requires IsGrid(display', wd.w, wd.h) && IsGrid(bright', wd.w, wd.h)
    requires forall x, y :: 0 <= x < wd.w && 0 <= y < wd.h ==> SeenOk(wd, sight, display, bright, display'[x][y], bright'[x][y], x, y)
    ensures (forall x, y :: 0 <= x < wd.w && 0 <= y < wd.h ==> 0 <= bright[x][y] <= 2) ==>
            (forall x, y :: 0 <= x < wd.w && 0 <= y < wd.h ==> 0 <= bright'[x][y] <= 2)
    ensures forall x, y :: 0 <= x < wd.w && 0 <= y < wd.h && wd.grid[x][y] != Nothing && 1 <= bright[x][y] <= 2 ==>
              1 <= bright'[x][y]
    ensures (forall x, y :: 0 <= x < wd.w && 0 <= y < wd.h ==> display[x][y] != Energy) ==>
            (forall x, y :: 0 <= x < wd.w && 0 <= y < wd.h ==> display'[x][y] != Energy)
  {
    if forall x, y :: 0 <= x < wd.w && 0 <= y < wd.h ==> 0 <= bright[x][y] <= 2 {
      forall x, y | 0 <= x < wd.w && 0 <= y < wd.h
        ensures 0 <= bright'[x][y] <= 2
      {
        var r := SeenCell(wd.grid[x][y], sight[x][y], bright[x][y], display[x][y]);
      }
    }
    forall x, y | 0 <= x < wd.w && 0 <= y < wd.h && wd.grid[x][y] != Nothing && 1 <= bright[x][y] <= 2
      ensures 1 <= bright'[x][y]
    {
      var r := SeenCell(wd.grid[x][y], sight[x][y], bright[x][y], display[x][y]);
    }
    if forall x, y :: 0 <= x < wd.w && 0 <= y < wd.h ==> display[x][y] != Energy {
      forall x, y | 0 <= x < wd.w && 0 <= y < wd.h
        ensures display'[x][y] != Energy
      {
        var r := SeenCell(wd.grid[x][y], sight[x][y], bright[x][y], display[x][y]);
      }
    }
  }

  // ------------------------------------------------------ virtual projection

  /** The virtual kind of a visible, non-empty world tile other than floor. */
  function Digitised(t: Tile): (v: Tile)
    ensures v in {PlayerV, BuddyV, FloorV, Energy, WallV}
  {
    if t == Tile.Player then PlayerV
    else if t == Tile.Buddy then BuddyV
    else if t == Trap then FloorV
    else if t == Energy then Energy
    else WallV
  }

  /** A cell whose virtual form takes a draw: a floor in sight. */
  ghost predicate DrawsStatic(wd: World, sight: Grid<bool>, x: int, y: int)
    requires Valid(wd) && IsGrid(sight, wd.w, wd.h) && 0 <= x < wd.w && 0 <= y < wd.h
  {
    wd.grid[x][y] == Floor && sight[x][y]
  }

  /** The number of drawing cells in column `x` below row `y`. */
  ghost function ColumnDraws(wd: World, sight: Grid<bool>, x: int, y: int): nat
    requires Valid(wd) && IsGrid(sight, wd.w, wd.h) && 0 <= x < wd.w && 0 <= y <= wd.h
    decreases y
  {
    if y == 0 then 0 else ColumnDraws(wd, sight, x, y - 1) + (if DrawsStatic(wd, sight, x, y - 1) then 1 else 0)
  }

  /** The number of drawing cells in the columns before `x`. */
  ghost function PriorDraws(wd: World, sight: Grid<bool>, x: int): nat
    requires Valid(wd) && IsGrid(sight, wd.w, wd.h) && 0 <= x <= wd.w
    decreases x
  {
    if x == 0 then 0 else PriorDraws(wd, sight, x - 1) + ColumnDraws(wd, sight, x - 1, wd.h)
  }

  /** The virtual cell at column `x`, row `y`: empty unless in sight and
      non-empty; a floor becomes static whose level is its draw, taken in
      scan order; anything else its digital kind. */
  ghost predicate VirtualCellOk(wd: World, sight: Grid<bool>, rng: Rng, v: Tile, x: int, y: int)
    requires Valid(wd) && IsGrid(sight, wd.w, wd.h) && 0 <= x < wd.w && 0 <= y < wd.h
  {
    var t := wd.grid[x][y];
    if t == Nothing || !sight[x][y] then v == Nothing
    else if t == Floor then v == Static(DrawAt(rng, PriorDraws(wd, sight, x) + ColumnDraws(wd, sight, x, y)) % 5)
    else v == Digitised(t)
  }

  /** One column of `calcVirtualWorld`: the inner loop over y. */
  method VirtualColumn(wd: World, ghost sight: Grid<bool>, rng: Rng, x: nat, cur: Rng) returns (col: seq<Tile>, cur': Rng)
    requires Valid(wd) && SightOf(wd, sight) && x < wd.w && Advanced(rng, cur, PriorDraws(wd, sight, x))
    ensures |col| == wd.h
    ensures forall y :: 0 <= y < wd.h ==> VirtualCellOk(wd, sight, rng, col[y], x, y)
    ensures Advanced(rng, cur', PriorDraws(wd, sight, x + 1))
  {
    col, cur' := [], cur;
    var y := 0;
    while y < wd.h
      invariant 0 <= y <= wd.h && |col| == y
      invariant forall j :: 0 <= j < y ==> VirtualCellOk(wd, sight, rng, col[j], x, j)
      invariant Advanced(rng, cur', PriorDraws(wd, sight, x) + ColumnDraws(wd, sight, x, y))
    {
      var v;
      v, cur' := VirtualCell(wd, sight, rng, x, y, cur');
      col := col + [v];
      y := y + 1;
    }
  }

  /** One cell of `calcVirtualWorld`: a visible floor takes the next draw. */
  method VirtualCell(wd: World, ghost sight: Grid<bool>, rng: Rng, x: nat, y: nat, cur: Rng) returns (v: Tile, cur': Rng)
    requires Valid(wd) && SightOf(wd, sight) && x < wd.w && y < wd.h
    requires Advanced(rng, cur, PriorDraws(wd, sight, x) + ColumnDraws(wd, sight, x, y))
    ensures VirtualCellOk(wd, sight, rng, v, x, y)
    ensures Advanced(rng, cur', PriorDraws(wd, sight, x) + ColumnDraws(wd, sight, x, y + 1))
  {
    cur' := cur;
    var t := wd.grid[x][y];
    var visible := VisibleAt(wd, sight, x, y);
    if t == Nothing {
      v := Nothing;
      assert VirtualCellOk(wd, sight, rng, v, x, y);
      assert ColumnDraws(wd, sight, x, y + 1) == ColumnDraws(wd, sight, x, y);
    } else if visible {
      if t == Floor {
        assert DrawsStatic(wd, sight, x, y);
        var drawn := NextInt(cur', 5);
        v := Static(drawn.0);
        assert VirtualCellOk(wd, sight, rng, v, x, y);
        cur' := drawn.1;
      } else {
        v := Digitised(t);
        assert VirtualCellOk(wd, sight, rng, v, x, y);
        assert !DrawsStatic(wd, sight, x, y);
      }
    } else {
      v := Nothing;
      assert VirtualCellOk(wd, sight, rng, v, x, y);
      assert !DrawsStatic(wd, sight, x, y);
    }
  }

  /** `calcVirtualWorld` with `randomStatic`: rebuilds the whole virtual
      array, one draw of `nextInt(5)` per floor cell in sight, x outer and
      y inner. */
  method CalcVirtualWorld(wd: World, ghost sight: Grid<bool>, rng: Rng) returns (virtual: Grid<Tile>, rng': Rng)
    requires Valid(wd) && SightOf(wd, sight)
    ensures IsGrid(virtual, wd.w, wd.h)
    ensures forall x, y :: 0 <= x < wd.w && 0 <= y < wd.h ==> VirtualCellOk(wd, sight, rng, virtual[x][y], x, y)
    ensures Advanced(rng, rng', PriorDraws(wd, sight, wd.w))
  {
    virtual, rng' := [], rng;
    var x := 0;
    while x < wd.w
      invariant 0 <= x <= wd.w && |virtual| == x
      invariant forall i :: 0 <= i < x ==> |virtual[i]| == wd.h
      invariant forall i, j :: 0 <= i < x && 0 <= j < wd.h ==> VirtualCellOk(wd, sight, rng, virtual[i][j], i, j)
      invariant Advanced(rng, rng', PriorDraws(wd, sight, x))
    {
      var col;
      col, rng' := VirtualColumn(wd, sight, rng, x, rng');
      virtual := virtual + [col];
      x := x + 1;
    }
  }

  /** In sight a non-empty cell has a non-empty virtual form; out of sight
      the virtual projection shows nothing at all. */
  lemma VirtualShowsOnlySight(wd: World, sight: Grid<bool>, rng: Rng, virtual: Grid<Tile>, x: int, y: int)
    requires Valid(wd) && IsGrid(sight, wd.w, wd.h) && IsGrid(virtual, wd.w, wd.h) && 0 <= x < wd.w && 0 <= y < wd.h
    requires VirtualCellOk(wd, sight, rng, virtual[x][y], x, y)
    ensures virtual[x][y] != Nothing <==> wd.grid[x][y] != Nothing && sight[x][y]
    ensures virtual[x][y].Static? <==> wd.grid[x][y] == Floor && sight[x][y]
  {
  }

  // ----------------------------------------------------------- environment

  /** Which of the two arrays a reference designates. */
  datatype Proj = Display | Virtual

  datatype Env = Env(display: Grid<Tile>, virtual: Grid<Tile>, bright: Grid<int>, current: Proj, alternate: Proj)

  /** Both projections and the brightness have the world's shape. */
  ghost predicate EnvShaped(e: Env, w: nat, h: nat) {
    IsGrid(e.display, w, h) && IsGrid(e.virtual, w, h) && IsGrid(e.bright, w, h)
  }

  /** The `Environment` constructor. */
  function NewEnv(w: nat, h: nat): (e: Env)
    ensures EnvShaped(e, w, h)
    ensures forall x, y :: 0 <= x < w && 0 <= y < h ==>
              e.display[x][y] == Nothing && e.virtual[x][y] == Nothing && e.bright[x][y] == 0
    ensures e.current == Display && e.alternate == Virtual
  {
    Env(Uniform(w, h, Nothing), Uniform(w, h, Nothing), Uniform(w, h, 0), Display, Virtual)
  }

  /** `switchWorld`: the player's `digital` flips and the current array
      changes. Going into the virtual projection the alternate reference is
      assigned from the just-updated current one, so it too becomes the
      virtual array. */
  function SwitchWorld(e: Env, wd: World): (r: (Env, World))
    ensures r.1 == wd.(player := SwitchWorlds(wd.player))
    ensures r.0 == e.(current := r.0.current, alternate := r.0.alternate)
    ensures r.0.current != e.current
    ensures r.0.alternate == Virtual
  {
    var wd' := wd.(player := SwitchWorlds(wd.player));
    if e.current == Virtual then (e.(current := Display, alternate := Virtual), wd')
    else (e.(current := Virtual, alternate := Virtual), wd')
  }

  /** The current array is the virtual one exactly when the player is
      digital, and every switch keeps it so. */
  lemma SwitchTracksDigital(e: Env, wd: World)
    requires e.current == Virtual <==> wd.player.digital
    ensures var r := SwitchWorld(e, wd);
            r.0.current == Virtual <==> r.1.player.digital
  {
  }

  /** Switching twice is the identity whenever the alternate reference is
      the virtual array, as it is from construction on; after a switch into
      the virtual projection both references designate the same array. */
  lemma SwitchTwice(e: Env, wd: World)
    requires e.alternate == Virtual
    ensures var r := SwitchWorld(e, wd);
            SwitchWorld(r.0, r.1) == (e, wd)
    ensures SwitchWorld(e, wd).0.current == Virtual ==> SwitchWorld(e, wd).0.alternate == SwitchWorld(e, wd).0.current
  {
  }

  /** `calcEnvironments`: the virtual projection, then the display one; the
      two agree on which non-empty cells are in sight. */
  method CalcEnvironments(wd: World, e: Env, rng: Rng) returns (e': Env, rng': Rng)
    requires Valid(wd) && EnvShaped(e, wd.w, wd.h)
    ensures e' == e.(display := e'.display, virtual := e'.virtual, bright := e'.bright)
    ensures EnvShaped(e', wd.w, wd.h)
    ensures forall x, y :: 0 <= x < wd.w && 0 <= y < wd.h ==>
              && VirtualCellOk(wd, Sight(wd), rng, e'.virtual[x][y], x, y)
              && SeenOk(wd, Sight(wd), e.display, e.bright, e'.display[x][y], e'.bright[x][y], x, y)
    ensures forall x, y :: 0 <= x < wd.w && 0 <= y < wd.h && wd.grid[x][y] != Nothing ==>
              (e'.virtual[x][y] != Nothing <==> e'.bright[x][y] == 2)
    ensures Advanced(rng, rng', PriorDraws(wd, Sight(wd), wd.w))
  {
    ghost var sight := Sight(wd);
    var virtual;
    virtual, rng' := CalcVirtualWorld(wd, sight, rng);
    var display, bright := CalcSeenWorld(wd, sight, e.display, e.bright);
    e' := e.(display := display, virtual := virtual, bright := bright);
    forall x, y | 0 <= x < wd.w && 0 <= y < wd.h && wd.grid[x][y] != Nothing
      ensures e'.virtual[x][y] != Nothing <==> e'.bright[x][y] == 2
    {
      VirtualShowsOnlySight(wd, sight, rng, virtual, x, y);
    }
  }
}

=== FILE: generation.dfy ===
/** The `World` constructor: an empty grid, then rooms, hallways, walls,
    traps, energies and finally the player with its buddy. */
module Generation {
  import opened JavaInt
  import opened Points
  import opened Grids
  import opened TileKinds
  import opened Random
  import opened Rooms
  import opened RoomCollection
  import opened Hallways
  import opened Registry
  import opened Actors
  import opened Builder
  import opened Worlds

  /** Room placement attempts of `generateRooms`. */
  const MaxAttempts: nat := 2500

  /** Each attempt reads `nextDouble` once and `nextInt` four times. */
  const DrawsPerAttempt: nat := 5

  /** The size range of one attempt, by its `nextDouble()` numerator `u`:
      below 0.2 small, below 0.4 medium, otherwise large. */
  function SizeRange(u: nat): (r: (int, int))
    ensures u < SmallRoomChance ==> r == (4, 6)
    ensures SmallRoomChance <= u < MediumRoomChance ==> r == (6, 8)
    ensures MediumRoomChance <= u ==> r == (7, 12)
  {
    if u < SmallRoomChance then (4, 6)
    else if u < MediumRoomChance then (6, 8)
    else (7, 12)
  }

  /** A room that lies in the interior and whose sides are 4 to 12 cells. */
  ghost predicate WellPlaced(r: Room, w: nat, h: nat) {
    && 1 <= r.x1 && r.x2 <= w - 1 && 4 <= r.x2 - r.x1 <= 12
    && 1 <= r.y1 && r.y2 <= h - 1 && 4 <= r.y2 - r.y1 <= 12
  }

  /** One attempt of `generateRooms`: the size class, width, height, and
      the lower-left corner, drawn in that order. The room is the one
      `NewRoom(px + 1, py + 1, width, height)` builds. */
  function Candidate(rng: Rng, w: nat, h: nat): (r: (Room, Rng))
    requires w >= 14 && h >= 14
    ensures Advanced(rng, r.1, DrawsPerAttempt)
    ensures WellPlaced(r.0, w, h)
    ensures var range := SizeRange(DrawAt(rng, 0) % DoubleUnits);
            && range.0 <= r.0.x2 - r.0.x1 <= range.1
            && range.0 <= r.0.y2 - r.0.y1 <= range.1
  {
    var (u, r1) := NextDouble(rng);
    var range := SizeRange(u);
    var (dw, r2) := NextInt(r1, range.1 - range.0 + 1);
    var (dh, r3) := NextInt(r2, range.1 - range.0 + 1);
    var width, height := range.0 + dw, range.0 + dh;
    var (px, r4) := NextInt(r3, w - width - 1);
    var (py, r5) := NextInt(r4, h - height - 1);
    (Room(px + 1, px + 1 + width, py + 1, py + 1 + height), r5)
  }

  /** The acceptance test of an attempt against one placed room: no overlap
      (closed intervals) and neither centre coordinate shared. */
  predicate Apart(a: Room, b: Room) {
    !Intersects(a, b) && Center(a).x != Center(b).x && Center(a).y != Center(b).y
  }

  /** The inner `for` of `generateRooms`: the candidate is kept when it is
      apart from every placed room. */
  predicate Fits(rooms: seq<Room>, r: Room) {
    forall j :: 0 <= j < |rooms| ==> Apart(rooms[j], r)
  }

  ghost predicate PairwiseApart(rooms: seq<Room>) {
    forall i, j :: 0 <= i < |rooms| && 0 <= j < |rooms| && i != j ==> Apart(rooms[i], rooms[j])
  }

  /** The cell lies in some room. */
  ghost predicate Covered(rooms: seq<Room>, p: Point) {
    exists i :: 0 <= i < |rooms| && p in Tiles(rooms[i])
  }

  lemma ApartSymmetric(a: Room, b: Room)
    ensures Apart(a, b) <==> Apart(b, a)
  {
    IntersectsSymmetric(a, b);
  }

  /** Reordering keeps rooms pairwise apart. */
  lemma PairwiseApartPermuted(a: seq<Room>, b: seq<Room>)
    requires multiset(a) == multiset(b) && PairwiseApart(a)
    ensures PairwiseApart(b)
  {
    forall i, j | 0 <= i < |b| && 0 <= j < |b| && i != j
      ensures Apart(b[i], b[j])
    {
      if i < j {
        PermutationPair(a, b, i, j);
      } else {
        PermutationPair(a, b, j, i);
        var i', j' :| 0 <= i' < |a| && 0 <= j' < |a| && i' != j' && a[i'] == b[j] && a[j'] == b[i];
        ApartSymmetric(a[i'], a[j']);
      }
    }
  }

  /** Adding a fitting room keeps rooms pairwise apart. */
  lemma PairwiseApartAppend(rooms: seq<Room>, r: Room)
    requires PairwiseApart(rooms) && Fits(rooms, r)
    ensures PairwiseApart(rooms + [r])
  {
    var s := rooms + [r];
    forall i, j | 0 <= i < |s| && 0 <= j < |s| && i != j
      ensures Apart(s[i], s[j])
    {
      if i == |rooms| {
        ApartSymmetric(s[j], r);
      }
    }
  }

  /** Reordering keeps the set of covered cells. */
  lemma CoveredPermuted(a: seq<Room>, b: seq<Room>, p: Point)
    requires multiset(a) == multiset(b)
    ensures Covered(a, p) <==> Covered(b, p)
  {
    if Covered(a, p) {
      var i :| 0 <= i < |a| && p in Tiles(a[i]);
      assert a[i] in multiset(b);
      var j :| 0 <= j < |b| && b[j] == a[i];
    }
    if Covered(b, p) {
      var i :| 0 <= i < |b| && p in Tiles(b[i]);
      assert b[i] in multiset(a);
      var j :| 0 <= j < |a| && a[j] == b[i];
    }
  }

  /** The tiles of a well placed room are interior cells of the grid. */
  lemma WellPlacedTiles(r: Room, w: nat, h: nat)
    requires WellPlaced(r, w, h)
    ensures forall p :: p in Tiles(r) ==> Interior(p, w, h)
    ensures Interior(Center(r), w, h) && Interior(BuddyStart(Center(r)), w, h)
    ensures Center(r) in Tiles(r) && BuddyStart(Center(r)) in Tiles(r)
  {
    BlockShape(r.x1, r.x2, r.y1, r.y2);
  }

  lemma RoomsIn(rooms: seq<Room>, w: nat, h: nat)
    requires forall r :: r in rooms ==> WellPlaced(r, w, h)
    ensures AllStructuresIn(RoomTiles(rooms), w, h)
  {
    forall i, k | 0 <= i < |rooms| && 0 <= k < |Tiles(rooms[i])|
      ensures InBounds(Tiles(rooms[i])[k], w, h)
    {
      assert rooms[i] in rooms && Tiles(rooms[i])[k] in Tiles(rooms[i]);
      WellPlacedTiles(rooms[i], w, h);
    }
  }

  /** The end of one attempt: append the candidate when it fits, then
      `sortByDistance`. The collection is never empty there, since a
      candidate always fits an empty collection. */
  function Admit(rooms: seq<Room>, cand: Room): (r: seq<Room>)
    ensures multiset(r) == multiset(rooms) + if Fits(rooms, cand) then multiset{cand} else multiset{}
    ensures |r| > 0 && r[0] == if |rooms| > 0 then rooms[0] else cand
  {
    var grown := if Fits(rooms, cand) then rooms + [cand] else rooms;
    assert |grown| > 0 && grown[0] == if |rooms| > 0 then rooms[0] else cand;
    SortByDistance(grown)
  }

  /** The stream `n` draws further on. */
  function Skip(rng: Rng, n: nat): (r: Rng)
    ensures Advanced(rng, r, n)
  {
    Rng(rng.draws, rng.pos + n)
  }

  /** The candidates of `n` consecutive attempts, each `DrawsPerAttempt`
      draws after the one before. */
  function Candidates(rng: Rng, w: nat, h: nat, n: nat): (cs: seq<Room>)
    requires w >= 14 && h >= 14
    ensures |cs| == n
    decreases n
  {
    if n == 0 then [] else [Candidate(rng, w, h).0] + Candidates(Skip(rng, DrawsPerAttempt), w, h, n - 1)
  }

  /** Admitting the candidates one after the other. */
  function AdmitEach(rooms: seq<Room>, cands: seq<Room>): seq<Room>
    decreases |cands|
  {
    if |cands| == 0 then rooms else AdmitEach(Admit(rooms, cands[0]), cands[1..])
  }

  /** Admission never displaces the first room. */
  lemma {:induction false} AdmitEachFirst(rooms: seq<Room>, cands: seq<Room>)
    requires |rooms| > 0
    ensures |AdmitEach(rooms, cands)| > 0 && AdmitEach(rooms, cands)[0] == rooms[0]
    decreases |cands|
  {
    if |cands| > 0 {
      AdmitEachFirst(Admit(rooms, cands[0]), cands[1..]);
    }
  }

  /** The k-th candidate is drawn `DrawsPerAttempt * k` positions on. */
  lemma {:induction false} CandidatesAt(rng: Rng, w: nat, h: nat, n: nat, k: nat)
    requires w >= 14 && h >= 14 && k < n
    ensures Candidates(rng, w, h, n)[k] == Candidate(Skip(rng, DrawsPerAttempt * k), w, h).0
    decreases k
  {
    if k == 0 {
      assert Skip(rng, DrawsPerAttempt * 0) == rng;
    } else {
      CandidatesAt(Skip(rng, DrawsPerAttempt), w, h, n - 1, k - 1);
      assert Skip(Skip(rng, DrawsPerAttempt), DrawsPerAttempt * (k - 1)) == Skip(rng, DrawsPerAttempt * k);
    }
  }

  /** The candidates of `n` attempts are the first attempt's candidate
      followed by the candidates of the `n - 1` attempts after it. */
  lemma CandidatesSplit(rng: Rng, w: nat, h: nat, n: nat)
    requires w >= 14 && h >= 14 && n > 0
    ensures Candidates(rng, w, h, n) == [Candidate(rng, w, h).0] + Candidates(Candidate(rng, w, h).1, w, h, n - 1)
  {
    assert Candidate(rng, w, h).1 == Skip(rng, DrawsPerAttempt);
  }

  /** One attempt followed by the remaining `n - 1` is `n` attempts. */
  lemma AdmitEachStep(rooms: seq<Room>, rng: Rng, w: nat, h: nat, n: nat, rooms1: seq<Room>, rng1: Rng, total: seq<Room>)
    requires w >= 14 && h >= 14 && n > 0
    requires rooms1 == Admit(rooms, Candidate(rng, w, h).0) && rng1 == Candidate(rng, w, h).1
    requires total == AdmitEach(rooms1, Candidates(rng1, w, h, n - 1))
    ensures total == AdmitEach(rooms, Candidates(rng, w, h, n))
  {
    CandidatesSplit(rng, w, h, n);
    var cs := Candidates(rng, w, h, n);
    assert cs[0] == Candidate(rng, w, h).0 && cs[1..] == Candidates(rng1, w, h, n - 1);
  }

  /** An attempt keeps the placed rooms pairwise apart and well placed, and
      covers at least the cells covered before. */
  lemma AdmitKeeps(rooms: seq<Room>, cand: Room, w: nat, h: nat)
    requires PairwiseApart(rooms) && (forall r :: r in rooms ==> WellPlaced(r, w, h)) && WellPlaced(cand, w, h)
    ensures PairwiseApart(Admit(rooms, cand))
    ensures forall r :: r in Admit(rooms, cand) ==> WellPlaced(r, w, h)
    ensures forall p :: Covered(rooms, p) ==> Covered(Admit(rooms, cand), p)
  {
    var grown := if Fits(rooms, cand) then rooms + [cand] else rooms;
    var r := Admit(rooms, cand);
    assert multiset(r) == multiset(grown);
    if Fits(rooms, cand) {
      PairwiseApartAppend(rooms, cand);
    }
    PairwiseApartPermuted(grown, r);
    forall p | Covered(rooms, p)
      ensures Covered(r, p)
    {
      var k :| 0 <= k < |rooms| && p in Tiles(rooms[k]);
      assert grown[k] == rooms[k];
      CoveredPermuted(grown, r, p);
    }
    forall x | x in r
      ensures WellPlaced(x, w, h)
    {
      assert x in multiset(grown);
    }
  }

  /** Painting the rooms again over a grid that already shows the earlier,
      fewer rooms gives the grid painted with the new rooms only. */
  lemma RepaintRooms(g: Grid<Tile>, g0: Grid<Tile>, g1: Grid<Tile>, w: nat, h: nat, before: seq<Room>, after: seq<Room>)
    requires IsGrid(g, w, h) && IsGrid(g0, w, h) && IsGrid(g1, w, h)
    requires forall p :: Covered(before, p) ==> Covered(after, p)
    requires forall x, y :: 0 <= x < w && 0 <= y < h ==>
               g0[x][y] == if Covered(before, Point(x, y)) then Floor else g[x][y]
    requires forall x, y :: 0 <= x < w && 0 <= y < h ==>
               g1[x][y] == if Covered(after, Point(x, y)) then Floor else g0[x][y]
    ensures forall x, y :: 0 <= x < w && 0 <= y < h ==>
              g1[x][y] == if Covered(after, Point(x, y)) then Floor else g[x][y]
  {
  }

  /** One attempt of `generateRooms`: draw a candidate, admit it when it
      fits, reorder, and paint the rooms again. The placed rooms stay
      pairwise apart and well placed, the first room stays first (or is the
      candidate when there was none), and exactly the room cells show floor
      over the original grid `g`. */
  method Attempt(g: Grid<Tile>, w: nat, h: nat, rooms: seq<Room>, cur: Grid<Tile>, rng: Rng)
    returns (rooms': seq<Room>, cur': Grid<Tile>, rng': Rng)
    requires IsGrid(g, w, h) && IsGrid(cur, w, h) && w >= 14 && h >= 14
    requires (forall r :: r in rooms ==> WellPlaced(r, w, h)) && PairwiseApart(rooms)
    requires forall x, y :: 0 <= x < w && 0 <= y < h ==>
               cur[x][y] == if Covered(rooms, Point(x, y)) then Floor else g[x][y]
    ensures Advanced(rng, rng', DrawsPerAttempt) && rng' == Candidate(rng, w, h).1
    ensures rooms' == Admit(rooms, Candidate(rng, w, h).0)
    ensures |rooms'| > 0 && rooms'[0] == if |rooms| > 0 then rooms[0] else Candidate(rng, w, h).0
    ensures (forall r :: r in rooms' ==> WellPlaced(r, w, h)) && PairwiseApart(rooms')
    ensures IsGrid(cur', w, h)
    ensures forall x, y :: 0 <= x < w && 0 <= y < h ==>
              cur'[x][y] == if Covered(rooms', Point(x, y)) then Floor else g[x][y]
  {
    var (cand, next) := Candidate(rng, w, h);
    AdmitKeeps(rooms, cand, w, h);
    rooms' := Admit(rooms, cand);
    RoomsIn(rooms', w, h);
    cur' := BuildRooms(cur, w, h, rooms');
    RepaintRooms(g, cur, cur', w, h, rooms, rooms');
    rng' := next;
  }

  /** The last `n` attempts of `generateRooms`, starting from the rooms
      placed so far: the rooms become the candidates admitted one by one,
      the first room stays first (or is the first candidate when there was
      none), and exactly the room cells show floor over `g`. */
  method Attempts(g: Grid<Tile>, w: nat, h: nat, rooms: seq<Room>, cur: Grid<Tile>, rng: Rng, n: nat)
    returns (rooms': seq<Room>, cur': Grid<Tile>, rng': Rng)
    requires IsGrid(g, w, h) && IsGrid(cur, w, h) && w >= 14 && h >= 14
    requires (forall r :: r in rooms ==> WellPlaced(r, w, h)) && PairwiseApart(rooms)
    requires forall x, y :: 0 <= x < w && 0 <= y < h ==>
               cur[x][y] == if Covered(rooms, Point(x, y)) then Floor else g[x][y]
    ensures Advanced(rng, rng', DrawsPerAttempt * n)
    ensures |rooms| > 0 || n > 0 ==>
              |rooms'| > 0 && rooms'[0] == if |rooms| > 0 then rooms[0] else Candidate(rng, w, h).0
    ensures (forall r :: r in rooms' ==> WellPlaced(r, w, h)) && PairwiseApart(rooms')
    ensures IsGrid(cur', w, h)
    ensures forall x, y :: 0 <= x < w && 0 <= y < h ==>
              cur'[x][y] == if Covered(rooms', Point(x, y)) then Floor else g[x][y]
    ensures rooms' == AdmitEach(rooms, Candidates(rng, w, h, n))
    decreases n
  {
    if n == 0 {
      rooms', cur', rng' := rooms, cur, rng;
    } else {
      var rooms1, cur1, rng1 := Attempt(g, w, h, rooms, cur, rng);
      rooms', cur', rng' := Attempts(g, w, h, rooms1, cur1, rng1, n - 1);
      AdmitEachStep(rooms, rng, w, h, n, rooms1, rng1, rooms');
    }
  }

  /** `generateRooms`: 2500 attempts of five draws each. Afterwards the
      rooms are the fold of the 2500 candidates, there is at least one room,
      the first one drawn stays first, every room lies in the interior, no
      two rooms intersect or share a centre row or column, and exactly the
      cells of the rooms have become floor. */
  method GenerateRooms(g: Grid<Tile>, w: nat, h: nat, rng: Rng) returns (rooms: seq<Room>, g': Grid<Tile>, rng': Rng)
    requires IsGrid(g, w, h) && w >= 14 && h >= 14
    ensures Advanced(rng, rng', DrawsPerAttempt * MaxAttempts)
    ensures rooms == AdmitEach([], Candidates(rng, w, h, MaxAttempts))
    ensures |rooms| > 0 && rooms[0] == Candidate(rng, w, h).0
    ensures forall r :: r in rooms ==> WellPlaced(r, w, h)
    ensures PairwiseApart(rooms)
    ensures IsGrid(g', w, h)
    ensures forall x, y :: 0 <= x < w && 0 <= y < h ==>
              g'[x][y] == if Covered(rooms, Point(x, y)) then Floor else g[x][y]
  {
    rooms, g', rng' := Attempts(g, w, h, [], g, rng, MaxAttempts);
  }

  /** A cell of some room or some hallway. */
  ghost predicate Carved(rooms: seq<Room>, halls: seq<seq<Point>>, p: Point) {
    Covered(rooms, p) || exists i :: 0 <= i < |halls| && p in halls[i]
  }

  /** The tiles that may stand on a carved cell. */
  predicate Walkable(t: Tile) {
    t == Floor || t == Trap || t == Energy || t == Tile.Player || t == Tile.Buddy
  }

  /** Carved cells show something walkable; every other cell is empty or a
      decorative wall. */
  ghost predicate Layout(g: Grid<Tile>, w: nat, h: nat, rooms: seq<Room>, halls: seq<seq<Point>>)
    requires IsGrid(g, w, h)
  {
    forall x, y :: 0 <= x < w && 0 <= y < h ==>
      if Carved(rooms, halls, Point(x, y)) then Walkable(g[x][y])
      else g[x][y] == Nothing || g[x][y].DecoWall?
  }

  /** Every carved cell is interior and has eight non-empty neighbours. */
  ghost predicate CarvedEnclosed(g: Grid<Tile>, w: nat, h: nat, rooms: seq<Room>, halls: seq<seq<Point>>) {
    forall q :: Carved(rooms, halls, q) ==> Interior(q, w, h) && Enclosed(g, q)
  }

  /** A cell in the box spanned by two interior cells is interior. */
  lemma InBoxInterior(p: Point, a: Point, b: Point, w: nat, h: nat)
    requires Interior(a, w, h) && Interior(b, w, h) && InBox(p, a, b)
    ensures Interior(p, w, h)
  {
  }

  /** Every cell of every room, and of every hallway between consecutive
      room centres, is interior. */
  lemma CarvedInterior(rooms: seq<Room>, w: nat, h: nat, q: Point)
    requires forall r :: r in rooms ==> WellPlaced(r, w, h)
    requires Carved(rooms, GenerateHallways(rooms), q)
    ensures Interior(q, w, h)
  {
    var halls := GenerateHallways(rooms);
    if Covered(rooms, q) {
      var i :| 0 <= i < |rooms| && q in Tiles(rooms[i]);
      assert rooms[i] in rooms;
      WellPlacedTiles(rooms[i], w, h);
    } else {
      var i :| 0 <= i < |halls| && q in halls[i];
      var a, b := rooms[i], rooms[i + 1];
      assert a in rooms && b in rooms;
      WellPlacedTiles(a, w, h);
      WellPlacedTiles(b, w, h);
      assert InBox(q, Center(a), Center(b));
      InBoxInterior(q, Center(a), Center(b), w, h);
    }
  }

  lemma HallsIn(rooms: seq<Room>, w: nat, h: nat)
    requires forall r :: r in rooms ==> WellPlaced(r, w, h)
    ensures AllStructuresIn(GenerateHallways(rooms), w, h)
  {
    var halls := GenerateHallways(rooms);
    forall i, k | 0 <= i < |halls| && 0 <= k < |halls[i]|
      ensures InBounds(halls[i][k], w, h)
    {
      assert halls[i][k] in halls[i];
      CarvedInterior(rooms, w, h, halls[i][k]);
    }
  }

  lemma FloorTilesIn(rooms: seq<Room>, w: nat, h: nat)
    requires forall r :: r in rooms ==> WellPlaced(r, w, h)
    ensures AllIn(FloorTiles(rooms), w, h)
    ensures forall p :: p in FloorTiles(rooms) ==> Covered(rooms, p) && Interior(p, w, h)
  {
    forall k | 0 <= k < |FloorTiles(rooms)|
      ensures InBounds(FloorTiles(rooms)[k], w, h)
    {
      var p := FloorTiles(rooms)[k];
      assert p in FloorTiles(rooms);
      var i :| 0 <= i < |rooms| && p in Tiles(rooms[i]);
      assert rooms[i] in rooms;
      WellPlacedTiles(rooms[i], w, h);
    }
    forall p | p in FloorTiles(rooms)
      ensures Covered(rooms, p) && Interior(p, w, h)
    {
      var i :| 0 <= i < |rooms| && p in Tiles(rooms[i]);
      assert rooms[i] in rooms;
      WellPlacedTiles(rooms[i], w, h);
    }
  }

  /** The grid once rooms and hallways are carved into the empty grid. */
  lemma CarvedLayout(g0: Grid<Tile>, g1: Grid<Tile>, g2: Grid<Tile>, w: nat, h: nat, rooms: seq<Room>, halls: seq<seq<Point>>)
    requires IsGrid(g0, w, h) && IsGrid(g1, w, h) && IsGrid(g2, w, h)
    requires forall x, y :: 0 <= x < w && 0 <= y < h ==> g0[x][y] == Nothing
    requires forall x, y :: 0 <= x < w && 0 <= y < h ==>
               g1[x][y] == if Covered(rooms, Point(x, y)) then Floor else g0[x][y]
    requires forall x, y :: 0 <= x < w && 0 <= y < h ==>
               g2[x][y] == if exists i :: 0 <= i < |halls| && Point(x, y) in halls[i] then Floor else g1[x][y]
    ensures forall x, y :: 0 <= x < w && 0 <= y < h ==>
              g2[x][y] == if Carved(rooms, halls, Point(x, y)) then Floor else Nothing
  {
  }

  /** After the walls: carved cells keep their floor and are enclosed; a
      changed cell is a decorative wall. */
  lemma WalledLayout(g2: Grid<Tile>, g3: Grid<Tile>, w: nat, h: nat, rooms: seq<Room>, walls: seq<Point>, rng: Rng)
    requires forall r :: r in rooms ==> WellPlaced(r, w, h)
    requires IsGrid(g2, w, h)
    requires forall x, y :: 0 <= x < w && 0 <= y < h ==>
               g2[x][y] == if Carved(rooms, GenerateHallways(rooms), Point(x, y)) then Floor else Nothing
    requires Grown(g2, g3, w, h, walls, rng) && Keeps(g2, g3, w, h)
    requires forall q :: Interior(q, w, h) && g2[q.x][q.y] != Nothing ==> Enclosed(g3, q)
    ensures Layout(g3, w, h, rooms, GenerateHallways(rooms))
    ensures CarvedEnclosed(g3, w, h, rooms, GenerateHallways(rooms))
    ensures forall i :: 0 <= i < |walls| ==> !Carved(rooms, GenerateHallways(rooms), walls[i]) && g3[walls[i].x][walls[i].y].DecoWall?
  {
    var halls := GenerateHallways(rooms);
    forall x, y | 0 <= x < w && 0 <= y < h
      ensures if Carved(rooms, halls, Point(x, y)) then Walkable(g3[x][y])
              else g3[x][y] == Nothing || g3[x][y].DecoWall?
    {
      if g3[x][y] != g2[x][y] {
        var i :| 0 <= i < |walls| && walls[i] == Point(x, y);
      }
    }
    forall q | Carved(rooms, halls, q)
      ensures Interior(q, w, h) && Enclosed(g3, q)
    {
      CarvedInterior(rooms, w, h, q);
    }
  }

  /** Every cell non-empty in `g` is non-empty in `g'`. */
  ghost predicate NoneEmptied(g: Grid<Tile>, g': Grid<Tile>, w: nat, h: nat)
    requires IsGrid(g, w, h) && IsGrid(g', w, h)
  {
    forall x, y :: 0 <= x < w && 0 <= y < h && g[x][y] != Nothing ==> g'[x][y] != Nothing
  }

  /** The grid `g'` differs from `g` only by walkable tiles on carved
      cells. */
  ghost predicate WalkableWritten(g: Grid<Tile>, g': Grid<Tile>, w: nat, h: nat, rooms: seq<Room>, halls: seq<seq<Point>>)
    requires IsGrid(g, w, h) && IsGrid(g', w, h)
  {
    forall x, y :: 0 <= x < w && 0 <= y < h ==>
      g'[x][y] == g[x][y] || (Carved(rooms, halls, Point(x, y)) && Walkable(g'[x][y]))
  }

  /** Writing walkable tiles on carved cells keeps the layout, every
      enclosure and every decorative wall. */
  lemma WalkableWrites(g: Grid<Tile>, g': Grid<Tile>, w: nat, h: nat, rooms: seq<Room>, halls: seq<seq<Point>>)
    requires IsGrid(g, w, h) && IsGrid(g', w, h)
    requires Layout(g, w, h, rooms, halls) && CarvedEnclosed(g, w, h, rooms, halls)
    requires WalkableWritten(g, g', w, h, rooms, halls)
    ensures Layout(g', w, h, rooms, halls) && CarvedEnclosed(g', w, h, rooms, halls)
    ensures forall x, y :: 0 <= x < w && 0 <= y < h && g[x][y].DecoWall? ==> g'[x][y] == g[x][y]
  {
    forall x, y | 0 <= x < w && 0 <= y < h
      ensures if Carved(rooms, halls, Point(x, y)) then Walkable(g'[x][y])
              else g'[x][y] == Nothing || g'[x][y].DecoWall?
    {
    }
    forall q | Carved(rooms, halls, q)
      ensures Interior(q, w, h) && Enclosed(g', q)
    {
      forall n | n in Neighbours8(q)
        ensures Filled(g', n)
      {
        assert Filled(g, n);
        assert g'[n.x][n.y] == g[n.x][n.y] || Walkable(g'[n.x][n.y]);
      }
    }
  }

  /** Every listed wall is a cell of the grid showing a decorative wall. */
  ghost predicate WallsStand(g: Grid<Tile>, w: nat, h: nat, walls: seq<Point>)
    requires IsGrid(g, w, h)
  {
    forall i :: 0 <= i < |walls| ==> InBounds(walls[i], w, h) && g[walls[i].x][walls[i].y].DecoWall?
  }

  /** A registry of room cells. */
  ghost predicate RoomRegistry(reg: Registry, t: Tile, rooms: seq<Room>, w: nat, h: nat) {
    reg.tile == t && AllIn(reg.positions, w, h) && forall p :: p in reg.positions ==> Covered(rooms, p)
  }

  /** The rooms a seed yields: the admission rule folded over the
      `MaxAttempts` candidates its draws give. */
  ghost function SeedRooms(rng: Rng, w: nat, h: nat): seq<Room>
    requires w >= 14 && h >= 14
  {
    AdmitEach([], Candidates(rng, w, h, MaxAttempts))
  }
  /** The first candidate drawn is always the first room. */
  lemma SeedRoomsFirst(rng: Rng, w: nat, h: nat)
    requires w >= 14 && h >= 14
    ensures |SeedRooms(rng, w, h)| > 0 && SeedRooms(rng, w, h)[0] == Candidate(rng, w, h).0
  {
    var cands := Candidates(rng, w, h, MaxAttempts);
    assert cands[0] == Candidate(rng, w, h).0;
    AdmitEachFirst(Admit([], cands[0]), cands[1..]);
  }


  /** The registry lists exactly the room floor tiles whose draw from `rng`
      hits `chance`. */
  ghost predicate Drawn(reg: Registry, rooms: seq<Room>, rng: Rng, chance: Chance) {
    forall q :: q in reg.positions <==>
      exists i :: 0 <= i < |FloorTiles(rooms)| && FloorTiles(rooms)[i] == q && Hit(rng, i, chance)
  }

  /** What a furnished carved cell shows: energy over trap over floor. */
  function CarvedTile(p: Point, traps: Registry, energys: Registry): Tile {
    if p in energys.positions then Energy else if p in traps.positions then Trap else Floor
  }

  /** The walls stand off the carved cells, the i-th showing the decorative
      wall of the i-th draw from `rngW`, and every other uncarved cell is
      empty. */
  ghost predicate WallsDrawn(g: Grid<Tile>, w: nat, h: nat, rooms: seq<Room>, halls: seq<seq<Point>>,
                             walls: seq<Point>, rngW: Rng)
    requires IsGrid(g, w, h)
  {
    && (forall i :: 0 <= i < |walls| ==>
          InBounds(walls[i], w, h) && !Carved(rooms, halls, walls[i]) && g[walls[i].x][walls[i].y] == DecoWall(DrawAt(rngW, i) % 5))
    && (forall x, y :: 0 <= x < w && 0 <= y < h && !Carved(rooms, halls, Point(x, y)) && Point(x, y) !in walls ==>
          g[x][y] == Nothing)
  }

  /** Every carved cell except those under `actors` shows what the
      registries say. */
  ghost predicate CarvedShow(g: Grid<Tile>, w: nat, h: nat, rooms: seq<Room>, halls: seq<seq<Point>>,
                             traps: Registry, energys: Registry, actors: set<Point>)
    requires IsGrid(g, w, h)
  {
    forall x, y :: 0 <= x < w && 0 <= y < h && Carved(rooms, halls, Point(x, y)) && Point(x, y) !in actors ==>
      g[x][y] == CarvedTile(Point(x, y), traps, energys)
  }

  /** What the draws from `rngW` on fix, given the rooms and the wall list:
      the wall tiles, the trap draws right after the walls' draws, the energy
      draws after those, and the carved cells' tiles. */
  ghost predicate Furnished(g: Grid<Tile>, w: nat, h: nat, rooms: seq<Room>, halls: seq<seq<Point>>, walls: seq<Point>,
                            traps: Registry, energys: Registry, rngW: Rng, actors: set<Point>)
    requires IsGrid(g, w, h)
  {
    && WallsDrawn(g, w, h, rooms, halls, walls, rngW)
    && Drawn(traps, rooms, Skip(rngW, |walls|), TrapChance)
    && Drawn(energys, rooms, Skip(rngW, |walls| + |FloorTiles(rooms)|), EnergyChance)
    && CarvedShow(g, w, h, rooms, halls, traps, energys, actors)
  }

  /** `generateRooms` and `generateHallways` on the empty grid: exactly the
      carved cells are floor. */
  method Carve(w: nat, h: nat, rng: Rng) returns (rooms: seq<Room>, halls: seq<seq<Point>>, g: Grid<Tile>, rng': Rng)
    requires w >= 14 && h >= 14
    ensures Advanced(rng, rng', DrawsPerAttempt * MaxAttempts)
    ensures |rooms| > 0 && rooms[0] == Candidate(rng, w, h).0
    ensures rooms == SeedRooms(rng, w, h)
    ensures (forall r :: r in rooms ==> WellPlaced(r, w, h)) && PairwiseApart(rooms)
    ensures halls == GenerateHallways(rooms)
    ensures IsGrid(g, w, h)
    ensures forall x, y :: 0 <= x < w && 0 <= y < h ==>
              g[x][y] == if Carved(rooms, halls, Point(x, y)) then Floor else Nothing
  {
    var g0 := Uniform(w, h, Nothing);
    var g1;
    rooms, g1, rng' := GenerateRooms(g0, w, h, rng);
    halls := GenerateHallways(rooms);
    HallsIn(rooms, w, h);
    g := BuildHallways(g1, w, h, halls);
    CarvedLayout(g0, g1, g, w, h, rooms, halls);
  }

  /** `generateWalls` on the carved grid: carved cells stay floor and end
      enclosed; the walls are the cells `buildWalls` grows, each placed
      around a non-empty source cell next to it and showing the decorative
      wall of its own draw; every other cell is empty. */
  method Enclose(g: Grid<Tile>, w: nat, h: nat, rooms: seq<Room>, rng: Rng)
    returns (g': Grid<Tile>, walls: seq<Point>, rng': Rng, ghost sources: seq<Point>)
    requires forall r :: r in rooms ==> WellPlaced(r, w, h)
    requires IsGrid(g, w, h)
    requires forall x, y :: 0 <= x < w && 0 <= y < h ==>
               g[x][y] == if Carved(rooms, GenerateHallways(rooms), Point(x, y)) then Floor else Nothing
    ensures IsGrid(g', w, h) && Advanced(rng, rng', |walls|)
    ensures Layout(g', w, h, rooms, GenerateHallways(rooms)) && CarvedEnclosed(g', w, h, rooms, GenerateHallways(rooms))
    ensures WallsStand(g', w, h, walls)
    ensures Grown(g, g', w, h, walls, rng) && Sourced(walls, sources, g', w, h)
    ensures forall i :: 0 <= i < |walls| && Interior(walls[i], w, h) && ScannedBefore(sources[i], walls[i].x, walls[i].y) ==>
              Enclosed(g', walls[i])
    ensures WallsDrawn(g', w, h, rooms, GenerateHallways(rooms), walls, rng)
    ensures forall x, y :: 0 <= x < w && 0 <= y < h && Carved(rooms, GenerateHallways(rooms), Point(x, y)) ==>
              g'[x][y] == Floor
  {
    g', walls, rng', sources := BuildWalls(g, w, h, rng);
    WalledLayout(g, g', w, h, rooms, walls, rng);
    GrownDrawn(g, g', w, h, rooms, walls, rng);
  }

  /** Walls grown on the carved grid stand off the carved cells with their
      drawn tiles, and leave the carved cells floor. */
  lemma GrownDrawn(g: Grid<Tile>, g': Grid<Tile>, w: nat, h: nat, rooms: seq<Room>, walls: seq<Point>, rng: Rng)
    requires IsGrid(g, w, h) && Grown(g, g', w, h, walls, rng)
    requires forall x, y :: 0 <= x < w && 0 <= y < h ==>
               g[x][y] == if Carved(rooms, GenerateHallways(rooms), Point(x, y)) then Floor else Nothing
    ensures WallsDrawn(g', w, h, rooms, GenerateHallways(rooms), walls, rng)
    ensures forall x, y :: 0 <= x < w && 0 <= y < h && Carved(rooms, GenerateHallways(rooms), Point(x, y)) ==>
              g'[x][y] == Floor
  {
    var halls := GenerateHallways(rooms);
    forall i | 0 <= i < |walls|
      ensures !Carved(rooms, halls, walls[i])
    {
      assert g[walls[i].x][walls[i].y] == Nothing;
    }
  }

  /** Walkable writes keep the decorative walls standing. */
  lemma WalkableKeepsWalls(g: Grid<Tile>, g': Grid<Tile>, w: nat, h: nat, rooms: seq<Room>, halls: seq<seq<Point>>, walls: seq<Point>)
    requires IsGrid(g, w, h) && IsGrid(g', w, h)
    requires Layout(g, w, h, rooms, halls) && CarvedEnclosed(g, w, h, rooms, halls) && WallsStand(g, w, h, walls)
    requires WalkableWritten(g, g', w, h, rooms, halls)
    ensures Layout(g', w, h, rooms, halls) && CarvedEnclosed(g', w, h, rooms, halls) && WallsStand(g', w, h, walls)
  {
    WalkableWrites(g, g', w, h, rooms, halls);
  }

  /** The positions registered by a placement are room cells of the grid. */
  lemma PlacedInRooms(ps: seq<Point>, rooms: seq<Room>, w: nat, h: nat)
    requires forall p :: p in ps ==> p in FloorTiles(rooms)
    requires forall p :: p in FloorTiles(rooms) ==> Covered(rooms, p) && Interior(p, w, h)
    ensures AllIn(ps, w, h) && forall p :: p in ps ==> Covered(rooms, p)
  {
    forall k | 0 <= k < |ps|
      ensures InBounds(ps[k], w, h)
    {
      assert ps[k] in ps;
    }
  }

  /** `placeTraps(0.25)` and `placeEnergy(0.01)` on the walled grid: the
      traps are the room floor tiles whose draw hits 0.25, the energies
      those whose draw, one pass later, hits 0.01; a carved cell ends as
      energy, trap or floor accordingly, and the walls and empty cells are
      untouched. */
  method Furnish(g: Grid<Tile>, w: nat, h: nat, rooms: seq<Room>, walls: seq<Point>, rng: Rng, ghost rngW: Rng)
    returns (g': Grid<Tile>, traps: Registry, energys: Registry, rng': Rng)
    requires forall r :: r in rooms ==> WellPlaced(r, w, h)
    requires IsGrid(g, w, h)
    requires Layout(g, w, h, rooms, GenerateHallways(rooms)) && CarvedEnclosed(g, w, h, rooms, GenerateHallways(rooms))
    requires WallsStand(g, w, h, walls) && WallsDrawn(g, w, h, rooms, GenerateHallways(rooms), walls, rngW)
    requires forall x, y :: 0 <= x < w && 0 <= y < h && Carved(rooms, GenerateHallways(rooms), Point(x, y)) ==>
               g[x][y] == Floor
    requires rng == Skip(rngW, |walls|)
    ensures IsGrid(g', w, h) && Advanced(rng, rng', 2 * |FloorTiles(rooms)|)
    ensures Layout(g', w, h, rooms, GenerateHallways(rooms)) && CarvedEnclosed(g', w, h, rooms, GenerateHallways(rooms))
    ensures WallsStand(g', w, h, walls)
    ensures RoomRegistry(traps, Trap, rooms, w, h) && RoomRegistry(energys, Energy, rooms, w, h)
    ensures Furnished(g', w, h, rooms, GenerateHallways(rooms), walls, traps, energys, rngW, {})
  {
    var halls := GenerateHallways(rooms);
    FloorTilesIn(rooms, w, h);
    var g1, r1;
    var placed := PlaceTraps(g, w, h, rooms, NewRegistry(Trap), rng);
    g1, traps, r1 := placed.0, placed.1, placed.2;
    assert traps.positions == traps.positions[0..];
    PlacedInRooms(traps.positions, rooms, w, h);
    assert WalkableWritten(g, g1, w, h, rooms, halls);
    WalkableKeepsWalls(g, g1, w, h, rooms, halls, walls);
    placed := PlaceEnergy(g1, w, h, rooms, NewRegistry(Energy), r1);
    g', energys, rng' := placed.0, placed.1, placed.2;
    assert energys.positions == energys.positions[0..];
    PlacedInRooms(energys.positions, rooms, w, h);
    assert WalkableWritten(g1, g', w, h, rooms, halls);
    WalkableKeepsWalls(g1, g', w, h, rooms, halls, walls);
    assert r1 == Skip(rng, |FloorTiles(rooms)|);
    FurnishCells(g, g1, g', w, h, rooms, walls, traps, energys, rngW);
  }

  /** Traps, then energies, written on room cells of a walled grid: the
      walls stay as drawn and each carved cell shows energy, trap or floor. */
  lemma FurnishCells(g: Grid<Tile>, g1: Grid<Tile>, g2: Grid<Tile>, w: nat, h: nat, rooms: seq<Room>, walls: seq<Point>,
                     traps: Registry, energys: Registry, rngW: Rng)
    requires IsGrid(g, w, h) && IsGrid(g1, w, h) && IsGrid(g2, w, h)
    requires WallsDrawn(g, w, h, rooms, GenerateHallways(rooms), walls, rngW)
    requires forall x, y :: 0 <= x < w && 0 <= y < h && Carved(rooms, GenerateHallways(rooms), Point(x, y)) ==>
               g[x][y] == Floor
    requires forall p :: p in traps.positions ==> Covered(rooms, p)
    requires forall p :: p in energys.positions ==> Covered(rooms, p)
    requires forall x, y :: 0 <= x < w && 0 <= y < h ==>
               g1[x][y] == if Point(x, y) in traps.positions then Trap else g[x][y]
    requires forall x, y :: 0 <= x < w && 0 <= y < h ==>
               g2[x][y] == if Point(x, y) in energys.positions then Energy else g1[x][y]
    requires Drawn(traps, rooms, Skip(rngW, |walls|), TrapChance)
    requires Drawn(energys, rooms, Skip(Skip(rngW, |walls|), |FloorTiles(rooms)|), EnergyChance)
    ensures Furnished(g2, w, h, rooms, GenerateHallways(rooms), walls, traps, energys, rngW, {})
  {
    var halls := GenerateHallways(rooms);
    SkipSkip(rngW, |walls|, |FloorTiles(rooms)|);
    FurnishedOutside(g, g1, g2, w, h, rooms, traps, energys);
    WallsDrawnKept(g, g2, w, h, rooms, halls, walls, rngW);
    FurnishedCarved(g, g1, g2, w, h, rooms, traps, energys);
  }

  /** Traps and energies written on room cells leave every other cell. */
  lemma FurnishedOutside(g: Grid<Tile>, g1: Grid<Tile>, g2: Grid<Tile>, w: nat, h: nat, rooms: seq<Room>,
                         traps: Registry, energys: Registry)
    requires IsGrid(g, w, h) && IsGrid(g1, w, h) && IsGrid(g2, w, h)
    requires forall p :: p in traps.positions ==> Covered(rooms, p)
    requires forall p :: p in energys.positions ==> Covered(rooms, p)
    requires forall x, y :: 0 <= x < w && 0 <= y < h ==>
               g1[x][y] == if Point(x, y) in traps.positions then Trap else g[x][y]
    requires forall x, y :: 0 <= x < w && 0 <= y < h ==>
               g2[x][y] == if Point(x, y) in energys.positions then Energy else g1[x][y]
    ensures forall x, y :: 0 <= x < w && 0 <= y < h && !Carved(rooms, GenerateHallways(rooms), Point(x, y)) ==>
              g2[x][y] == g[x][y]
  {
  }

  /** Traps, then energies, written on a carved grid of floor: each carved
      cell shows energy, trap or floor. */
  lemma FurnishedCarved(g: Grid<Tile>, g1: Grid<Tile>, g2: Grid<Tile>, w: nat, h: nat, rooms: seq<Room>,
                        traps: Registry, energys: Registry)
    requires IsGrid(g, w, h) && IsGrid(g1, w, h) && IsGrid(g2, w, h)
    requires forall x, y :: 0 <= x < w && 0 <= y < h && Carved(rooms, GenerateHallways(rooms), Point(x, y)) ==>
               g[x][y] == Floor
    requires forall x, y :: 0 <= x < w && 0 <= y < h ==>
               g1[x][y] == if Point(x, y) in traps.positions then Trap else g[x][y]
    requires forall x, y :: 0 <= x < w && 0 <= y < h ==>
               g2[x][y] == if Point(x, y) in energys.positions then Energy else g1[x][y]
    ensures CarvedShow(g2, w, h, rooms, GenerateHallways(rooms), traps, energys, {})
  {
  }

  /** Rewriting carved cells only keeps the walls as drawn. */
  lemma WallsDrawnKept(g: Grid<Tile>, g': Grid<Tile>, w: nat, h: nat, rooms: seq<Room>, halls: seq<seq<Point>>,
                       walls: seq<Point>, rngW: Rng)
    requires IsGrid(g, w, h) && IsGrid(g', w, h)
    requires WallsDrawn(g, w, h, rooms, halls, walls, rngW)
    requires forall x, y :: 0 <= x < w && 0 <= y < h && !Carved(rooms, halls, Point(x, y)) ==> g'[x][y] == g[x][y]
    ensures WallsDrawn(g', w, h, rooms, halls, walls, rngW)
  {
    forall i | 0 <= i < |walls|
      ensures g'[walls[i].x][walls[i].y] == g[walls[i].x][walls[i].y]
    {
      assert Point(walls[i].x, walls[i].y) == walls[i];
    }
  }

  /** `generateWalls`, then `placeTraps(0.25)` and `placeEnergy(0.01)`, on
      the carved grid: the walls take the first draws, the traps and the
      energies the ones after them. */
  method Dress(g: Grid<Tile>, w: nat, h: nat, rooms: seq<Room>, rng: Rng)
    returns (g': Grid<Tile>, walls: seq<Point>, traps: Registry, energys: Registry, rng': Rng)
    requires forall r :: r in rooms ==> WellPlaced(r, w, h)
    requires IsGrid(g, w, h)
    requires forall x, y :: 0 <= x < w && 0 <= y < h ==>
               g[x][y] == if Carved(rooms, GenerateHallways(rooms), Point(x, y)) then Floor else Nothing
    ensures IsGrid(g', w, h) && Advanced(rng, rng', |walls| + 2 * |FloorTiles(rooms)|)
    ensures Layout(g', w, h, rooms, GenerateHallways(rooms)) && CarvedEnclosed(g', w, h, rooms, GenerateHallways(rooms))
    ensures WallsStand(g', w, h, walls)
    ensures RoomRegistry(traps, Trap, rooms, w, h) && RoomRegistry(energys, Energy, rooms, w, h)
    ensures Furnished(g', w, h, rooms, GenerateHallways(rooms), walls, traps, energys, rng, {})
  {
    var g1, r1;
    ghost var sources;
    g1, walls, r1, sources := Enclose(g, w, h, rooms, rng);
    assert r1 == Skip(rng, |walls|);
    g', traps, energys, rng' := Furnish(g1, w, h, rooms, walls, r1, rng);
  }

  /** Skipping twice is skipping the sum. */
  lemma SkipSkip(rng: Rng, a: nat, b: nat)
    ensures Skip(Skip(rng, a), b) == Skip(rng, a + b)
  {
  }

  /** A grid with that layout holds no plain wall. */
  lemma LayoutWallFree(g: Grid<Tile>, w: nat, h: nat, rooms: seq<Room>, halls: seq<seq<Point>>)
    requires IsGrid(g, w, h) && Layout(g, w, h, rooms, halls)
    ensures forall x, y :: 0 <= x < w && 0 <= y < h ==> g[x][y] != Wall
  {
  }

  /** Writing the two actors onto room cells keeps the layout, every
      enclosure and every decorative wall. */
  lemma ActorsKeepWalls(g: Grid<Tile>, w: nat, h: nat, rooms: seq<Room>, walls: seq<Point>, pos: Point, bpos: Point)
    requires IsGrid(g, w, h)
    requires Layout(g, w, h, rooms, GenerateHallways(rooms)) && CarvedEnclosed(g, w, h, rooms, GenerateHallways(rooms))
    requires WallsStand(g, w, h, walls)
    requires InBounds(pos, w, h) && InBounds(bpos, w, h) && Covered(rooms, pos) && Covered(rooms, bpos)
    ensures var g' := Set(Set(g, pos, Tile.Player), bpos, Tile.Buddy);
            && IsGrid(g', w, h)
            && Layout(g', w, h, rooms, GenerateHallways(rooms)) && CarvedEnclosed(g', w, h, rooms, GenerateHallways(rooms))
            && WallsStand(g', w, h, walls)
  {
    var halls := GenerateHallways(rooms);
    var g' := Set(Set(g, pos, Tile.Player), bpos, Tile.Buddy);
    assert WalkableWritten(g, g', w, h, rooms, halls);
    WalkableKeepsWalls(g, g', w, h, rooms, halls, walls);
  }

  /** `generatePlayer`: the player at the centre of the first room and the
      buddy one cell to its right, each remembering the tile it covers. */
  method PlacePlayer(g: Grid<Tile>, w: nat, h: nat, rooms: seq<Room>, walls: seq<Point>)
    returns (g': Grid<Tile>, player: Player, buddy: Buddy)
    requires |rooms| > 0 && forall r :: r in rooms ==> WellPlaced(r, w, h)
    requires IsGrid(g, w, h)
    requires Layout(g, w, h, rooms, GenerateHallways(rooms)) && CarvedEnclosed(g, w, h, rooms, GenerateHallways(rooms))
    requires WallsStand(g, w, h, walls)
    ensures player.pos == Center(rooms[0]) && buddy.pos == BuddyStart(player.pos)
    ensures player.lives == StartLives && !player.digital && buddy.charges == 0
    ensures InBounds(player.pos, w, h) && InBounds(buddy.pos, w, h)
    ensures player.above == g[player.pos.x][player.pos.y] && buddy.above == g[buddy.pos.x][buddy.pos.y]
    ensures player.above != Wall && buddy.above != Wall
    ensures IsGrid(g', w, h)
    ensures g'[player.pos.x][player.pos.y] == Tile.Player && g'[buddy.pos.x][buddy.pos.y] == Tile.Buddy
    ensures Layout(g', w, h, rooms, GenerateHallways(rooms)) && CarvedEnclosed(g', w, h, rooms, GenerateHallways(rooms))
    ensures WallsStand(g', w, h, walls)
    ensures g' == Set(Set(g, player.pos, Tile.Player), buddy.pos, Tile.Buddy)
  {
    var halls := GenerateHallways(rooms);
    var pos := Center(rooms[0]);
    var bpos := BuddyStart(pos);
    WellPlacedTiles(rooms[0], w, h);
    assert Covered(rooms, pos) && Covered(rooms, bpos);
    assert Walkable(g[pos.x][pos.y]) && Walkable(g[bpos.x][bpos.y]);
    player := NewPlayer(pos, g[pos.x][pos.y]);
    buddy := NewBuddy(bpos, g[bpos.x][bpos.y]);
    g' := Set(Set(g, pos, Tile.Player), bpos, Tile.Buddy);
    ActorsKeepWalls(g, w, h, rooms, walls, pos, bpos);
  }

  /** The shape of a generated world: well placed, pairwise apart rooms
      joined in order by the hallways; carved cells walkable and enclosed,
      every other cell empty or a decorative wall; the wall list standing;
      and both registries listing room cells. */
  ghost predicate Generated(wd: World)
    requires IsGrid(wd.grid, wd.w, wd.h)
  {
    && (forall r :: r in wd.rooms ==> WellPlaced(r, wd.w, wd.h)) && PairwiseApart(wd.rooms)
    && wd.halls == GenerateHallways(wd.rooms)
    && Layout(wd.grid, wd.w, wd.h, wd.rooms, wd.halls) && CarvedEnclosed(wd.grid, wd.w, wd.h, wd.rooms, wd.halls)
    && WallsStand(wd.grid, wd.w, wd.h, wd.walls)
    && RoomRegistry(wd.traps, Trap, wd.rooms, wd.w, wd.h) && RoomRegistry(wd.energys, Energy, wd.rooms, wd.w, wd.h)
  }

  /** The `World` constructor on a `w` x `h` grid. The first room drawn holds
      the player at its centre and the buddy just right of it; rooms are
      pairwise apart and hallways join them in order; carved cells show
      floor, traps, energies or the actors, and are all enclosed by
      non-empty cells; every other cell is empty or a decorative wall; the
      registries list room cells; and no cell is the plain wall. */
  method NewWorld(w: nat, h: nat, rng: Rng) returns (wd: World, rng': Rng)
    requires w >= 14 && h >= 14
    ensures wd.w == w && wd.h == h && Valid(wd) && Tethered(wd) && WallFree(wd)
    ensures |wd.rooms| > 0 && wd.rooms[0] == Candidate(rng, w, h).0
    ensures wd.player.pos == Center(wd.rooms[0]) && wd.buddy.pos == BuddyStart(wd.player.pos)
    ensures wd.player.lives == StartLives && !wd.player.digital && wd.buddy.charges == 0
    ensures wd.grid[wd.player.pos.x][wd.player.pos.y] == Tile.Player
    ensures wd.grid[wd.buddy.pos.x][wd.buddy.pos.y] == Tile.Buddy
    ensures Generated(wd)
    ensures Advanced(rng, rng', DrawsPerAttempt * MaxAttempts + |wd.walls| + 2 * |FloorTiles(wd.rooms)|)
    ensures FromSeed(wd, rng)
  {
    var rooms, halls, g1, r1 := Carve(w, h, rng);
    assert r1 == Skip(rng, DrawsPerAttempt * MaxAttempts);
    SeedRoomsFirst(rng, w, h);
    wd, rng' := Settle(g1, w, h, rooms, halls, r1);
  }

  /** The constructor after `generateHallways`: walls, traps and energies
      drawn from `rng` on the carved grid, then the two actors placed. */
  method Settle(g: Grid<Tile>, w: nat, h: nat, rooms: seq<Room>, halls: seq<seq<Point>>, rng: Rng)
    returns (wd: World, rng': Rng)
    requires w >= 14 && h >= 14
    requires |rooms| > 0 && (forall r :: r in rooms ==> WellPlaced(r, w, h)) && PairwiseApart(rooms)
    requires halls == GenerateHallways(rooms)
    requires IsGrid(g, w, h)
    requires forall x, y :: 0 <= x < w && 0 <= y < h ==>
               g[x][y] == if Carved(rooms, halls, Point(x, y)) then Floor else Nothing
    ensures wd.w == w && wd.h == h && Valid(wd) && Tethered(wd) && WallFree(wd)
    ensures wd.rooms == rooms && wd.halls == halls
    ensures wd.player.pos == Center(wd.rooms[0]) && wd.buddy.pos == BuddyStart(wd.player.pos)
    ensures wd.player.above == CarvedTile(wd.player.pos, wd.traps, wd.energys)
    ensures wd.buddy.above == CarvedTile(wd.buddy.pos, wd.traps, wd.energys)
    ensures wd.player.lives == StartLives && !wd.player.digital && wd.buddy.charges == 0
    ensures wd.grid[wd.player.pos.x][wd.player.pos.y] == Tile.Player
    ensures wd.grid[wd.buddy.pos.x][wd.buddy.pos.y] == Tile.Buddy
    ensures Generated(wd)
    ensures Advanced(rng, rng', |wd.walls| + 2 * |FloorTiles(wd.rooms)|)
    ensures Furnished(wd.grid, w, h, rooms, halls, wd.walls, wd.traps, wd.energys, rng, {wd.player.pos, wd.buddy.pos})
  {
    var g1, walls, traps, energys;
    g1, walls, traps, energys, rng' := Dress(g, w, h, rooms, rng);
    wd := Populate(g1, w, h, rooms, halls, walls, traps, energys);
    ActorsFurnished(g1, wd.grid, w, h, rooms, halls, walls, traps, energys, rng, wd.player.pos, wd.buddy.pos);
  }


  /** Everything the draws `rng` fix about the world the constructor builds
      from them, given its wall list: the rooms (the admission fold over the
      candidates), the hallways, the player at the first room's centre and
      the buddy right of it, each remembering what its carved cell would
      show, the wall tiles, both registries by their draws, and the tile of
      every other carved cell. */
  ghost predicate FromSeed(wd: World, rng: Rng) {
    && wd.w >= 14 && wd.h >= 14 && Valid(wd) && |wd.rooms| > 0
    && wd.halls == GenerateHallways(wd.rooms)
    && wd.player.pos == Center(wd.rooms[0]) && wd.buddy.pos == BuddyStart(wd.player.pos)
    && wd.player.above == CarvedTile(wd.player.pos, wd.traps, wd.energys)
    && wd.buddy.above == CarvedTile(wd.buddy.pos, wd.traps, wd.energys)
    && wd.player.lives == StartLives && !wd.player.digital && wd.buddy.charges == 0
    && wd.grid[wd.player.pos.x][wd.player.pos.y] == Tile.Player
    && wd.grid[wd.buddy.pos.x][wd.buddy.pos.y] == Tile.Buddy
    && Furnished(wd.grid, wd.w, wd.h, wd.rooms, wd.halls, wd.walls, wd.traps, wd.energys,
                 Skip(rng, DrawsPerAttempt * MaxAttempts), {wd.player.pos, wd.buddy.pos})
    && wd.rooms == SeedRooms(rng, wd.w, wd.h)
  }

  /** Determinism of the constructor: two worlds built from the same draws
      on the same grid size with the same wall list are the same world, up
      to the order of the registries. */
  lemma SeedFixesWorld(a: World, b: World, rng: Rng)
    requires FromSeed(a, rng) && FromSeed(b, rng)
    requires a.w == b.w && a.h == b.h && a.walls == b.walls
    ensures a.rooms == b.rooms && a.halls == b.halls && a.player == b.player && a.buddy == b.buddy
    ensures forall q :: (q in a.traps.positions <==> q in b.traps.positions)
    ensures forall q :: (q in a.energys.positions <==> q in b.energys.positions)
    ensures a.grid == b.grid
  {
    var rngW := Skip(rng, DrawsPerAttempt * MaxAttempts);
    assert a.rooms == b.rooms;
    RegistriesSame(a.grid, b.grid, a.w, a.h, a.rooms, a.halls, a.walls, a.traps, a.energys, b.traps, b.energys,
                   rngW, {a.player.pos, a.buddy.pos});
    assert a.player.pos in a.energys.positions <==> a.player.pos in b.energys.positions;
    assert a.player.pos in a.traps.positions <==> a.player.pos in b.traps.positions;
    assert a.buddy.pos in a.energys.positions <==> a.buddy.pos in b.energys.positions;
    assert a.buddy.pos in a.traps.positions <==> a.buddy.pos in b.traps.positions;
    FurnishedSame(a.grid, b.grid, a.w, a.h, a.rooms, a.halls, a.walls, a.traps, a.energys, b.traps, b.energys,
                  rngW, a.player.pos, a.buddy.pos);
  }

  /** Two grids furnished from the same draws over the same rooms and walls
      have registries of the same members. */
  lemma RegistriesSame(g1: Grid<Tile>, g2: Grid<Tile>, w: nat, h: nat, rooms: seq<Room>, halls: seq<seq<Point>>,
                       walls: seq<Point>, t1: Registry, e1: Registry, t2: Registry, e2: Registry, rngW: Rng,
                       actors: set<Point>)
    requires IsGrid(g1, w, h) && IsGrid(g2, w, h)
    requires Furnished(g1, w, h, rooms, halls, walls, t1, e1, rngW, actors)
    requires Furnished(g2, w, h, rooms, halls, walls, t2, e2, rngW, actors)
    ensures forall q :: (q in t1.positions <==> q in t2.positions)
    ensures forall q :: (q in e1.positions <==> q in e2.positions)
  {
  }

  /** Two grids furnished from the same draws, with registries of the same
      members and the same tiles under the two actors, are equal. */
  lemma FurnishedSame(g1: Grid<Tile>, g2: Grid<Tile>, w: nat, h: nat, rooms: seq<Room>, halls: seq<seq<Point>>,
                      walls: seq<Point>, t1: Registry, e1: Registry, t2: Registry, e2: Registry, rngW: Rng,
                      pos: Point, bpos: Point)
    requires IsGrid(g1, w, h) && IsGrid(g2, w, h) && InBounds(pos, w, h) && InBounds(bpos, w, h)
    requires Furnished(g1, w, h, rooms, halls, walls, t1, e1, rngW, {pos, bpos})
    requires Furnished(g2, w, h, rooms, halls, walls, t2, e2, rngW, {pos, bpos})
    requires forall q :: (q in t1.positions <==> q in t2.positions)
    requires forall q :: (q in e1.positions <==> q in e2.positions)
    requires g1[pos.x][pos.y] == g2[pos.x][pos.y] && g1[bpos.x][bpos.y] == g2[bpos.x][bpos.y]
    ensures g1 == g2
  {
    forall x, y | 0 <= x < w && 0 <= y < h
      ensures g1[x][y] == g2[x][y]
    {
      if Point(x, y) != pos && Point(x, y) != bpos {
        FurnishedCell(g1, g2, w, h, rooms, halls, walls, t1, e1, t2, e2, rngW, {pos, bpos}, x, y);
      }
    }
    GridsEqual(g1, g2, w, h);
  }

  /** One cell outside the actors of two grids furnished from the same draws,
      with registries of the same members. */
  lemma FurnishedCell(g1: Grid<Tile>, g2: Grid<Tile>, w: nat, h: nat, rooms: seq<Room>, halls: seq<seq<Point>>,
                      walls: seq<Point>, t1: Registry, e1: Registry, t2: Registry, e2: Registry, rngW: Rng,
                      actors: set<Point>, x: int, y: int)
    requires IsGrid(g1, w, h) && IsGrid(g2, w, h)
    requires Furnished(g1, w, h, rooms, halls, walls, t1, e1, rngW, actors)
    requires Furnished(g2, w, h, rooms, halls, walls, t2, e2, rngW, actors)
    requires forall q :: (q in t1.positions <==> q in t2.positions)
    requires forall q :: (q in e1.positions <==> q in e2.positions)
    requires 0 <= x < w && 0 <= y < h && Point(x, y) !in actors
    ensures g1[x][y] == g2[x][y]
  {
    var p := Point(x, y);
    if Carved(rooms, halls, p) {
      assert g1[x][y] == CarvedTile(p, t1, e1);
    } else if p in walls {
      var i :| 0 <= i < |walls| && walls[i] == p;
      assert g1[x][y] == DecoWall(DrawAt(rngW, i) % 5);
    }
  }

  /** Two grids of one size that agree on every cell are equal. */
  lemma GridsEqual<T>(a: Grid<T>, b: Grid<T>, w: nat, h: nat)
    requires IsGrid(a, w, h) && IsGrid(b, w, h)
    requires forall x, y :: 0 <= x < w && 0 <= y < h ==> a[x][y] == b[x][y]
    ensures a == b
  {
    forall x | 0 <= x < w
      ensures a[x] == b[x]
    {
      assert forall y :: 0 <= y < h ==> a[x][y] == b[x][y];
    }
  }

  /** The two actors written on room cells of a furnished grid keep it
      furnished outside their own cells. */
  lemma ActorsFurnished(g: Grid<Tile>, g': Grid<Tile>, w: nat, h: nat, rooms: seq<Room>, halls: seq<seq<Point>>,
                        walls: seq<Point>, traps: Registry, energys: Registry, rngW: Rng, pos: Point, bpos: Point)
    requires IsGrid(g, w, h) && IsGrid(g', w, h) && InBounds(pos, w, h) && InBounds(bpos, w, h)
    requires halls == GenerateHallways(rooms) && |rooms| > 0 && WellPlaced(rooms[0], w, h)
    requires pos == Center(rooms[0]) && bpos == BuddyStart(pos)
    requires Furnished(g, w, h, rooms, halls, walls, traps, energys, rngW, {})
    requires g' == Set(Set(g, pos, Tile.Player), bpos, Tile.Buddy)
    ensures Furnished(g', w, h, rooms, halls, walls, traps, energys, rngW, {pos, bpos})
    ensures g[pos.x][pos.y] == CarvedTile(pos, traps, energys) && g[bpos.x][bpos.y] == CarvedTile(bpos, traps, energys)
  {
    WellPlacedTiles(rooms[0], w, h);
    assert Covered(rooms, pos) && Covered(rooms, bpos);
    assert Carved(rooms, halls, pos) && Carved(rooms, halls, bpos);
    assert Point(pos.x, pos.y) == pos && Point(bpos.x, bpos.y) == bpos;
    forall x, y | 0 <= x < w && 0 <= y < h && !Carved(rooms, halls, Point(x, y))
      ensures g'[x][y] == g[x][y]
    {
      assert Point(x, y) != pos && Point(x, y) != bpos;
    }
    WallsDrawnKept(g, g', w, h, rooms, halls, walls, rngW);
  }

  /** The end of the `World` constructor: the player and the buddy placed on
      the furnished terrain. */
  method Populate(g: Grid<Tile>, w: nat, h: nat, rooms: seq<Room>, halls: seq<seq<Point>>, walls: seq<Point>,
                  traps: Registry, energys: Registry) returns (wd: World)
    requires |rooms| > 0 && (forall r :: r in rooms ==> WellPlaced(r, w, h)) && PairwiseApart(rooms)
    requires halls == GenerateHallways(rooms)
    requires IsGrid(g, w, h)
    requires Layout(g, w, h, rooms, halls) && CarvedEnclosed(g, w, h, rooms, halls)
    requires WallsStand(g, w, h, walls)
    requires RoomRegistry(traps, Trap, rooms, w, h) && RoomRegistry(energys, Energy, rooms, w, h)
    ensures wd.w == w && wd.h == h && Valid(wd) && Tethered(wd) && WallFree(wd)
    ensures wd.rooms == rooms && wd.walls == walls && wd.halls == halls && wd.traps == traps && wd.energys == energys
    ensures wd.player.above == g[wd.player.pos.x][wd.player.pos.y] && wd.buddy.above == g[wd.buddy.pos.x][wd.buddy.pos.y]
    ensures wd.grid == Set(Set(g, wd.player.pos, Tile.Player), wd.buddy.pos, Tile.Buddy)
    ensures wd.player.pos == Center(wd.rooms[0]) && wd.buddy.pos == BuddyStart(wd.player.pos)
    ensures wd.player.lives == StartLives && !wd.player.digital && wd.buddy.charges == 0
    ensures wd.grid[wd.player.pos.x][wd.player.pos.y] == Tile.Player
    ensures wd.grid[wd.buddy.pos.x][wd.buddy.pos.y] == Tile.Buddy
    ensures Generated(wd)
  {
    var g', player, buddy := PlacePlayer(g, w, h, rooms, walls);
    LayoutWallFree(g', w, h, rooms, halls);
    wd := World(g', w, h, rooms, halls, walls, player, buddy, traps, energys);
  }
}

=== FILE: grids.dfy ===
/** A W x H rectangular array stored column-major, `g[x][y]`, as the source's
    `TETile[W][H]` and `int[W][H]` arrays are. */
module Grids {
  import opened Points

  type Grid<T> = seq<seq<T>>

  ghost predicate IsGrid<T>(g: Grid<T>, w: nat, h: nat) {
    |g| == w && forall x :: 0 <= x < w ==> |g[x]| == h
  }

  predicate InBounds(p: Point, w: int, h: int) {
    0 <= p.x < w && 0 <= p.y < h
  }

  /** Cells of the interior: neither on the first/last column nor row. */
  predicate Interior(p: Point, w: int, h: int) {
    1 <= p.x < w - 1 && 1 <= p.y < h - 1
  }

  /** A grid whose every cell holds `v`. */
  function Uniform<T>(w: nat, h: nat, v: T): (g: Grid<T>)
    ensures IsGrid(g, w, h)
    ensures forall x, y :: 0 <= x < w && 0 <= y < h ==> g[x][y] == v
  {
    seq(w, _ => seq(h, _ => v))
  }

  /** Reads `world[p.x][p.y]`. */
  function Get<T>(g: Grid<T>, p: Point): T
    requires 0 <= p.x < |g| && 0 <= p.y < |g[p.x]|
  {
    g[p.x][p.y]
  }

  /** Writes `world[p.x][p.y] = v`; every other cell keeps its value. */
  function Set<T>(g: Grid<T>, p: Point, v: T): (g': Grid<T>)
    requires 0 <= p.x < |g| && 0 <= p.y < |g[p.x]|
    ensures |g'| == |g|
    ensures forall x :: 0 <= x < |g| ==> |g'[x]| == |g[x]|
    ensures g'[p.x][p.y] == v
    ensures forall x, y :: 0 <= x < |g| && 0 <= y < |g[x]| && (x != p.x || y != p.y) ==> g'[x][y] == g[x][y]
  {
    g[p.x := g[p.x][p.y := v]]
  }

  /** Reading back a written cell gives the written value, and a write to one
      cell is invisible at every other cell. */
  lemma SetGet<T>(g: Grid<T>, p: Point, q: Point, v: T)
    requires 0 <= p.x < |g| && 0 <= p.y < |g[p.x]|
    requires 0 <= q.x < |g| && 0 <= q.y < |g[q.x]|
    ensures Get(Set(g, p, v), q) == if q == p then v else Get(g, q)
  {
  }

  /** Every listed point is a cell of the W x H grid. */
  ghost predicate AllIn(ps: seq<Point>, w: nat, h: nat) {
    forall i :: 0 <= i < |ps| ==> InBounds(ps[i], w, h)
  }

  /** Writes `v` to each listed point in order: afterwards exactly the listed
      cells hold `v` and every other cell keeps its value. */
  function Paint<T>(g: Grid<T>, w: nat, h: nat, ps: seq<Point>, v: T): (g': Grid<T>)
    requires IsGrid(g, w, h) && AllIn(ps, w, h)
    ensures IsGrid(g', w, h)
    ensures forall x, y :: 0 <= x < w && 0 <= y < h ==>
              g'[x][y] == if Point(x, y) in ps then v else g[x][y]
    decreases |ps|
  {
    if |ps| == 0 then g
    else
      var rest := Paint(Set(g, ps[0], v), w, h, ps[1..], v);
      assert forall q :: q in ps <==> q == ps[0] || q in ps[1..];
      rest
  }
}

=== FILE: hallways.dfy ===
/** `Hallway`: an L-shaped run of floor cells joining two room centres.
    `HallwayCollection` is a sequence of hallways: `add`, `size` and `get`
    are append, length and indexing. */
module Hallways {
  import opened JavaInt
  import opened Points
  import opened Rooms

  /** Each hallway seeds a fresh `Random(1086)` and asks `nextInt(2) == 1`.
      That first draw of the seed 1086 is 1, so every hallway takes the
      vertical-then-horizontal branch. */
  const VerticalFirst: bool := true

  /** The `for` loop of `makeHorizontal`: (x, y) for x = x .. xEnd − 1. */
  function Row(y: int, x: int, xEnd: int): seq<Point>
    decreases xEnd - x
  {
    if x >= xEnd then [] else [Point(x, y)] + Row(y, x + 1, xEnd)
  }

  lemma {:induction false} RowShape(y: int, x: int, xEnd: int)
    ensures |Row(y, x, xEnd)| == if x <= xEnd then xEnd - x else 0
    ensures forall p :: p in Row(y, x, xEnd) <==> p.y == y && x <= p.x < xEnd
    ensures StrictlyOrdered(Row(y, x, xEnd))
    decreases xEnd - x
  {
    if x < xEnd {
      RowShape(y, x + 1, xEnd);
      OrderedConcat([Point(x, y)], Row(y, x + 1, xEnd));
    }
  }

  /** `makeVertical(x)`: the cells of column x from the lower to the higher
      of the two centres' rows, ascending. */
  function Vertical(x: int, a: Point, b: Point): (run: seq<Point>)
    ensures |run| == Abs(a.y - b.y) + 1
    ensures forall p :: p in run <==> p.x == x && Min(a.y, b.y) <= p.y <= Max(a.y, b.y)
    ensures StrictlyOrdered(run)
  {
    ColumnShape(x, Min(a.y, b.y), Max(a.y, b.y) + 1);
    Column(x, Min(a.y, b.y), Max(a.y, b.y) + 1)
  }

  /** `makeHorizontal(y)`: the cells of row y from the lower to the higher of
      the two centres' columns, ascending. */
  function Horizontal(y: int, a: Point, b: Point): (run: seq<Point>)
    ensures |run| == Abs(a.x - b.x) + 1
    ensures forall p :: p in run <==> p.y == y && Min(a.x, b.x) <= p.x <= Max(a.x, b.x)
    ensures StrictlyOrdered(run)
  {
    RowShape(y, Min(a.x, b.x), Max(a.x, b.x) + 1);
    Row(y, Min(a.x, b.x), Max(a.x, b.x) + 1)
  }

  /** `makeHallway`, with the outcome of the coin as a parameter. */
  function MakeHallway(a: Point, b: Point, verticalFirst: bool): (hall: seq<Point>)
    ensures |hall| == Abs(a.x - b.x) + Abs(a.y - b.y) + 2
    ensures a in hall && b in hall
  {
    if verticalFirst then Vertical(a.x, a, b) + Horizontal(b.y, a, b)
    else Horizontal(a.y, a, b) + Vertical(b.x, a, b)
  }

  /** The corner where the two runs meet. */
  function Corner(a: Point, b: Point, verticalFirst: bool): Point {
    if verticalFirst then Point(a.x, b.y) else Point(b.x, a.y)
  }

  ghost predicate InBox(p: Point, a: Point, b: Point) {
    Min(a.x, b.x) <= p.x <= Max(a.x, b.x) && Min(a.y, b.y) <= p.y <= Max(a.y, b.y)
  }

  /** A sequence without repetitions counts each of its elements once. */
  lemma {:induction false} OrderedCount(s: seq<Point>, p: Point)
    requires StrictlyOrdered(s)
    ensures multiset(s)[p] == if p in s then 1 else 0
    decreases |s|
  {
    if |s| > 0 {
      assert s == [s[0]] + s[1..];
      assert StrictlyOrdered(s[1..]) by {
        forall i, j | 0 <= i < j < |s[1..]|
          ensures Before(s[1..][i], s[1..][j])
        {
          assert s[1..][i] == s[i + 1] && s[1..][j] == s[j + 1];
        }
      }
      OrderedCount(s[1..], p);
      assert s[0] !in s[1..] by {
        forall k | 0 <= k < |s[1..]|
          ensures s[1..][k] != s[0]
        {
          assert Before(s[0], s[k + 1]);
        }
      }
    }
  }

  /** Two repetition-free runs that share only the cell `c`. */
  lemma TwoRunsCount(first: seq<Point>, second: seq<Point>, c: Point, p: Point)
    requires StrictlyOrdered(first) && StrictlyOrdered(second)
    requires c in first && c in second
    requires forall q :: q in first && q in second ==> q == c
    requires p in first + second
    ensures multiset(first + second)[p] == if p == c then 2 else 1
  {
    OrderedCount(first, p);
    OrderedCount(second, p);
  }

  /** The hallway holds both centres, has |Δx| + |Δy| + 2 cells, stays inside
      the centres' bounding box, and lists the corner twice (once at the end
      of the first run, once in the second) and every other cell once. */
  lemma HallwayShape(a: Point, b: Point, verticalFirst: bool)
    ensures var h := MakeHallway(a, b, verticalFirst);
            && a in h && b in h
            && |h| == Abs(a.x - b.x) + Abs(a.y - b.y) + 2
            && (forall p :: p in h ==> InBox(p, a, b))
            && (forall p :: p in h ==> multiset(h)[p] == if p == Corner(a, b, verticalFirst) then 2 else 1)
  {
    var h := MakeHallway(a, b, verticalFirst);
    var c := Corner(a, b, verticalFirst);
    var first, second;
    if verticalFirst {
      first, second := Vertical(a.x, a, b), Horizontal(b.y, a, b);
      assert a in first && b in second;
    } else {
      first, second := Horizontal(a.y, a, b), Vertical(b.x, a, b);
      assert a in first && b in second;
    }
    assert h == first + second;
    assert c in first && c in second;
    forall p | p in h
      ensures multiset(h)[p] == if p == c then 2 else 1
    {
      TwoRunsCount(first, second, c, p);
    }
  }

  /** The vertical-first shape joins its two runs at (A.x, B.y): the first
      run ends there and the second run passes through it. */
  lemma VerticalFirstRuns(a: Point, b: Point)
    ensures var v := Vertical(a.x, a, b);
            var h := MakeHallway(a, b, true);
            && h[..|v|] == v && h[|v|..] == Horizontal(b.y, a, b)
            && (forall p :: p in h[..|v|] ==> p.x == a.x)
            && (forall p :: p in h[|v|..] ==> p.y == b.y)
            && Point(a.x, b.y) in h[..|v|] && Point(a.x, b.y) in h[|v|..]
  {
  }

  /** `hall` holds both centres and stays in their bounding box. */
  ghost predicate Joined(hall: seq<Point>, a: Point, b: Point) {
    a in hall && b in hall && forall p :: p in hall ==> InBox(p, a, b)
  }

  lemma HallwayJoins(a: Point, b: Point)
    ensures Joined(MakeHallway(a, b, VerticalFirst), a, b)
  {
    HallwayShape(a, b, VerticalFirst);
  }

  /** The loop of `generateHallways` from room `i` on: one hallway per pair
      of consecutive rooms. */
  function HallsFrom(rooms: seq<Room>, i: nat): (halls: seq<seq<Point>>)
    ensures |halls| == if i + 1 < |rooms| then |rooms| - 1 - i else 0
    decreases |rooms| - i
  {
    if i + 1 >= |rooms| then []
    else [MakeHallway(Center(rooms[i]), Center(rooms[i + 1]), VerticalFirst)] + HallsFrom(rooms, i + 1)
  }

  /** Hallway k of the loop from room `i` is the one between the centres of
      rooms i + k and i + k + 1. */
  lemma {:induction false} HallAt(rooms: seq<Room>, i: nat, k: nat)
    requires i + k + 1 < |rooms|
    ensures HallsFrom(rooms, i)[k] == MakeHallway(Center(rooms[i + k]), Center(rooms[i + k + 1]), VerticalFirst)
    decreases k
  {
    var rest := HallsFrom(rooms, i + 1);
    assert HallsFrom(rooms, i) == [MakeHallway(Center(rooms[i]), Center(rooms[i + 1]), VerticalFirst)] + rest;
    if k > 0 {
      assert i + 1 + (k - 1) == i + k;
      HallAt(rooms, i + 1, k - 1);
    }
  }

  /** Every hallway of the loop from room `i` joins its two centres. */
  lemma HallsFromJoined(rooms: seq<Room>, i: nat)
    ensures forall k :: 0 <= k < |HallsFrom(rooms, i)| ==>
              Joined(HallsFrom(rooms, i)[k], Center(rooms[i + k]), Center(rooms[i + k + 1]))
  {
    forall k | 0 <= k < |HallsFrom(rooms, i)|
      ensures Joined(HallsFrom(rooms, i)[k], Center(rooms[i + k]), Center(rooms[i + k + 1]))
    {
      HallAt(rooms, i, k);
      HallwayJoins(Center(rooms[i + k]), Center(rooms[i + k + 1]));
    }
  }

  /** `generateHallways`: hallway i joins the centres of rooms i and i + 1 of
      the final order; an empty or one-room collection has no hallways. */
  function GenerateHallways(rooms: seq<Room>): (halls: seq<seq<Point>>)
    ensures |halls| == if |rooms| == 0 then 0 else |rooms| - 1
    ensures forall i :: 0 <= i < |halls| ==>
              Center(rooms[i]) in halls[i] && Center(rooms[i + 1]) in halls[i]
    ensures forall i, p :: 0 <= i < |halls| && p in halls[i] ==> InBox(p, Center(rooms[i]), Center(rooms[i + 1]))
  {
    HallsFromJoined(rooms, 0);
    HallsFrom(rooms, 0)
  }
}

=== FILE: java_int.dfy ===
/** Integer helpers that reproduce Java's `int` arithmetic where it differs
    from Dafny's mathematical integers. */
module JavaInt {

  /** `Math.abs` on values far from the `int` range limits. */
  function Abs(x: int): (r: nat)
    ensures r == x || r == -x
  {
    if x < 0 then -x else x
  }

  function Min(a: int, b: int): (r: int)
    ensures r <= a && r <= b
    ensures r == a || r == b
  {
    if a <= b then a else b
  }

  function Max(a: int, b: int): (r: int)
    ensures r >= a && r >= b
    ensures r == a || r == b
  {
    if a >= b then a else b
  }

  /** Java's `a / 2`, which truncates toward zero; Dafny's `/` rounds toward
      negative infinity for a negative dividend. */
  function Half(a: int): (q: int)
    ensures a >= 0 ==> 0 <= a - 2 * q <= 1
    ensures a < 0 ==> -1 <= a - 2 * q <= 0
  {
    if a >= 0 then a / 2 else -((-a) / 2)
  }
}

=== FILE: outcomes.dfy ===
/** The result of an operation that the source lets throw: either a value or
    the unchecked exception that would end the program. */
module Outcomes {

  datatype Fault =
    | IndexOutOfBounds     // an array or string index outside its range
    | NoSuchElement        // `removeFirst` or `get` on an empty list

  datatype Outcome<T> = Done(value: T) | Crash(fault: Fault)
}

=== FILE: points.dfy ===
/** The `Point` value type of the game: an integer grid coordinate. */
module Points {
  import opened JavaInt

  datatype Point = Point(x: int, y: int)

  /** The no-argument constructor `new Point()`. */
  const Origin: Point := Point(0, 0)

  /** Squared Euclidean distance. `Point.distance` returns its square root;
      the square root is strictly increasing on non-negative integers, so
      every `<` between two distances has the same outcome on the squares. */
  function Dist2(a: Point, b: Point): (d: nat)
    ensures d == 0 <==> a == b
  {
    SquareNonNegative(b.x - a.x);
    SquareNonNegative(b.y - a.y);
    (b.x - a.x) * (b.x - a.x) + (b.y - a.y) * (b.y - a.y)
  }

  lemma SquareNonNegative(v: int)
    ensures v * v >= 0
    ensures v * v == 0 <==> v == 0
  {
    if v < 0 {
      assert v * v == (-v) * (-v);
    }
  }

  lemma DistSymmetric(a: Point, b: Point)
    ensures Dist2(a, b) == Dist2(b, a)
  {
    assert (b.x - a.x) * (b.x - a.x) == (a.x - b.x) * (a.x - b.x);
    assert (b.y - a.y) * (b.y - a.y) == (a.y - b.y) * (a.y - b.y);
  }

  /** Chebyshev (king-move) distance between two cells. */
  function Chebyshev(a: Point, b: Point): (d: nat)
    ensures d == 0 <==> a == b
    ensures Abs(a.x - b.x) <= d && Abs(a.y - b.y) <= d
  {
    Max(Abs(a.x - b.x), Abs(a.y - b.y))
  }

  /** The eight cells around `p`, in the order `Builder.buildWalls` visits them. */
  function Neighbours8(p: Point): (ns: seq<Point>)
    ensures |ns| == 8
    ensures forall q :: q in ns <==> Chebyshev(p, q) == 1
  {
    [Point(p.x + 1, p.y), Point(p.x - 1, p.y), Point(p.x, p.y + 1), Point(p.x, p.y - 1),
     Point(p.x + 1, p.y + 1), Point(p.x - 1, p.y + 1), Point(p.x + 1, p.y - 1), Point(p.x - 1, p.y - 1)]
  }
}

=== FILE: random.dfy ===
/** The world's `java.util.Random`, replaced by an oracle: an unbounded
    stream of draws and a cursor. The linear congruential generator itself is
    not modelled; any sequence of draws it can produce is some oracle here. */
module Random {

  datatype Rng = Rng(draws: nat -> nat, pos: nat)

  /** `nextDouble()` returns k / 2^53 for some k in [0, 2^53). */
  const DoubleUnits: nat := 0x20_0000_0000_0000

  /** A probability `p`, written as the number of values k in [0, 2^53) with
      k / 2^53 < p, so that `nextDouble() < p` is exactly `k < units`. */
  type Chance = units: nat | units <= DoubleUnits

  /** 0.2 as a Java double is 3602879701896397 / 2^54. */
  const SmallRoomChance: Chance := 1801439850948199
  /** 0.4 as a Java double is 3602879701896397 / 2^53. */
  const MediumRoomChance: Chance := 3602879701896397
  /** 0.25 is exact: 2^51 / 2^53. */
  const TrapChance: Chance := 0x8_0000_0000_0000
  /** 0.01 as a Java double is 5764607523034235 / 2^59. */
  const EnergyChance: Chance := 90071992547410

  /** The i-th draw from the cursor on. */
  function DrawAt(rng: Rng, i: nat): nat {
    rng.draws(rng.pos + i)
  }

  /** `nextInt(bound)`: a value in [0, bound), advancing the stream by one. */
  function NextInt(rng: Rng, bound: nat): (r: (nat, Rng))
    requires bound > 0
    ensures r.0 < bound && r.0 == rng.draws(rng.pos) % bound
    ensures r.1.draws == rng.draws && r.1.pos == rng.pos + 1
  {
    (rng.draws(rng.pos) % bound, Rng(rng.draws, rng.pos + 1))
  }

  /** `nextDouble()`, as the numerator k of k / 2^53, advancing the stream
      by one. */
  function NextDouble(rng: Rng): (r: (nat, Rng))
    ensures r.0 < DoubleUnits && r.0 == rng.draws(rng.pos) % DoubleUnits
    ensures r.1.draws == rng.draws && r.1.pos == rng.pos + 1
  {
    (rng.draws(rng.pos) % DoubleUnits, Rng(rng.draws, rng.pos + 1))
  }

  /** `nextDouble() < p`, advancing the stream by one. */
  function NextBelow(rng: Rng, p: Chance): (r: (bool, Rng))
    ensures r.0 <==> rng.draws(rng.pos) % DoubleUnits < p
    ensures r.1.draws == rng.draws && r.1.pos == rng.pos + 1
  {
    (rng.draws(rng.pos) % DoubleUnits < p, Rng(rng.draws, rng.pos + 1))
  }

  /** The stream `b` continues `a` after `n` further draws. */
  ghost predicate Advanced(a: Rng, b: Rng, n: nat) {
    b.draws == a.draws && b.pos == a.pos + n
  }
}

=== FILE: registry.dfy ===
/** `Trap` and `Energy`: each keeps the tile kind it was built with and the
    list of positions registered so far. */
module Registry {
  import opened Points
  import opened TileKinds

  datatype Registry = Registry(tile: Tile, positions: seq<Point>)

  /** The constructors `Trap(tile)` and `Energy(tile)`. */
  function NewRegistry(tile: Tile): (r: Registry)
    ensures r.tile == tile && |r.positions| == 0
  {
    Registry(tile, [])
  }

  /** `addTrap` / `addEnergy`: appends at the end, duplicates allowed, earlier
      entries and the tile kind unchanged. */
  function Add(r: Registry, p: Point): (r': Registry)
    ensures r'.tile == r.tile
    ensures |r'.positions| == |r.positions| + 1 && r'.positions[|r.positions|] == p
    ensures forall i :: 0 <= i < |r.positions| ==> r'.positions[i] == r.positions[i]
  {
    Registry(r.tile, r.positions + [p])
  }

  /** Registering a batch of positions one by one. */
  function AddAll(r: Registry, ps: seq<Point>): (r': Registry)
    ensures r'.tile == r.tile && r'.positions == r.positions + ps
    decreases |ps|
  {
    if |ps| == 0 then r
    else
      var r1 := Add(r, ps[0]);
      assert r1.positions + ps[1..] == r.positions + ps;
      AddAll(r1, ps[1..])
  }

  /** `removeAllTraps` / `removeAllEnergys`: `removeFirst` until the list is
      empty; the tile kind is kept. */
  function RemoveAll(r: Registry): (r': Registry)
    ensures r'.tile == r.tile && r'.positions == []
    decreases |r.positions|
  {
    if |r.positions| == 0 then r
    else RemoveAll(r.(positions := r.positions[1..]))
  }

  /** A position added twice is listed twice. */
  lemma AddKeepsDuplicates(r: Registry, p: Point)
    ensures var r2 := Add(Add(r, p), p);
            r2.positions[|r.positions|] == p && r2.positions[|r.positions| + 1] == p
  {
  }
}

=== FILE: replay.dfy ===
/** `Game.playWithInputString`: a replay string is a menu letter, for a new
    game a run of digits giving the seed, and then move and quit commands
    interpreted by `parseInputAndMove`. */
module Replay {
  import opened Points
  import opened Grids
  import opened TileKinds
  import opened Random
  import opened Actors
  import opened Worlds
  import opened Outcomes
  import opened Generation

  // ------------------------------------------------------------ characters

  /** `Character.toUpperCase`, on the ASCII letters. */
  function Upper(c: char): (u: char)
    ensures 'a' <= c <= 'z' ==> u as int == c as int - 32 && 'A' <= u <= 'Z'
    ensures !('a' <= c <= 'z') ==> u == c
  {
    if 'a' <= c <= 'z' then (c as int - 32) as char else c
  }

  lemma UpperIdempotent(c: char)
    ensures Upper(Upper(c)) == Upper(c)
  {
  }

  /** `Character.isDigit`, on the ASCII digits. */
  predicate IsDigit(c: char) {
    '0' <= c <= '9'
  }

  // ------------------------------------------------------------------ seed

  const LongModulus: int := 0x1_0000_0000_0000_0000
  const LongMin: int := -0x8000_0000_0000_0000

  /** Java `long` arithmetic: the value congruent to `v` modulo 2^64 in
      [-2^63, 2^63). */
  function Wrap64(v: int): (r: int)
    ensures LongMin <= r < -LongMin
    ensures LongMin <= v < -LongMin ==> r == v
  {
    (v - LongMin) % LongModulus + LongMin
  }

  /** One step of the seed loop: times ten plus the character's code (not
      its digit value), in `long` arithmetic. */
  function SeedStep(seed: int, c: char): int {
    Wrap64(seed * 10 + c as int)
  }

  /** Reference definition: the seed of a run of digits, folded from the
      left. */
  function FoldSeed(seed: int, digits: seq<char>): int
    decreases |digits|
  {
    if |digits| == 0 then seed else FoldSeed(SeedStep(seed, digits[0]), digits[1..])
  }

  /** The `while (Character.isDigit(inputChars[index]))` loop from index
      `i`: the seed and the index of the first non-digit. Running off the end
      of the input throws. */
  function ReadSeed(input: seq<char>, i: nat, seed: int): (r: Outcome<(int, nat)>)
    ensures r.Done? ==> i <= r.value.1 < |input| && !IsDigit(input[r.value.1])
    ensures r.Crash? ==> r.fault == IndexOutOfBounds
    decreases |input| - i
  {
    if i >= |input| then Crash(IndexOutOfBounds)
    else if IsDigit(input[i]) then ReadSeed(input, i + 1, SeedStep(seed, input[i]))
    else Done((seed, i))
  }

  /** The loop stops at the first non-digit with the fold of the digits
      before it, and throws exactly when only digits are left. */
  lemma {:induction false} ReadSeedFolds(input: seq<char>, i: nat, seed: int)
    ensures ReadSeed(input, i, seed).Crash? <==> forall k :: i <= k < |input| ==> IsDigit(input[k])
    ensures ReadSeed(input, i, seed).Done? ==>
              var j := ReadSeed(input, i, seed).value.1;
              && (forall k :: i <= k < j ==> IsDigit(input[k]))
              && ReadSeed(input, i, seed).value.0 == FoldSeed(seed, input[i..j])
    decreases |input| - i
  {
    if i < |input| && IsDigit(input[i]) {
      ReadSeedFolds(input, i + 1, SeedStep(seed, input[i]));
      var r := ReadSeed(input, i + 1, SeedStep(seed, input[i]));
      if r.Done? {
        var j := r.value.1;
        assert input[i..j][1..] == input[i + 1..j];
      }
    }
  }

  /** The seed of "n123" is built from the codes 49, 50, 51. */
  lemma SeedUsesCharacterCodes()
    ensures ReadSeed("n123s", 1, 0) == Done((5451, 4))
  {
  }

  // -------------------------------------------------------------- commands

  /** The move a command letter asks for, if any. */
  function Command(c: char): (d: Option<Direction>)
    ensures d == Some(Up) <==> c == 'W'
    ensures d == Some(Left) <==> c == 'A'
    ensures d == Some(Down) <==> c == 'S'
    ensures d == Some(Right) <==> c == 'D'
  {
    if c == 'W' then Some(Up)
    else if c == 'A' then Some(Left)
    else if c == 'S' then Some(Down)
    else if c == 'D' then Some(Right)
    else None
  }

  datatype Option<T> = None | Some(value: T)

  /** One move command: ask `canMove*`, and move when it allows. Reading a
      neighbour off the grid, or the buddy following off the grid, throws. */
  function Walk(wd: World, d: Direction): (r: Outcome<World>)
    requires Valid(wd)
    ensures var q := Step(wd.player.pos, d);
            && (r.Crash? <==> !InBounds(q, wd.w, wd.h)
                              || (wd.grid[q.x][q.y] != Wall && !InBounds(Follow(wd.buddy.pos, q), wd.w, wd.h)))
            && (r.Done? ==> Valid(r.value) && r.value.w == wd.w && r.value.h == wd.h)
            && (r.Done? && wd.grid[q.x][q.y] == Wall ==> r.value == wd)
            && (r.Done? && wd.grid[q.x][q.y] != Wall ==>
                  r.value.player.pos == q && r.value.buddy.pos == Follow(wd.buddy.pos, q))
  {
    match CanMove(wd, d)
    case Crash(f) => Crash(f)
    case Done(ok) =>
      var q := Step(wd.player.pos, d);
      if !ok then Done(wd)
      else if InBounds(Follow(wd.buddy.pos, q), wd.w, wd.h) then Done(MovePlayer(wd, q))
      else Crash(IndexOutOfBounds)
  }

  /** With the buddy beside the player, a step that stays on the grid never
      throws and keeps the buddy beside the player. */
  lemma WalkInside(wd: World, d: Direction)
    requires Valid(wd) && Tethered(wd) && WallFree(wd)
    requires InBounds(Step(wd.player.pos, d), wd.w, wd.h)
    ensures Walk(wd, d).Done? && Tethered(Walk(wd, d).value)
    ensures Walk(wd, d).value.player.pos == Step(wd.player.pos, d)
  {
    WallsNeverBlock(wd, d);
    MoveKeepsTethered(wd, d);
  }

  /** `parseInputAndMove` from index `i`, with the quit flag `armed`: the
      final world and whether an armed `Q` asked to save. W, A, S and D move
      and disarm; `:` arms; `Q` while armed stops; anything else, including an
      unarmed `Q`, is skipped without touching the flag. */
  function Commands(wd: World, input: seq<char>, i: nat, armed: bool): (r: Outcome<(World, bool)>)
    requires Valid(wd)
    ensures r.Done? ==> Valid(r.value.0) && r.value.0.w == wd.w && r.value.0.h == wd.h
    decreases |input| - i
  {
    if i >= |input| then Done((wd, false))
    else
      var c := Upper(input[i]);
      match Command(c)
      case Some(d) =>
        (match Walk(wd, d)
         case Crash(f) => Crash(f)
         case Done(wd') => Commands(wd', input, i + 1, false))
      case None =>
        if c == ':' then Commands(wd, input, i + 1, true)
        else if c == 'Q' && armed then Done((wd, true))
        else Commands(wd, input, i + 1, armed)
  }

  /** Reference definition: where the player ends when nothing blocks a
      move, stepping once per move letter up to an armed `Q`; `None` when a
      step leaves the `w` x `h` grid. */
  function Route(p: Point, w: nat, h: nat, input: seq<char>, i: nat, armed: bool): Option<Point>
    decreases |input| - i
  {
    if i >= |input| then Some(p)
    else
      var c := Upper(input[i]);
      match Command(c)
      case Some(d) =>
        if InBounds(Step(p, d), w, h) then Route(Step(p, d), w, h, input, i + 1, false) else None
      case None =>
        if c == ':' then Route(p, w, h, input, i + 1, true)
        else if c == 'Q' && armed then Some(p)
        else Route(p, w, h, input, i + 1, armed)
  }

  /** In a world without the plain wall and with the buddy beside the player
      (as every new world is), a replay throws exactly when its route leaves
      the grid; otherwise the player ends where the route ends, the buddy is
      still beside it and no plain wall has appeared. */
  lemma {:induction false} ReplayFollowsRoute(wd: World, input: seq<char>, i: nat, armed: bool)
    requires Valid(wd) && Tethered(wd) && WallFree(wd)
    ensures var r := Commands(wd, input, i, armed);
            var route := Route(wd.player.pos, wd.w, wd.h, input, i, armed);
            && (r.Crash? <==> route.None?)
            && (r.Done? ==> r.value.0.player.pos == route.value && Tethered(r.value.0) && WallFree(r.value.0))
    decreases |input| - i
  {
    if i < |input| {
      var c := Upper(input[i]);
      match Command(c)
      case Some(d) => {
        var q := Step(wd.player.pos, d);
        if InBounds(q, wd.w, wd.h) {
          WalkInside(wd, d);
          MoveKeepsWallFree(wd, q);
          ReplayFollowsRoute(Walk(wd, d).value, input, i + 1, false);
        }
      }
      case None =>
        if c == ':' {
          ReplayFollowsRoute(wd, input, i + 1, true);
        } else if c == 'Q' && armed {
        } else {
          ReplayFollowsRoute(wd, input, i + 1, armed);
        }
    }
  }

  /** The outcome of `s` with the save flag set: what appending ":q" gives. */
  function Saved(r: Outcome<(World, bool)>): Outcome<(World, bool)> {
    match r
    case Crash(f) => Crash(f)
    case Done(p) => Done((p.0, true))
  }

  /** Appending ":q" (and anything after it) to a replay gives the same
      world, now saved: "n123sss" and "n123sss:q" end in the same world. */
  lemma {:induction false} QuitKeepsWorld(wd: World, s: seq<char>, rest: seq<char>, i: nat, armed: bool)
    requires Valid(wd) && i <= |s|
    ensures Commands(wd, s + [':', 'q'] + rest, i, armed) == Saved(Commands(wd, s, i, armed))
    decreases |s| - i
  {
    var t := s + [':', 'q'] + rest;
    assert t[i] == if i < |s| then s[i] else ':';
    if i == |s| {
      assert t[i + 1] == 'q';
    } else {
      var c := Upper(s[i]);
      match Command(c)
      case Some(d) => {
        match Walk(wd, d)
        case Crash(f) =>
        case Done(wd') => QuitKeepsWorld(wd', s, rest, i + 1, false);
      }
      case None =>
        if c == ':' {
          QuitKeepsWorld(wd, s, rest, i + 1, true);
        } else if c == 'Q' && armed {
        } else {
          QuitKeepsWorld(wd, s, rest, i + 1, armed);
        }
    }
  }

  /** Without a `q` there is nothing to save. */
  lemma {:induction false} NoQuitNoSave(wd: World, s: seq<char>, i: nat, armed: bool)
    requires Valid(wd)
    requires forall k :: i <= k < |s| ==> Upper(s[k]) != 'Q'
    ensures Commands(wd, s, i, armed).Done? ==> !Commands(wd, s, i, armed).value.1
    decreases |s| - i
  {
    if i < |s| {
      var c := Upper(s[i]);
      match Command(c)
      case Some(d) => {
        match Walk(wd, d)
        case Crash(f) =>
        case Done(wd') => NoQuitNoSave(wd', s, i + 1, false);
      }
      case None =>
        if c == ':' {
          NoQuitNoSave(wd, s, i + 1, true);
        } else {
          NoQuitNoSave(wd, s, i + 1, armed);
        }
    }
  }

  /** Whether reading `s` from index `i` meets an armed quit: ':' arms, a
      move letter disarms, any other character keeps the state, and a 'Q'
      met while armed is the quit. Case does not matter. */
  predicate ArmedQuit(s: seq<char>, i: nat, armed: bool)
    decreases |s| - i
  {
    if i >= |s| then false
    else
      var c := Upper(s[i]);
      if c in "WASD" then ArmedQuit(s, i + 1, false)
      else if c == ':' then ArmedQuit(s, i + 1, true)
      else (c == 'Q' && armed) || ArmedQuit(s, i + 1, armed)
  }

  /** A replay that does not crash saves exactly when it meets an armed
      quit. */
  lemma {:induction false} SavedIffArmedQuit(wd: World, s: seq<char>, i: nat, armed: bool)
    requires Valid(wd)
    ensures Commands(wd, s, i, armed).Done? ==> (Commands(wd, s, i, armed).value.1 <==> ArmedQuit(s, i, armed))
    decreases |s| - i
  {
    if i < |s| {
      var c := Upper(s[i]);
      match Command(c)
      case Some(d) => {
        match Walk(wd, d)
        case Crash(f) =>
        case Done(wd') => SavedIffArmedQuit(wd', s, i + 1, false);
      }
      case None =>
        if c == ':' {
          SavedIffArmedQuit(wd, s, i + 1, true);
        } else if c == 'Q' && armed {
        } else {
          SavedIffArmedQuit(wd, s, i + 1, armed);
        }
    }
  }

  /** Commands are read upper-cased, so the case of the replay does not
      matter. */
  lemma {:induction false} CaseInsensitive(wd: World, s: seq<char>, i: nat, armed: bool)
    requires Valid(wd)
    ensures Commands(wd, seq(|s|, k requires 0 <= k < |s| => Upper(s[k])), i, armed) == Commands(wd, s, i, armed)
    decreases |s| - i
  {
    var u := seq(|s|, k requires 0 <= k < |s| => Upper(s[k]));
    if i < |s| {
      UpperIdempotent(s[i]);
      var c := Upper(s[i]);
      assert Upper(u[i]) == c;
      match Command(c)
      case Some(d) => {
        match Walk(wd, d)
        case Crash(f) =>
        case Done(wd') => CaseInsensitive(wd', s, i + 1, false);
      }
      case None =>
        if c == ':' {
          CaseInsensitive(wd, s, i + 1, true);
        } else if c == 'Q' && armed {
        } else {
          CaseInsensitive(wd, s, i + 1, armed);
        }
    }
  }

  /** A character other than a move letter between ':' and 'q' does not
      disarm: ":xq" saves. A move in between does: ":wq" does not. */
  lemma ArmedThroughOthers(wd: World)
    requires Valid(wd)
    ensures Commands(wd, ":xq", 0, false) == Done((wd, true))
  {
  }

  // ---------------------------------------------------------------- replay

  /** What a replay leaves: no world (an unknown menu letter, or nothing to
      load), or the final world and whether it was saved. */
  datatype Session = NoGame | Played(world: World, save: bool)

  function Finish(r: Outcome<(World, bool)>): Outcome<Session> {
    match r
    case Crash(f) => Crash(f)
    case Done(p) => Done(Played(p.0, p.1))
  }

  /** `new World(WIDTH, HEIGHT, seed)`, with the facts a replay relies on. */
  method StartWorld(rng: Rng) returns (wd: World)
    ensures Valid(wd) && Tethered(wd) && WallFree(wd) && wd.w == Width && wd.h == Height
    ensures |wd.rooms| > 0 && wd.rooms[0] == Candidate(rng, Width, Height).0
    ensures FromSeed(wd, rng)
  {
    var rng';
    wd, rng' := NewWorld(Width, Height, rng);
  }

  /** The new-game branch of `playWithInputString`: read the seed from index
      1, skip the character after it, build the 80 x 50 world from
      `random(seed)` and play the rest of the input on it. */
  method NewGame(input: seq<char>, random: int -> Rng) returns (r: Outcome<Session>, ghost start: Option<World>)
    ensures ReadSeed(input, 1, 0).Crash? ==> r == Crash(IndexOutOfBounds)
    ensures ReadSeed(input, 1, 0).Done? ==>
              var seed, j := ReadSeed(input, 1, 0).value.0, ReadSeed(input, 1, 0).value.1;
              && start.Some? && Valid(start.value) && Tethered(start.value) && WallFree(start.value)
              && start.value.w == Width && start.value.h == Height
              && |start.value.rooms| > 0 && start.value.rooms[0] == Candidate(random(seed), Width, Height).0
              && FromSeed(start.value, random(seed))
              && r == Finish(Commands(start.value, input, j + 1, false))
  {
    start := None;
    var read := ReadSeed(input, 1, 0);
    if read.Crash? {
      return Crash(read.fault), start;
    }
    var seed, index := read.value.0, read.value.1 + 1;
    var wd := StartWorld(random(seed));
    start := Some(wd);
    r := Finish(Commands(wd, input, index, false));
    assert start.value == wd && index == ReadSeed(input, 1, 0).value.1 + 1;
  }

  /** `playWithInputString`. `random` gives the draws of `new Random(seed)`
      and `saved` the world a previous session saved, if any. An empty input
      throws on reading its first character; the menu letter is read
      upper-cased. */
  method PlayWithInputString(input: seq<char>, random: int -> Rng, saved: Option<World>)
    returns (r: Outcome<Session>, ghost start: Option<World>)
    requires saved.Some? ==> Valid(saved.value)
    ensures |input| == 0 ==> r == Crash(IndexOutOfBounds)
    ensures |input| > 0 && Upper(input[0]) != 'N' && Upper(input[0]) != 'L' ==> r == Done(NoGame)
    ensures |input| > 0 && Upper(input[0]) == 'L' ==>
              r == if saved.None? then Done(NoGame) else Finish(Commands(saved.value, input, 1, false))
    ensures |input| > 0 && Upper(input[0]) == 'N' ==>
              && (ReadSeed(input, 1, 0).Crash? ==> r == Crash(IndexOutOfBounds))
              && (ReadSeed(input, 1, 0).Done? ==>
                    var seed, j := ReadSeed(input, 1, 0).value.0, ReadSeed(input, 1, 0).value.1;
                    && start.Some? && Valid(start.value) && Tethered(start.value) && WallFree(start.value)
                    && start.value.w == Width && start.value.h == Height
                    && |start.value.rooms| > 0 && start.value.rooms[0] == Candidate(random(seed), Width, Height).0
                    && FromSeed(start.value, random(seed))
                    && r == Finish(Commands(start.value, input, j + 1, false)))
  {
    start := None;
    if |input| == 0 {
      return Crash(IndexOutOfBounds), start;
    }
    var menu := Upper(input[0]);
    if menu == 'N' {
      r, start := NewGame(input, random);
    } else if menu == 'L' {
      if saved.None? {
        r := Done(NoGame);
      } else {
        r := Finish(Commands(saved.value, input, 1, false));
      }
    } else {
      r := Done(NoGame);
    }
  }
}

=== FILE: room_collection.dfy ===
/** `RoomCollection`: the ordered list of placed rooms. `add`, `size` and `get`
    are sequence append, length and indexing; this module models the floor
    tile listing and the greedy reordering `sortByDistance`. */
module RoomCollection {
  import opened Points
  import opened Rooms

  /** `getFloorTiles`: every room's tiles, room by room in collection order. */
  function FloorTiles(rooms: seq<Room>): (tiles: seq<Point>)
    ensures forall p :: p in tiles <==> exists i :: 0 <= i < |rooms| && p in Tiles(rooms[i])
  {
    if |rooms| == 0 then []
    else
      var rest := FloorTiles(rooms[1..]);
      assert forall i :: 1 <= i < |rooms| ==> rooms[i] == rooms[1..][i - 1];
      Tiles(rooms[0]) + rest
  }

  lemma {:induction false} FloorTilesAppend(rooms: seq<Room>, r: Room)
    ensures FloorTiles(rooms + [r]) == FloorTiles(rooms) + Tiles(r)
    decreases |rooms|
  {
    if |rooms| == 0 {
      assert rooms + [r] == [r];
      assert [r][1..] == [];
    } else {
      assert (rooms + [r])[1..] == rooms[1..] + [r];
      FloorTilesAppend(rooms[1..], r);
    }
  }

  /** The replacement test of `findNearest`, exactly as written: room i
      replaces the incumbent when its centre is closer to the current room's
      centre than to the incumbent's centre. */
  predicate Beats(rooms: seq<Room>, current: Room, i: nat, incumbent: nat)
    requires i < |rooms| && incumbent < |rooms|
  {
    Closer(rooms[i], current, rooms[incumbent])
  }

  /** Room `r`'s centre is closer to `current`'s centre than to `other`'s. */
  predicate Closer(r: Room, current: Room, other: Room) {
    Dist2(Center(r), Center(current)) < Dist2(Center(r), Center(other))
  }

  /** The `for` loop of `findNearest` from index `i` with incumbent `best`. */
  function NearestFrom(rooms: seq<Room>, current: Room, i: nat, best: nat): (k: nat)
    requires best < |rooms| && best < i <= |rooms|
    ensures best <= k < |rooms| && (k == best || i <= k)
    decreases |rooms| - i
  {
    if i == |rooms| then best
    else if Beats(rooms, current, i, best) then NearestFrom(rooms, current, i + 1, i)
    else NearestFrom(rooms, current, i + 1, best)
  }

  /** The scan keeps `best` exactly when no room from `i` on beats it; a
      room it ends on is beaten by none after it, and beat an earlier
      incumbent. */
  lemma {:induction false} NearestFromSpec(rooms: seq<Room>, current: Room, i: nat, best: nat)
    requires best < |rooms| && best < i <= |rooms|
    ensures var k := NearestFrom(rooms, current, i, best);
            && (k == best <==> forall j :: i <= j < |rooms| ==> !Beats(rooms, current, j, best))
            && (k != best ==> forall j :: k < j < |rooms| ==> !Beats(rooms, current, j, k))
            && (k != best ==> Beats(rooms, current, k, best) || exists j :: best < j < k && Beats(rooms, current, k, j))
    decreases |rooms| - i
  {
    if i < |rooms| {
      if Beats(rooms, current, i, best) {
        NearestFromSpec(rooms, current, i + 1, i);
      } else {
        NearestFromSpec(rooms, current, i + 1, best);
      }
    }
  }

  /** `findNearest`: starts from index 0 and keeps the last room that beat the
      incumbent. The identity test against `current` never succeeds, because
      `current` has already been moved out of the list, and is omitted. */
  function FindNearest(rooms: seq<Room>, current: Room): (k: nat)
    requires |rooms| > 0
    ensures k < |rooms|
    ensures forall j :: k < j < |rooms| ==> !Beats(rooms, current, j, k)
    ensures k != 0 ==> exists j :: 0 <= j < k && Beats(rooms, current, k, j)
    ensures k == 0 <==> forall j :: 0 < j < |rooms| ==> !Beats(rooms, current, j, 0)
  {
    NearestFromSpec(rooms, current, 1, 0);
    NearestFrom(rooms, current, 1, 0)
  }

  /** Scanning one more room from index `i` on: the scan of the longer
      prefix ends with the scan of the shorter one, then tests the last room
      against its result. */
  lemma {:induction false} NearestFromPrefix(rooms: seq<Room>, current: Room, n: nat, i: nat, best: nat)
    requires n < |rooms| && best < i <= n
    ensures var b := NearestFrom(rooms[..n], current, i, best);
            NearestFrom(rooms[..n + 1], current, i, best) == if Beats(rooms, current, n, b) then n else b
    decreases n - i
  {
    if i == n {
      NearestFromLast(rooms, current, n, best);
    } else {
      var shorter, longer := rooms[..n], rooms[..n + 1];
      assert shorter[best] == longer[best] == rooms[best];
      assert shorter[i] == longer[i] == rooms[i];
      var next := if Beats(rooms, current, i, best) then i else best;
      assert NearestFrom(shorter, current, i, best) == NearestFrom(shorter, current, i + 1, next);
      assert NearestFrom(longer, current, i, best) == NearestFrom(longer, current, i + 1, next);
      NearestFromPrefix(rooms, current, n, i + 1, next);
    }
  }

  /** The base of `NearestFromPrefix`: only the last room is left to scan. */
  lemma NearestFromLast(rooms: seq<Room>, current: Room, n: nat, best: nat)
    requires best < n < |rooms|
    ensures NearestFrom(rooms[..n], current, n, best) == best
    ensures NearestFrom(rooms[..n + 1], current, n, best) == if Beats(rooms, current, n, best) then n else best
  {
    var longer := rooms[..n + 1];
    assert longer[best] == rooms[best] && longer[n] == rooms[n];
    if Beats(rooms, current, n, best) {
      assert NearestFrom(longer, current, n, best) == NearestFrom(longer, current, n + 1, n) == n;
    } else {
      assert NearestFrom(longer, current, n, best) == NearestFrom(longer, current, n + 1, best) == best;
    }
  }

  /** `findNearest` as a left-to-right scan: on one room it returns that
      room, and each further room replaces the result of the scan so far
      exactly when it beats it. Together these fix the result. */
  lemma FindNearestPrefix(rooms: seq<Room>, current: Room, n: nat)
    requires 0 < n < |rooms|
    ensures FindNearest(rooms[..1], current) == 0
    ensures var k := FindNearest(rooms[..n], current);
            FindNearest(rooms[..n + 1], current) == if Beats(rooms, current, n, k) then n else k
  {
    NearestFromPrefix(rooms, current, n, 1, 0);
  }

  /** The replacement test is not "closer to the current room": here room 1 is
      nearer the current room than room 0, but is exactly as far from room 0
      as from the current room, so room 0 is kept. */
  lemma FindNearestIsNotNearest()
    ensures var current := Room(-1, 1, 0, 1);
            var rooms := [Room(9, 11, 0, 1), Room(4, 6, 0, 1)];
            && FindNearest(rooms, current) == 0
            && Dist2(Center(rooms[1]), Center(current)) < Dist2(Center(rooms[0]), Center(current))
  {
    var current := Room(-1, 1, 0, 1);
    var rooms := [Room(9, 11, 0, 1), Room(4, 6, 0, 1)];
    assert Center(current) == Point(0, 0);
    assert Center(rooms[0]) == Point(10, 0);
    assert Center(rooms[1]) == Point(5, 0);
    assert Dist2(Point(5, 0), Point(0, 0)) == 25 == Dist2(Point(5, 0), Point(10, 0));
    assert !Beats(rooms, current, 1, 0);
    assert NearestFrom(rooms, current, 2, 0) == 0;
  }

  function RemoveAt<T>(s: seq<T>, k: nat): (r: seq<T>)
    requires k < |s|
    ensures multiset(r) + multiset{s[k]} == multiset(s)
    ensures |r| == |s| - 1
  {
    assert s == s[..k] + [s[k]] + s[k + 1..];
    s[..k] + s[k + 1..]
  }

  /** The `while` loop of `sortByDistance`: repeatedly move the room chosen by
      `findNearest` (from the last traversed room) to the traversed list. */
  function Chain(last: Room, rest: seq<Room>): (chain: seq<Room>)
    ensures multiset(chain) == multiset(rest)
    decreases |rest|
  {
    if |rest| == 0 then []
    else
      var k := FindNearest(rest, last);
      [rest[k]] + Chain(rest[k], RemoveAt(rest, k))
  }

  /** `sortByDistance`: a permutation of the collection that keeps the first
      room first. `removeFirst` on an empty list throws, hence the
      precondition. */
  function SortByDistance(rooms: seq<Room>): (sorted: seq<Room>)
    requires |rooms| > 0
    ensures multiset(sorted) == multiset(rooms)
    ensures |sorted| == |rooms|
    ensures sorted[0] == rooms[0]
  {
    assert rooms == [rooms[0]] + rooms[1..];
    var sorted := [rooms[0]] + Chain(rooms[0], rooms[1..]);
    assert |multiset(sorted)| == |sorted|;
    sorted
  }

  /** The indices from `j` up to `n` that are not in `used`, ascending: the
      positions of the rooms the loop has not yet traversed. */
  function Pending(n: nat, used: seq<nat>, j: nat): (p: seq<nat>)
    ensures forall t :: 0 <= t < |p| ==> j <= p[t] < n
    decreases n - j
  {
    if j >= n then []
    else if j in used then Pending(n, used, j + 1)
    else [j] + Pending(n, used, j + 1)
  }

  /** The rooms at the given positions, in that order. */
  function At(rooms: seq<Room>, idx: seq<nat>): (r: seq<Room>)
    requires forall t :: 0 <= t < |idx| ==> idx[t] < |rooms|
    ensures |r| == |idx| && forall t :: 0 <= t < |idx| ==> r[t] == rooms[idx[t]]
  {
    seq(|idx|, t requires 0 <= t < |idx| => rooms[idx[t]])
  }

  /** Step `i` of the loop from `last`, with `used` already traversed: pick
      `i` is the position chosen by `findNearest`, from the previous room,
      among the rooms not yet traversed in their original order, and
      `chain[i]` is the room there. */
  ghost predicate PickAt(rooms: seq<Room>, used: seq<nat>, last: Room, chain: seq<Room>, picks: seq<nat>, i: nat)
    requires i < |picks| && i < |chain|
  {
    PickFrom(rooms, Pending(|rooms|, used + picks[..i], 1), if i == 0 then last else chain[i - 1], picks[i], chain[i])
  }

  /** `pick` is the pending position `findNearest` chooses from `prev` (its
      scan from index 1 with incumbent 0, the value `FindNearest` returns),
      and `room` is the room there. */
  ghost predicate PickFrom(rooms: seq<Room>, pending: seq<nat>, prev: Room, pick: nat, room: Room)
    requires forall t :: 0 <= t < |pending| ==> pending[t] < |rooms|
  {
    && |pending| > 0
    && pick == pending[NearestFrom(At(rooms, pending), prev, 1, 0)]
    && room == rooms[pick]
  }

  /** Every step of `chain` is a greedy pick. */
  ghost predicate GreedyAfter(rooms: seq<Room>, used: seq<nat>, last: Room, chain: seq<Room>, picks: seq<nat>) {
    && |chain| == |picks|
    && forall i :: 0 <= i < |picks| ==> PickAt(rooms, used, last, chain, picks, i)
  }

  /** Traversing one more position drops it from the pending ones. */
  lemma {:induction false} PendingRemove(n: nat, used: seq<nat>, j: nat, k: nat)
    requires k < |Pending(n, used, j)|
    ensures RemoveAt(Pending(n, used, j), k) == Pending(n, used + [Pending(n, used, j)[k]], j)
    decreases n - j
  {
    var x := Pending(n, used, j)[k];
    if j in used {
      assert j in used + [x];
      PendingRemove(n, used, j + 1, k);
    } else if k == 0 {
      PendingUnused(n, used, used + [x], j + 1);
    } else {
      PendingRemove(n, used, j + 1, k - 1);
      PendingRemoveLater(n, used, j, k);
    }
  }

  /** The step of `PendingRemove` past an untraversed position `j`. */
  lemma PendingRemoveLater(n: nat, used: seq<nat>, j: nat, k: nat)
    requires j < n && j !in used && 0 < k < |Pending(n, used, j)|
    requires var rest := Pending(n, used, j + 1);
             RemoveAt(rest, k - 1) == Pending(n, used + [rest[k - 1]], j + 1)
    ensures RemoveAt(Pending(n, used, j), k) == Pending(n, used + [Pending(n, used, j)[k]], j)
  {
    var p, rest := Pending(n, used, j), Pending(n, used, j + 1);
    assert p == [j] + rest;
    var x := rest[k - 1];
    assert p[k] == x && j !in used + [x];
    assert RemoveAt(p, k) == [j] + RemoveAt(rest, k - 1);
  }

  /** Positions below `j` do not matter to the pending ones from `j`. */
  lemma {:induction false} PendingUnused(n: nat, used: seq<nat>, used': seq<nat>, j: nat)
    requires forall x :: j <= x < n ==> (x in used <==> x in used')
    ensures Pending(n, used, j) == Pending(n, used', j)
    decreases n - j
  {
    if j < n {
      PendingUnused(n, used, used', j + 1);
    }
  }

  /** `Chain` over the pending rooms is the greedy loop, pick by pick. */
  lemma {:induction false} ChainGreedy(rooms: seq<Room>, used: seq<nat>, last: Room) returns (picks: seq<nat>)
    ensures GreedyAfter(rooms, used, last, Chain(last, At(rooms, Pending(|rooms|, used, 1))), picks)
    decreases |Pending(|rooms|, used, 1)|
  {
    var n := |rooms|;
    var pending := Pending(n, used, 1);
    var rest := At(rooms, pending);
    if |pending| == 0 {
      picks := [];
    } else {
      var k := FindNearest(rest, last);
      var x := pending[k];
      PendingRemove(n, used, 1, k);
      var pending' := Pending(n, used + [x], 1);
      assert At(rooms, pending') == RemoveAt(rest, k);
      var picks' := ChainGreedy(rooms, used + [x], rooms[x]);
      GreedyCons(rooms, used, last, x, Chain(rooms[x], At(rooms, pending')), picks');
      picks := [x] + picks';
    }
  }

  /** A greedy pick followed by a greedy run from it is a greedy run. */
  lemma GreedyCons(rooms: seq<Room>, used: seq<nat>, last: Room, x: nat, tail: seq<Room>, picks: seq<nat>)
    requires var pending := Pending(|rooms|, used, 1);
             |pending| > 0 && x == pending[FindNearest(At(rooms, pending), last)]
    requires GreedyAfter(rooms, used + [x], rooms[x], tail, picks)
    ensures GreedyAfter(rooms, used, last, [rooms[x]] + tail, [x] + picks)
  {
    forall i | 0 <= i < |picks| + 1
      ensures PickAt(rooms, used, last, [rooms[x]] + tail, [x] + picks, i)
    {
      if i == 0 {
        PickFirst(rooms, used, last, x, tail, picks);
      } else {
        PickShift(rooms, used, last, x, tail, picks, i);
      }
    }
  }

  lemma PickFirst(rooms: seq<Room>, used: seq<nat>, last: Room, x: nat, tail: seq<Room>, picks: seq<nat>)
    requires var pending := Pending(|rooms|, used, 1);
             |pending| > 0 && x == pending[FindNearest(At(rooms, pending), last)]
    ensures PickAt(rooms, used, last, [rooms[x]] + tail, [x] + picks, 0)
  {
    assert used + ([x] + picks)[..0] == used;
  }

  lemma PickShift(rooms: seq<Room>, used: seq<nat>, last: Room, x: nat, tail: seq<Room>, picks: seq<nat>, i: nat)
    requires 0 < i <= |picks| && |tail| == |picks| && x < |rooms|
    requires PickAt(rooms, used + [x], rooms[x], tail, picks, i - 1)
    ensures PickAt(rooms, used, last, [rooms[x]] + tail, [x] + picks, i)
  {
    var chain, picks' := [rooms[x]] + tail, [x] + picks;
    assert Pending(|rooms|, used + picks'[..i], 1) == Pending(|rooms|, (used + [x]) + picks[..i - 1], 1) by {
      PrefixShift(used, x, picks, i);
    }
    assert chain[i - 1] == if i - 1 == 0 then rooms[x] else tail[i - 2];
    assert picks'[i] == picks[i - 1] && chain[i] == tail[i - 1];
  }

  /** Each greedy pick is a position after the first not picked before. */
  lemma GreedyFresh(rooms: seq<Room>, used: seq<nat>, last: Room, chain: seq<Room>, picks: seq<nat>)
    requires GreedyAfter(rooms, used, last, chain, picks)
    ensures forall i :: 0 <= i < |picks| ==> 1 <= picks[i] < |rooms| && picks[i] !in used + picks[..i]
  {
    forall i | 0 <= i < |picks|
      ensures 1 <= picks[i] < |rooms| && picks[i] !in used + picks[..i]
    {
      assert PickAt(rooms, used, last, chain, picks, i);
      PendingFresh(|rooms|, used + picks[..i], 1);
    }
  }

  /** No pending position has been traversed. */
  lemma {:induction false} PendingFresh(n: nat, used: seq<nat>, j: nat)
    ensures forall t :: 0 <= t < |Pending(n, used, j)| ==> Pending(n, used, j)[t] !in used
    decreases n - j
  {
    if j < n {
      PendingFresh(n, used, j + 1);
    }
  }

  /** What `sortByDistance` leaves: the first room, then for each step the
      room at the position `findNearest` picks, from the previously placed
      room, among the not yet traversed rooms of `rooms[1..]` in their
      original order; every position is picked once. */
  lemma SortByDistanceGreedy(rooms: seq<Room>)
    requires |rooms| > 0
    ensures var sorted := SortByDistance(rooms);
            exists picks ::
              && |picks| == |rooms| - 1
              && (forall i, j :: 0 <= i < j < |picks| ==> picks[i] != picks[j])
              && (forall i :: 0 <= i < |picks| ==> 1 <= picks[i] < |rooms|)
              && GreedyAfter(rooms, [], rooms[0], sorted[1..], picks)
  {
    var sorted := SortByDistance(rooms);
    PendingAll(|rooms|, 1);
    assert At(rooms, Pending(|rooms|, [], 1)) == rooms[1..];
    var picks := ChainGreedy(rooms, [], rooms[0]);
    assert sorted[1..] == Chain(rooms[0], rooms[1..]);
    GreedyFresh(rooms, [], rooms[0], sorted[1..], picks);
    FreshDistinct(picks);
  }

  /** Picks each absent from the picks before them are pairwise distinct. */
  lemma FreshDistinct(picks: seq<nat>)
    requires forall i :: 0 <= i < |picks| ==> picks[i] !in [] + picks[..i]
    ensures forall i, j :: 0 <= i < j < |picks| ==> picks[i] != picks[j]
  {
    forall i, j | 0 <= i < j < |picks|
      ensures picks[i] != picks[j]
    {
      assert picks[i] in [] + picks[..j];
    }
  }

  /** The first `i` picks after `used` are `x` and then `i - 1` further ones. */
  lemma PrefixShift(used: seq<nat>, x: nat, picks: seq<nat>, i: nat)
    requires 0 < i <= |picks| + 1
    ensures used + ([x] + picks)[..i] == (used + [x]) + picks[..i - 1]
  {
    assert ([x] + picks)[..i] == [x] + picks[..i - 1];
  }

  /** With nothing traversed, every position from `j` is pending. */
  lemma {:induction false} PendingAll(n: nat, j: nat)
    ensures |Pending(n, [], j)| == if j < n then n - j else 0
    ensures forall t :: 0 <= t < |Pending(n, [], j)| ==> Pending(n, [], j)[t] == j + t
    decreases n - j
  {
    if j < n {
      PendingAll(n, j + 1);
    }
  }

  /** A value occurring twice in a sequence sits at two distinct indices. */
  lemma {:induction false} TwoOccurrences<T>(s: seq<T>, x: T)
    requires multiset(s)[x] >= 2
    ensures exists i, j :: 0 <= i < j < |s| && s[i] == x && s[j] == x
    decreases |s|
  {
    assert s == [s[0]] + s[1..];
    if s[0] == x {
      assert multiset(s[1..])[x] >= 1;
      var j :| 0 <= j < |s[1..]| && s[1..][j] == x;
      assert s[j + 1] == x;
    } else {
      assert multiset(s[1..])[x] >= 2;
      TwoOccurrences(s[1..], x);
      var i, j :| 0 <= i < j < |s[1..]| && s[1..][i] == x && s[1..][j] == x;
      assert s[i + 1] == x && s[j + 1] == x;
    }
  }

  /** Any two positions of a permutation hold values that sit at two distinct
      positions of the original. */
  lemma PermutationPair<T>(a: seq<T>, b: seq<T>, i: int, j: int)
    requires multiset(a) == multiset(b) && 0 <= i < j < |b|
    ensures exists i', j' :: 0 <= i' < |a| && 0 <= j' < |a| && i' != j' && a[i'] == b[i] && a[j'] == b[j]
  {
    assert b[i] in multiset(a) && b[j] in multiset(a);
    if b[i] == b[j] {
      assert b == b[..j] + b[j..];
      assert b[i] in multiset(b[..j]) && b[j] in multiset(b[j..]);
      assert multiset(b)[b[i]] == multiset(b[..j])[b[i]] + multiset(b[j..])[b[i]];
      TwoOccurrences(a, b[i]);
    } else {
      var i' :| 0 <= i' < |a| && a[i'] == b[i];
      var j' :| 0 <= j' < |a| && a[j'] == b[j];
    }
  }
}

=== FILE: rooms.dfy ===
/** `Room`: an axis-aligned rectangle of floor cells with half-open ranges
    [x1, x2) x [y1, y2), its centre and its list of floor tiles. */
module Rooms {
  import opened JavaInt
  import opened Points

  datatype Room = Room(x1: int, x2: int, y1: int, y2: int)

  /** The centre `((x1 + x2) / 2, (y1 + y2) / 2)` with Java's truncating `/`. */
  function Center(r: Room): (c: Point)
    ensures r.x1 + r.x2 >= 0 ==> 0 <= r.x1 + r.x2 - 2 * c.x <= 1
    ensures r.y1 + r.y2 >= 0 ==> 0 <= r.y1 + r.y2 - 2 * c.y <= 1
    ensures 0 <= r.x1 <= r.x2 && 0 <= r.y1 <= r.y2 ==> r.x1 <= c.x <= r.x2 && r.y1 <= c.y <= r.y2
  {
    Point(Half(r.x1 + r.x2), Half(r.y1 + r.y2))
  }

  /** The inner `for` loop of the constructor: (x, y) for y = y .. yEnd − 1. */
  function Column(x: int, y: int, yEnd: int): seq<Point>
    decreases yEnd - y
  {
    if y >= yEnd then [] else [Point(x, y)] + Column(x, y + 1, yEnd)
  }

  /** The outer `for` loop: the columns x .. xEnd − 1 one after the other. */
  function Block(x: int, xEnd: int, y1: int, y2: int): seq<Point>
    decreases xEnd - x
  {
    if x >= xEnd then [] else Column(x, y1, y2) + Block(x + 1, xEnd, y1, y2)
  }

  /** `getTiles`: the floor tiles of the room in the order the constructor
      adds them. */
  function Tiles(r: Room): seq<Point> {
    Block(r.x1, r.x2, r.y1, r.y2)
  }

  /** x-major order: by column, then by row within a column. */
  predicate Before(p: Point, q: Point) {
    p.x < q.x || (p.x == q.x && p.y < q.y)
  }

  ghost predicate StrictlyOrdered(s: seq<Point>) {
    forall i, j :: 0 <= i < j < |s| ==> Before(s[i], s[j])
  }

  ghost predicate InRect(p: Point, x1: int, x2: int, y1: int, y2: int) {
    x1 <= p.x < x2 && y1 <= p.y < y2
  }

  lemma OrderedConcat(a: seq<Point>, b: seq<Point>)
    requires StrictlyOrdered(a) && StrictlyOrdered(b)
    requires forall p, q :: p in a && q in b ==> Before(p, q)
    ensures StrictlyOrdered(a + b)
  {
    forall i, j | 0 <= i < j < |a + b|
      ensures Before((a + b)[i], (a + b)[j])
    {
      if j < |a| {
      } else if i >= |a| {
        assert (a + b)[i] == b[i - |a|] && (a + b)[j] == b[j - |a|];
      } else {
        assert (a + b)[i] == a[i] && (a + b)[j] == b[j - |a|];
      }
    }
  }

  lemma {:induction false} ColumnShape(x: int, y: int, yEnd: int)
    ensures |Column(x, y, yEnd)| == if y <= yEnd then yEnd - y else 0
    ensures forall p :: p in Column(x, y, yEnd) <==> p.x == x && y <= p.y < yEnd
    ensures StrictlyOrdered(Column(x, y, yEnd))
    decreases yEnd - y
  {
    if y < yEnd {
      ColumnShape(x, y + 1, yEnd);
      OrderedConcat([Point(x, y)], Column(x, y + 1, yEnd));
    }
  }

  lemma {:induction false} BlockSize(x: int, xEnd: int, y1: int, y2: int)
    requires y1 <= y2
    ensures |Block(x, xEnd, y1, y2)| == if x <= xEnd then (xEnd - x) * (y2 - y1) else 0
    decreases xEnd - x
  {
    if x < xEnd {
      ColumnShape(x, y1, y2);
      BlockSize(x + 1, xEnd, y1, y2);
      MulStep(xEnd - (x + 1), y2 - y1);
    }
  }

  lemma MulStep(a: int, b: int)
    ensures (a + 1) * b == b + a * b
  {
  }

  lemma {:induction false} BlockMembers(x: int, xEnd: int, y1: int, y2: int)
    ensures forall p :: p in Block(x, xEnd, y1, y2) <==> InRect(p, x, xEnd, y1, y2)
    decreases xEnd - x
  {
    if x < xEnd {
      ColumnShape(x, y1, y2);
      BlockMembers(x + 1, xEnd, y1, y2);
    }
  }

  lemma {:induction false} BlockOrdered(x: int, xEnd: int, y1: int, y2: int)
    ensures StrictlyOrdered(Block(x, xEnd, y1, y2))
    decreases xEnd - x
  {
    if x < xEnd {
      ColumnShape(x, y1, y2);
      BlockMembers(x + 1, xEnd, y1, y2);
      BlockOrdered(x + 1, xEnd, y1, y2);
      OrderedConcat(Column(x, y1, y2), Block(x + 1, xEnd, y1, y2));
    }
  }

  /** The columns x .. xEnd − 1 of rows y1 .. y2 − 1: every cell of the
      rectangle once, in x-major order. */
  lemma BlockShape(x: int, xEnd: int, y1: int, y2: int)
    requires y1 <= y2
    ensures |Block(x, xEnd, y1, y2)| == if x <= xEnd then (xEnd - x) * (y2 - y1) else 0
    ensures forall p :: p in Block(x, xEnd, y1, y2) <==> InRect(p, x, xEnd, y1, y2)
    ensures StrictlyOrdered(Block(x, xEnd, y1, y2))
  {
    BlockSize(x, xEnd, y1, y2);
    BlockMembers(x, xEnd, y1, y2);
    BlockOrdered(x, xEnd, y1, y2);
  }

  /** The constructor `Room(x, y, width, height)`: its tiles are exactly the
      cells of [x, x + width) x [y, y + height), `width · height` of them,
      listed once each in x-major order, and for a room of positive size on
      non-negative coordinates the centre is one of them. */
  function NewRoom(x: int, y: int, width: int, height: int): (r: Room)
    ensures forall p :: p in Tiles(r) <==> InRect(p, x, x + width, y, y + height)
    ensures width >= 0 && height >= 0 ==> |Tiles(r)| == width * height
    ensures StrictlyOrdered(Tiles(r))
    ensures x >= 0 && y >= 0 && width >= 1 && height >= 1 ==> Center(r) in Tiles(r)
  {
    var r := Room(x, x + width, y, y + height);
    if height >= 0 then
      BlockShape(x, x + width, y, y + height);
      r
    else
      BlockShape(x, x + width, y, y);
      EmptyColumns(x, x + width, y, y + height);
      r
  }

  lemma {:induction false} EmptyColumns(x: int, xEnd: int, y1: int, y2: int)
    requires y2 <= y1
    ensures Block(x, xEnd, y1, y2) == Block(x, xEnd, y1, y1)
    decreases xEnd - x
  {
    if x < xEnd {
      EmptyColumns(x + 1, xEnd, y1, y2);
    }
  }

  /** `intersects`: overlap of the closed intervals [x1, x2] and [y1, y2]. */
  predicate Intersects(a: Room, b: Room) {
    (a.x1 <= b.x2 && a.x2 >= b.x1) && (a.y1 <= b.y2 && a.y2 >= b.y1)
  }

  lemma IntersectsSymmetric(a: Room, b: Room)
    ensures Intersects(a, b) <==> Intersects(b, a)
  {
  }

  lemma IntersectsReflexive(a: Room)
    requires a.x1 <= a.x2 && a.y1 <= a.y2
    ensures Intersects(a, a)
  {
  }

  /** Two rooms that share only a boundary line still intersect. */
  lemma TouchingIntersects(a: Room, b: Room)
    requires a.x1 <= a.x2 && b.x1 <= b.x2
    requires a.x2 == b.x1 && a.y1 <= b.y2 && b.y1 <= a.y2
    ensures Intersects(a, b)
  {
  }

  /** Rooms that do not intersect have no tile in common; more, a full column
      or row of non-room cells separates them. */
  lemma ApartRoomsSeparated(a: Room, b: Room, p: Point, q: Point)
    requires !Intersects(a, b)
    requires a.y1 <= a.y2 && b.y1 <= b.y2
    requires p in Tiles(a) && q in Tiles(b)
    ensures Abs(p.x - q.x) >= 2 || Abs(p.y - q.y) >= 2
  {
    BlockShape(a.x1, a.x2, a.y1, a.y2);
    BlockShape(b.x1, b.x2, b.y1, b.y2);
  }
}

=== FILE: tiles.dfy ===
/** The tile kinds of the game's tile set that the core compares by identity.
    Glyphs and colours are not modelled. The kinds the core compares by
    description (floor, the walls, traps, energy, player, buddy) each have their own
    description, so there comparing descriptions is comparing kinds; the six
    `ToAnalog` variants share one description but are never compared. */
module TileKinds {

  /** An index into one of the five-entry palettes (decorative walls, their
      dark variants, the virtual static floors). */
  type Shade = i: nat | i < 5

  datatype Tile =
    | Nothing                      // the empty void
    | Floor
    | FloorDark                    // remembered floor
    | Wall                         // the plain wall of the original tile set
    | DecoWall(shade: Shade)       // WALL1 .. WALL5
    | DecoWallDark(shade: Shade)   // WALL1D .. WALL5D
    | Player
    | Buddy
    | Trap
    | Energy
    | PlayerV                      // virtual projection kinds
    | BuddyV
    | WallV
    | FloorV
    | Static(level: Shade)         // STATIC1 .. STATIC5
    | ToDigital                    // transition glyphs
    | ToAnalog(variant: nat)

  /** The kinds the display projection renders as a dark floor when only
      remembered. */
  predicate DimsToFloor(t: Tile) {
    t == Floor || t == Trap || t == Energy
  }
}

=== FILE: worlds.dfy ===
/** `World` after generation: the tile grid, the player and buddy, the trap and
    energy registries, and the operations that change them while playing. */
module Worlds {
  import opened Points
  import opened Grids
  import opened TileKinds
  import opened Rooms
  import opened Registry
  import opened Actors
  import opened Builder
  import opened Outcomes

  /** The world size `Game` uses. */
  const Width: nat := 80
  const Height: nat := 50

  datatype World = World(
    grid: Grid<Tile>, w: nat, h: nat,
    rooms: seq<Room>, halls: seq<seq<Point>>, walls: seq<Point>,
    player: Player, buddy: Buddy,
    traps: Registry, energys: Registry)

  /** The grid has the world's shape, both actors stand on cells of it, and
      the registries list cells of it under their own tile kinds. */
  ghost predicate Valid(wd: World) {
    && IsGrid(wd.grid, wd.w, wd.h)
    && InBounds(wd.player.pos, wd.w, wd.h) && InBounds(wd.buddy.pos, wd.w, wd.h)
    && wd.traps.tile == Trap && AllIn(wd.traps.positions, wd.w, wd.h)
    && wd.energys.tile == Energy && AllIn(wd.energys.positions, wd.w, wd.h)
  }

  /** The buddy is on the player's cell or one of its eight neighbours. */
  ghost predicate Tethered(wd: World) {
    Chebyshev(wd.player.pos, wd.buddy.pos) <= 1
  }

  /** No cell, and no tile remembered by an actor, is the plain wall. */
  ghost predicate WallFree(wd: World)
    requires IsGrid(wd.grid, wd.w, wd.h)
  {
    && (forall x, y :: 0 <= x < wd.w && 0 <= y < wd.h ==> wd.grid[x][y] != Wall)
    && wd.player.above != Wall && wd.buddy.above != Wall
  }

  /** `changeTile`: one cell rewritten, everything else kept. */
  function ChangeTile(wd: World, p: Point, t: Tile): (wd': World)
    requires Valid(wd) && InBounds(p, wd.w, wd.h)
    ensures wd' == wd.(grid := wd'.grid) && Valid(wd')
    ensures wd'.grid[p.x][p.y] == t
    ensures forall x, y :: 0 <= x < wd.w && 0 <= y < wd.h && Point(x, y) != p ==> wd'.grid[x][y] == wd.grid[x][y]
  {
    wd.(grid := Set(wd.grid, p, t))
  }

  /** `demolishTraps`: every registered trap cell becomes floor, whatever it
      shows now, and the registry is emptied. */
  function DemolishTraps(wd: World): (wd': World)
    requires Valid(wd)
    ensures wd' == wd.(grid := wd'.grid, traps := wd'.traps) && Valid(wd')
    ensures wd'.traps.positions == []
    ensures forall x, y :: 0 <= x < wd.w && 0 <= y < wd.h ==>
              wd'.grid[x][y] == if Point(x, y) in wd.traps.positions then Floor else wd.grid[x][y]
  {
    wd.(grid := DemolishAll(wd.grid, wd.w, wd.h, wd.traps.positions), traps := RemoveAll(wd.traps))
  }

  /** `demolishEnergys`: every registered energy cell becomes floor, and the
      registry is emptied. */
  function DemolishEnergys(wd: World): (wd': World)
    requires Valid(wd)
    ensures wd' == wd.(grid := wd'.grid, energys := wd'.energys) && Valid(wd')
    ensures wd'.energys.positions == []
    ensures forall x, y :: 0 <= x < wd.w && 0 <= y < wd.h ==>
              wd'.grid[x][y] == if Point(x, y) in wd.energys.positions then Floor else wd.grid[x][y]
  {
    wd.(grid := DemolishAll(wd.grid, wd.w, wd.h, wd.energys.positions), energys := RemoveAll(wd.energys))
  }

  /** `Player.decrementLives`: one life fewer; when none is left, every
      energy is demolished. */
  function DecrementLives(wd: World): (wd': World)
    requires Valid(wd)
    ensures Valid(wd') && wd'.player == wd.player.(lives := wd.player.lives - 1)
    ensures wd'.player.lives < 1 ==> wd' == DemolishEnergys(wd.(player := wd'.player))
    ensures wd'.player.lives >= 1 ==> wd' == wd.(player := wd'.player)
  {
    var wd1 := wd.(player := wd.player.(lives := wd.player.lives - 1));
    if wd1.player.lives < 1 then DemolishEnergys(wd1) else wd1
  }

  /** `Buddy.addCharge`: one charge more; once enough charges are collected
      and the player still has a life, every trap is demolished (again on
      each later charge). */
  function AddCharge(wd: World): (wd': World)
    requires Valid(wd)
    ensures Valid(wd') && wd'.buddy == wd.buddy.(charges := wd.buddy.charges + 1)
    ensures wd'.buddy.charges >= ChargesNeeded && wd.player.lives > 0 ==>
              wd' == DemolishTraps(wd.(buddy := wd'.buddy))
    ensures !(wd'.buddy.charges >= ChargesNeeded && wd.player.lives > 0) ==>
              wd' == wd.(buddy := wd'.buddy)
  {
    var wd1 := wd.(buddy := wd.buddy.(charges := wd.buddy.charges + 1));
    if wd1.buddy.charges >= ChargesNeeded && wd1.player.lives > 0 then DemolishTraps(wd1) else wd1
  }

  /** The trap-or-energy part of `movePlayer`: stepping on a trap costs a
      life, stepping on an energy while digital adds a charge; either way the
      cell becomes floor. */
  function Collect(wd: World, to: Point): (wd': World)
    requires Valid(wd) && InBounds(to, wd.w, wd.h)
    ensures wd'.w == wd.w && wd'.h == wd.h && Valid(wd')
    ensures wd'.player.pos == wd.player.pos && wd'.player.above == wd.player.above
    ensures wd'.player.digital == wd.player.digital
    ensures wd'.buddy.pos == wd.buddy.pos && wd'.buddy.above == wd.buddy.above
    ensures wd'.grid[to.x][to.y] == if Trapped(wd, to) || Charged(wd, to) then Floor else wd.grid[to.x][to.y]
    ensures wd'.player.lives == wd.player.lives - if Trapped(wd, to) then 1 else 0
    ensures wd'.buddy.charges == wd.buddy.charges + if Charged(wd, to) then 1 else 0
  {
    if Trapped(wd, to) then ChangeTile(DecrementLives(wd), to, Floor)
    else if Charged(wd, to) then ChangeTile(AddCharge(wd), to, Floor)
    else wd
  }

  /** The target cell holds a trap. */
  predicate Trapped(wd: World, to: Point)
    requires Valid(wd) && InBounds(to, wd.w, wd.h)
  {
    wd.grid[to.x][to.y] == Trap
  }

  /** The target cell holds an energy and the player is in the digital world. */
  predicate Charged(wd: World, to: Point)
    requires Valid(wd) && InBounds(to, wd.w, wd.h)
  {
    wd.grid[to.x][to.y] == Energy && wd.player.digital
  }

  /** `movePlayer`: collect, move the player (restoring the cell it leaves),
      then let the buddy follow (restoring the cell it leaves and remembering
      the one it enters). The only index the source reads without the
      caller's guarantee is the buddy's new cell, hence the second
      precondition. */
  function MovePlayer(wd: World, to: Point): (wd': World)
    requires Valid(wd) && InBounds(to, wd.w, wd.h)
    requires InBounds(Follow(wd.buddy.pos, to), wd.w, wd.h)
    ensures wd'.w == wd.w && wd'.h == wd.h && Valid(wd')
    ensures wd'.player.pos == to && wd'.buddy.pos == Follow(wd.buddy.pos, to)
    ensures wd'.player.digital == wd.player.digital
    ensures wd'.player.above == if Trapped(wd, to) || Charged(wd, to) then Floor else wd.grid[to.x][to.y]
    ensures wd'.player.lives == wd.player.lives - if Trapped(wd, to) then 1 else 0
    ensures wd'.buddy.charges == wd.buddy.charges + if Charged(wd, to) then 1 else 0
    ensures wd'.grid[wd'.buddy.pos.x][wd'.buddy.pos.y] == Tile.Buddy
    ensures wd'.buddy.pos != to ==> wd'.grid[to.x][to.y] == Tile.Player
  {
    FollowKeepsPlayer(wd, to);
    BuddyFollows(PlayerSteps(wd, to), Follow(wd.buddy.pos, to))
  }

  /** What the buddy remembers after a move: nothing new if it stays; if it
      moves, the cell it leaves shows what it remembered, and it remembers
      the cell it enters as the player's step left it: the player's own
      remembered tile if it takes the player's old place, otherwise the
      tile there before the move (or floor, if collecting demolished it). */
  lemma BuddyRemembers(wd: World, to: Point)
    requires Valid(wd) && InBounds(to, wd.w, wd.h)
    requires InBounds(Follow(wd.buddy.pos, to), wd.w, wd.h)
    ensures var wd', bTo := MovePlayer(wd, to), Follow(wd.buddy.pos, to);
            && (bTo == wd.buddy.pos ==> wd'.buddy.above == wd.buddy.above)
            && (bTo != wd.buddy.pos ==> wd'.grid[wd.buddy.pos.x][wd.buddy.pos.y] == wd.buddy.above)
            && (bTo != wd.buddy.pos && bTo == wd.player.pos && to != wd.player.pos ==> wd'.buddy.above == wd.player.above)
            && (bTo != wd.buddy.pos && bTo != to && bTo != wd.player.pos ==>
                  || wd'.buddy.above == wd.grid[bTo.x][bTo.y]
                  || (wd'.buddy.above == Floor && (bTo in wd.traps.positions || bTo in wd.energys.positions)))
  {
    var bTo := Follow(wd.buddy.pos, to);
    if bTo != wd.buddy.pos && bTo != to && bTo != wd.player.pos {
      StepKeepsCell(wd, to, bTo);
      CollectFrame(wd, to, bTo);
    }
  }

  /** Unless the buddy ends on the player's new cell, it leaves that cell
      showing the player. */
  lemma FollowKeepsPlayer(wd: World, to: Point)
    requires Valid(wd) && InBounds(to, wd.w, wd.h)
    requires InBounds(Follow(wd.buddy.pos, to), wd.w, wd.h)
    ensures var bTo := Follow(wd.buddy.pos, to);
            bTo != to ==> BuddyFollows(PlayerSteps(wd, to), bTo).grid[to.x][to.y] == Tile.Player
  {
    var bTo := Follow(wd.buddy.pos, to);
    if bTo != to {
      FollowStill(wd.buddy.pos, to);
      FollowKeepsCell(PlayerSteps(wd, to), bTo, to);
    }
  }

  /** The buddy's half of a move leaves alone a cell it neither leaves nor
      enters. */
  lemma FollowKeepsCell(wd: World, bTo: Point, c: Point)
    requires Valid(wd) && InBounds(bTo, wd.w, wd.h) && InBounds(c, wd.w, wd.h)
    requires c != bTo && c != wd.buddy.pos
    ensures BuddyFollows(wd, bTo).grid[c.x][c.y] == wd.grid[c.x][c.y]
  {
  }

  /** The player's half of `movePlayer`: collect, then move the player onto
      `to`, restoring the cell it leaves. */
  function PlayerSteps(wd: World, to: Point): (wd': World)
    requires Valid(wd) && InBounds(to, wd.w, wd.h)
    ensures wd'.w == wd.w && wd'.h == wd.h && Valid(wd')
    ensures wd'.player.pos == to && wd'.player.digital == wd.player.digital
    ensures wd'.player.above == if Trapped(wd, to) || Charged(wd, to) then Floor else wd.grid[to.x][to.y]
    ensures wd'.player.lives == wd.player.lives - if Trapped(wd, to) then 1 else 0
    ensures wd'.buddy.pos == wd.buddy.pos && wd'.buddy.above == wd.buddy.above
    ensures wd'.buddy.charges == wd.buddy.charges + if Charged(wd, to) then 1 else 0
    ensures wd'.grid[to.x][to.y] == Tile.Player
  {
    var wd1 := Collect(wd, to);
    var from, left := wd.player.pos, wd.player.above;
    var wd2 := wd1.(player := Move(wd1.player, to, wd1.grid[to.x][to.y]));
    ChangeTile(ChangeTile(wd2, from, left), to, Tile.Player)
  }

  /** The buddy's half of `movePlayer`: restore the cell the buddy leaves,
      remember the one it enters at `bTo`, and show the buddy there. */
  function BuddyFollows(wd: World, bTo: Point): (wd': World)
    requires Valid(wd) && InBounds(bTo, wd.w, wd.h)
    ensures wd'.w == wd.w && wd'.h == wd.h && Valid(wd')
    ensures wd'.player == wd.player && wd'.traps == wd.traps && wd'.energys == wd.energys
    ensures wd'.buddy.pos == bTo && wd'.buddy.charges == wd.buddy.charges
    ensures wd'.grid[bTo.x][bTo.y] == Tile.Buddy
    ensures wd'.buddy.above == if bTo == wd.buddy.pos then wd.buddy.above else wd.grid[bTo.x][bTo.y]
    ensures bTo != wd.buddy.pos ==> wd'.grid[wd.buddy.pos.x][wd.buddy.pos.y] == wd.buddy.above
    ensures forall x, y :: 0 <= x < wd.w && 0 <= y < wd.h && Point(x, y) != bTo && Point(x, y) != wd.buddy.pos ==>
              wd'.grid[x][y] == wd.grid[x][y]
  {
    var bFrom, bLeft := wd.buddy.pos, wd.buddy.above;
    var wd4 := ChangeTile(wd, bFrom, bLeft);
    var wd5 := wd4.(buddy := wd4.buddy.(pos := bTo, above := wd4.grid[bTo.x][bTo.y]));
    ChangeTile(wd5, bTo, Tile.Buddy)
  }

  /** `canMoveUp` .. `canMoveRight`: the neighbour in direction `d` is not the
      plain wall. Reading a neighbour off the grid throws. */
  function CanMove(wd: World, d: Direction): (r: Outcome<bool>)
    requires Valid(wd)
    ensures var q := Step(wd.player.pos, d);
            && (r.Done? <==> InBounds(q, wd.w, wd.h))
            && (r.Done? ==> (r.value <==> wd.grid[q.x][q.y] != Wall))
  {
    var q := Step(wd.player.pos, d);
    if InBounds(q, wd.w, wd.h) then Done(wd.grid[q.x][q.y] != Wall) else Crash(IndexOutOfBounds)
  }

  /** Walls are built from the decorative kinds only, so in a world without
      the plain wall nothing inside the grid blocks a move. */
  lemma WallsNeverBlock(wd: World, d: Direction)
    requires Valid(wd) && WallFree(wd)
    requires InBounds(Step(wd.player.pos, d), wd.w, wd.h)
    ensures CanMove(wd, d) == Done(true)
  {
    var q := Step(wd.player.pos, d);
    assert wd.grid[q.x][q.y] != Wall;
  }

  /** A tethered buddy stays tethered, and inside the grid, when the player
      takes a step in the grid. */
  lemma MoveKeepsTethered(wd: World, d: Direction)
    requires Valid(wd) && Tethered(wd)
    requires InBounds(Step(wd.player.pos, d), wd.w, wd.h)
    ensures InBounds(Follow(wd.buddy.pos, Step(wd.player.pos, d)), wd.w, wd.h)
    ensures Tethered(MovePlayer(wd, Step(wd.player.pos, d)))
  {
    var q := Step(wd.player.pos, d);
    FollowKeepsClose(wd.buddy.pos, wd.player.pos, d);
    var m := MovePlayer(wd, q);
    TetheredAt(m, Follow(wd.buddy.pos, q));
  }

  /** A buddy within one cell of the player, in either order, is tethered. */
  lemma TetheredAt(wd: World, r: Point)
    requires wd.buddy.pos == r && Chebyshev(r, wd.player.pos) <= 1
    ensures Tethered(wd)
  {
  }

  /** Demolition and collection write floor only. */
  lemma CollectKeepsWallFree(wd: World, to: Point)
    requires Valid(wd) && InBounds(to, wd.w, wd.h) && WallFree(wd)
    ensures WallFree(Collect(wd, to))
  {
    assert GridWallFree(wd);
    if Trapped(wd, to) {
      DecrementKeepsWallFree(wd);
      ChangeKeepsWallFree(DecrementLives(wd), to, Floor);
    } else if Charged(wd, to) {
      AddChargeKeepsWallFree(wd);
      ChangeKeepsWallFree(AddCharge(wd), to, Floor);
    }
    assert GridWallFree(Collect(wd, to));
  }

  lemma DecrementKeepsWallFree(wd: World)
    requires Valid(wd) && GridWallFree(wd)
    ensures GridWallFree(DecrementLives(wd))
  {
  }

  lemma AddChargeKeepsWallFree(wd: World)
    requires Valid(wd) && GridWallFree(wd)
    ensures GridWallFree(AddCharge(wd))
  {
  }

  /** Every tile `movePlayer` writes is floor, an actor, or a tile an actor
      remembered from the grid, so a world without the plain wall keeps
      none. */
  lemma MoveKeepsWallFree(wd: World, to: Point)
    requires Valid(wd) && InBounds(to, wd.w, wd.h)
    requires InBounds(Follow(wd.buddy.pos, to), wd.w, wd.h)
    requires WallFree(wd)
    ensures WallFree(MovePlayer(wd, to))
  {
    StepKeepsWallFree(wd, to);
    FollowKeepsWallFree(PlayerSteps(wd, to), Follow(wd.buddy.pos, to));
  }

  lemma StepKeepsWallFree(wd: World, to: Point)
    requires Valid(wd) && InBounds(to, wd.w, wd.h) && WallFree(wd)
    ensures WallFree(PlayerSteps(wd, to))
  {
    CollectKeepsWallFree(wd, to);
    var wd1 := Collect(wd, to);
    assert wd1.grid[to.x][to.y] != Wall;
    var wd2 := wd1.(player := Move(wd1.player, to, wd1.grid[to.x][to.y]));
    ChangeKeepsWallFree(wd2, wd.player.pos, wd.player.above);
    var wd2a := ChangeTile(wd2, wd.player.pos, wd.player.above);
    ChangeKeepsWallFree(wd2a, to, Tile.Player);
    assert PlayerSteps(wd, to) == ChangeTile(wd2a, to, Tile.Player);
  }

  lemma FollowKeepsWallFree(wd: World, bTo: Point)
    requires Valid(wd) && InBounds(bTo, wd.w, wd.h) && WallFree(wd)
    ensures WallFree(BuddyFollows(wd, bTo))
  {
    ChangeKeepsWallFree(wd, wd.buddy.pos, wd.buddy.above);
    var wd4 := ChangeTile(wd, wd.buddy.pos, wd.buddy.above);
    assert wd4.grid[bTo.x][bTo.y] != Wall;
    var wd5 := wd4.(buddy := wd4.buddy.(pos := bTo, above := wd4.grid[bTo.x][bTo.y]));
    ChangeKeepsWallFree(wd5, bTo, Tile.Buddy);
    assert BuddyFollows(wd, bTo) == ChangeTile(wd5, bTo, Tile.Buddy);
  }

  /** No cell of the grid is the plain wall. */
  ghost predicate GridWallFree(wd: World)
    requires IsGrid(wd.grid, wd.w, wd.h)
  {
    forall x, y :: 0 <= x < wd.w && 0 <= y < wd.h ==> wd.grid[x][y] != Wall
  }

  /** Writing anything but the plain wall keeps the grid free of it. */
  lemma ChangeKeepsWallFree(wd: World, p: Point, t: Tile)
    requires Valid(wd) && InBounds(p, wd.w, wd.h) && GridWallFree(wd) && t != Wall
    ensures GridWallFree(ChangeTile(wd, p, t))
  {
  }

  /** The cell the player leaves shows again what it showed before the player
      arrived, unless an actor stands on it afterwards or stood on it. */
  lemma LeavingRestores(wd: World, to: Point)
    requires Valid(wd) && InBounds(to, wd.w, wd.h)
    requires InBounds(Follow(wd.buddy.pos, to), wd.w, wd.h)
    requires wd.player.pos != to && wd.player.pos != wd.buddy.pos
    requires wd.player.pos != Follow(wd.buddy.pos, to)
    ensures var wd' := MovePlayer(wd, to);
            wd'.grid[wd.player.pos.x][wd.player.pos.y] == wd.player.above
  {
  }

  /** Away from the four cells the actors leave and enter, a move changes a
      cell only by demolishing a registered trap or energy to floor. */
  lemma MoveFrame(wd: World, to: Point, c: Point)
    requires Valid(wd) && InBounds(to, wd.w, wd.h)
    requires InBounds(Follow(wd.buddy.pos, to), wd.w, wd.h)
    requires InBounds(c, wd.w, wd.h)
    requires c != to && c != wd.player.pos && c != wd.buddy.pos && c != Follow(wd.buddy.pos, to)
    ensures var wd' := MovePlayer(wd, to);
            || wd'.grid[c.x][c.y] == wd.grid[c.x][c.y]
            || (wd'.grid[c.x][c.y] == Floor && (c in wd.traps.positions || c in wd.energys.positions))
  {
    var stepped := PlayerSteps(wd, to);
    FollowKeepsCell(stepped, Follow(wd.buddy.pos, to), c);
    StepKeepsCell(wd, to, c);
    CollectFrame(wd, to, c);
  }

  /** The player's half of a move leaves a cell other than the two it
      leaves and enters as collection left it. */
  lemma StepKeepsCell(wd: World, to: Point, c: Point)
    requires Valid(wd) && InBounds(to, wd.w, wd.h) && InBounds(c, wd.w, wd.h)
    requires c != to && c != wd.player.pos
    ensures PlayerSteps(wd, to).grid[c.x][c.y] == Collect(wd, to).grid[c.x][c.y]
  {
  }

  /** Collection changes a cell other than the target only by demolishing a
      registered trap or energy to floor. */
  lemma CollectFrame(wd: World, to: Point, c: Point)
    requires Valid(wd) && InBounds(to, wd.w, wd.h) && InBounds(c, wd.w, wd.h) && c != to
    ensures var g := Collect(wd, to).grid;
            || g[c.x][c.y] == wd.grid[c.x][c.y]
            || (g[c.x][c.y] == Floor && (c in wd.traps.positions || c in wd.energys.positions))
  {
    if Trapped(wd, to) {
      var d := DecrementLives(wd);
      assert d.grid[c.x][c.y] == wd.grid[c.x][c.y] || (d.grid[c.x][c.y] == Floor && c in wd.energys.positions);
    } else if Charged(wd, to) {
      var a := AddCharge(wd);
      assert a.grid[c.x][c.y] == wd.grid[c.x][c.y] || (a.grid[c.x][c.y] == Floor && c in wd.traps.positions);
    }
  }

  /** A trap that takes the last life demolishes every energy and empties the
      energy registry; a charge that completes the set with lives left
      empties the trap registry. */
  lemma MoveDemolishes(wd: World, to: Point)
    requires Valid(wd) && InBounds(to, wd.w, wd.h)
    requires InBounds(Follow(wd.buddy.pos, to), wd.w, wd.h)
    ensures var wd' := MovePlayer(wd, to);
            && (Trapped(wd, to) && wd.player.lives <= 1 ==> wd'.energys.positions == [] && wd'.traps == wd.traps)
            && (Charged(wd, to) && wd.buddy.charges + 1 >= ChargesNeeded && wd.player.lives > 0 ==>
                  wd'.traps.positions == [] && wd'.energys == wd.energys)
            && (!Trapped(wd, to) && !Charged(wd, to) ==> wd'.traps == wd.traps && wd'.energys == wd.energys)
  {
    var c := Collect(wd, to);
    assert MovePlayer(wd, to).traps == c.traps && MovePlayer(wd, to).energys == c.energys;
  }
}
